=== FILE: README.md ===
# libeli5 core, modelled in Dafny

This project models six small, self-contained pieces of logic from libeli5 and proves properties about them.

- **`eli5::Variant`** (modules `Variant`, `VariantTests`) is a tagged union of up to 16 alternatives. Unused positions are padded with always-equal filler types `ES0`..`ES15`.
  - The model keeps the discriminant `field_num` (-1 before construction) and one optional slot per alternative.
  - Its invariant: exactly the slot named by `field_num` is live and holds a value of that alternative's type.
  - Operations: construction (including from a C string), `TypeToIndex`/`TypeHelper`, `Is`, `GetOrDie` by type and by index, the conversion operators, copy, destruction, `==`/`!=` and `DispatchUsing`.
  - `VariantTests` restates the repository's own `Variant` tests as lemmas.
- **Command-line flags** (module `Flags`):
  - the registry of named flags, which rejects a duplicate name;
  - the bool parser;
  - `set_flag`/`get_flag`/`operator=`;
  - the `InitializeFlags` scan of `argv` for `--name=value`.
- **Diogenes**, the test harness (module `Diogenes`):
  - test registration order;
  - the `ShouldRunTest` filter;
  - `RunAll`;
  - the run/pass/fail counters of `RecordExpectStatusOrPrintResults`;
  - the keyed snapshot cache of `DioGetOrSetSnapshot`.
- **cpp-makeheader** (modules `LocationCodes`, `HeaderScan`, `HeaderBlocks`):
  - the per-depth child counters and comma-joined location codes;
  - the line-by-line first pass: comment-block merging, using-declarations, block starts and prototypes;
  - the brace-matching block-end scan;
  - the anonymous-namespace and preceding-comment filters;
  - `do_replacements`.
- **lazeb** (module `Lazeb`):
  - default naming in `cc_binary`, `cc_test` and `cc_objfile`;
  - the `#include "..."` line filter;
  - `os.path.splitext`;
  - the provider lookup;
  - the sorted, de-duplicated link sets of object files and binaries over an include graph;
  - the write-once guard for objfile rules.
- **elido** (module `Elido`):
  - truncation of the arguments at `--`;
  - the choice of subcommand;
  - line selection (skip the first N lines, then every stride-th line);
  - fixed-size chunking that drops an incomplete last chunk, with the `XN` line number;
  - `varname_escaped`;
  - the ordering of the cross product.

Shared modules:
- `Wrappers` defines `Option` and `Result`.
- `Text` holds the string functions the Python and C++ code relies on: `find`, `strip`, `startswith`, `split`/`join`, decimal rendering and Python slicing with negative indices.

Errors the source raises become `Failure` values. These cover:
- a C++ `assert`;
- a Python `IndexError`;
- Python's `ZeroDivisionError` on `% 0`;
- the `assert` on an unparsable using line.

Python's `%` takes the sign of the divisor. Python slices clamp and count negative indices from the end. Both are written out explicitly.

Inputs the programs read are parameters:
- `argv`;
- the header text;
- the file contents behind `#include` (a map from file name to its lines);
- the input lines of elido.

The older `variant/variant.cc` has the same constructors, `Is`, `GetOrDie`, conversions, dispatch and indexed getter as `variant/variant.h`. It has no copy, destructor or equality. `flags/flags.h` is the header form of `flags/flags.cc`, with the same logic. The rows below cite `variant/variant.h`, `variant/variant.gen.cc` and `flags/flags.cc`; the same members model the corresponding code of the older file and of the header.

## Model

| member | source | states |
|---|---|---|
| Variant.Alternatives | variant/variant.h:207-214 | the alternative list is the user's types followed by the fillers `ES<k>` up to 16 positions |
| Variant.PaddingKeepsRealTypes | variant/variant.h:207-214 | padding with fillers does not change how often a real type occurs, so type lookup is unaffected |
| Variant.TypeToIndex | variant/variant.h:136-203 | a type that occurs once maps to the one position holding it and to no other |
| Variant.TypeIndexRoundTrip | variant/variant.h:915-985 | index→type (`TypeHelper`) and type→index (`TypeToIndex`) are inverse for types that occur once |
| Variant.TypeHelper | variant/variant.h:915-985 | `TypeHelper<N, V>::value_type` is the type declared for slot N, fillers included; it has no contract of its own, and TypeIndexRoundTrip states that it inverts TypeToIndex |
| Variant.Unconstructed | variant/variant.h:277 | before any constructor runs, `field_num` is -1 and no slot is live |
| Variant.UnconstructedIsInert | variant/variant.h:277 | an unconstructed variant answers `Is` false, `GetOrDie` fails, destruction releases nothing, dispatch calls nothing and it is not `==` to itself |
| Variant.Construct | variant/variant.h:280-375 | constructing from a value of alternative `Ti` sets `field_num` to `i`, the only position of that type, and stores exactly that value |
| Variant.CString | variant/variant.h:388 | a C string is read up to its first NUL; a string without NUL is kept whole |
| Variant.FromCString | variant/variant.h:388 | a string literal is stored in the unique `string` alternative, whatever its position |
| Variant.Destroy | variant/variant.h:390-458 | the destructor releases at most one slot, the one named by `field_num` |
| Variant.DestroyReleasesExactlyLive | variant/variant.h:390-458 | a slot is released iff it is live: the active one for a constructed variant, none for `field_num` -1 |
| Variant.Copy | variant/variant.h:460-544 | the copy has the same `field_num`, duplicates the active slot and leaves every other slot empty |
| Variant.CopyIsFaithful | variant/variant.h:460-544 | copying a coherent variant yields an equal variant with the same active value |
| Variant.GetOrDie | variant/variant.h:552-556 | `GetOrDie<T>` succeeds iff `Is<T>` and then returns the active value, of type T; otherwise it is the failed assert |
| Variant.Is | variant/variant.h:563-566 | `Is<T>` is true iff the position of T is `field_num` |
| Variant.IsMatchesActiveType | variant/variant.h:563-566 | on a constructed variant, `Is<T>` holds iff the stored value has type T |
| Variant.ConvertAt | variant/variant.h:580-709 | `explicit operator Ti&` succeeds iff `field_num == i`, returning slot i's value, else it fails the assert |
| Variant.IndexedGetOrDie | variant/variant.gen.cc:330-335 | `GetOrDie<N>` succeeds iff `field_num == N` and returns the active value of alternative N |
| Variant.IndexedAgreesWithTyped | variant/variant.gen.cc:330-335 | indexed access at N, typed access at the Nth type and conversion at N give the same result |
| Variant.DispatchUsing | variant/variant.h:718-770 | dispatch calls `Run` exactly once with the active value for a real alternative, never for a filler, and never on an unconstructed variant |
| Variant.DispatchOneValue | variant/variant.h:840-885 | the `ES<k>` overloads call nothing and the generic overload calls `Run` once, with the value itself |
| Variant.Equals | variant/variant.h:774-829 | `==` is true iff both are constructed with the same `field_num` and equal active values |
| Variant.NotEquals | variant/variant.h:832 | `!=` is the exact negation of `==` |
| Variant.EqualsIsValueEquality | variant/variant.h:774-829 | on constructed variants `==` is reflexive, symmetric and coincides with equality of the modelled values, taking each alternative's own `==` to be equality of values (see Left out) |
| Variant.ConstructThenAccess | variant/variant.h:552-566 | after constructing from x, `Is<T>` holds iff T is x's type, and `GetOrDie<T>` returns x exactly then and fails otherwise |
| VariantTests.ExampleTest | variant/variant.gen.cc:342-365 | the documented example: `Variant<int, double>{1.25}` is a double, returns 1.25 by type and by index 1, and access as int or at index 0 fails |
| VariantTests.BasicTest | variant/variant.gen.cc:379-386 | `Variant<int>{100}` converts back to 100 |
| VariantTests.TwoTypesTest | variant/variant.gen.cc:388-398 | `Variant<Si,Sd>` from `Si{100}` or `Sd{103.5}` converts back to that value, and the wrong conversion fails |
| VariantTests.DispatchBothTest | variant/variant.gen.cc:420-425 | dispatching an `Sd`-holding variant runs the `Sd` handler once |
| VariantTests.FallbackDispatchTest | variant/variant.gen.cc:427-433 | a `Variant<Si>` with only an `Si` handler runs it once |
| VariantTests.IndexedGetTest | variant/variant.gen.cc:435-440 | indexed `GetOrDie<0>` on an `Si` variant returns the stored `Si` |
| VariantTests.CopyTest | variant/variant.gen.cc:442-447 | a copied string variant yields the same string |
| VariantTests.EqualityTest | variant/variant.gen.cc:449-456 | two variants from "abcd" are `==`, and one from 1 is `!=` to them |
| VariantTests.ListInitTest | variant/variant.gen.cc:458-462 | a string literal lands in the string alternative, and `GetOrDie<1>` returns "abcd" |
| VariantTests.ListInitVectorTest | variant/variant.gen.cc:474-481 | in `{1, "abcd", 2}` each element keeps its own alternative and value |
| Flags.Register | flags/flags.cc:60-67 | registration fails iff the name is already registered, and otherwise appends exactly the new flag |
| Flags.RegisterKeepsNamesUnique | flags/flags.cc:60-67 | the registry's names stay pairwise distinct, and the new name is registered |
| Flags.ParseBoolAccepts | flags/flags.cc:77-82 | the bool parser returns true iff the text is "1" or "true"; "True", "yes" and "" are false |
| Flags.ParseBool | flags/flags.cc:77-82 | `FlagParser<bool>` on a flag's text; it has no contract of its own, and ParseBoolAccepts states which texts are true |
| Flags.SetFlag | flags/flags.cc:98-101 | `set_flag` changes only the chosen flag, and every name stays |
| Flags.SetFlagFromString | flags/flags.cc:103-106 | the string setter keeps the registry's shape |
| Flags.Assign | flags/flags.cc:119-121 | `operator=` returns what `get_flag` now returns |
| Flags.SetThenGet | flags/flags.cc:98-121 | after `set_flag(v)` or `= v`, `get_flag` returns v; after the string setter it returns the parsed text; other flags are unchanged |
| Flags.GetFlag | flags/flags.cc:108-110 | `get_flag()` reads a flag's stored value; it has no contract of its own, and SetThenGet states that it returns the value last set |
| Flags.ClassifyArg | flags/flags.cc:129-160 | an argument stops the scan iff it is "--"; an accepted one is exactly `--name=value` with no '=' in the name, a non-empty value and length at least 5 |
| Flags.ClassifyArgRoundTrip | flags/flags.cc:135-160 | every well-formed `--name=value` is parsed back into exactly that name and value |
| Flags.ClassifyArgSkips | flags/flags.cc:137-156 | arguments shorter than 5, without the "--" prefix, without '=' or with '=' only at the end are skipped |
| Flags.SetMatching | flags/flags.cc:162-166 | every flag with the parsed name gets the value; the others and unknown names change nothing |
| Flags.ApplyArgs | flags/flags.cc:125-168 | the scan keeps every flag's name and the registry's length |
| Flags.ApplyArgsUsesLastSetting | flags/flags.cc:125-168 | after the scan, each flag holds the value of the last accepted argument naming it, or its old value if there is none |
| Flags.InitializeFlags | flags/flags.cc:125-168 | the loop skips `argv[0]`, stops at "--", and equals the last-setting rule |
| Flags.ExampleTest | flags/flags.cc:187-217 | a fresh bool flag is false, becomes true after `set_flag(true)`, and assignment returns true |
| Flags.InitializeOneFlag | flags/flags.cc:219-230 | `prog --name=value` sets exactly the flags called name to the parsed value and leaves the rest unchanged |
| Diogenes.Unnamed | diogenes/diogenes.h:102-106 | a test registered without a name has no filename, no test name and line -1 |
| Diogenes.Named | diogenes/diogenes.h:110-121 | a named test records its filename, line and test name |
| Diogenes.RegisterTest | diogenes/diogenes.h:102-121 | every constructor appends the test at the end and keeps the earlier ones |
| Diogenes.RegistrationKeepsOrder | diogenes/diogenes.h:133-139 | registering tests one by one leaves them in registration order |
| Diogenes.ShouldRunTest | diogenes/diogenes.h:142-148 | a test without a filename or a test name is never selected |
| Diogenes.ShouldRunTestSelects | diogenes/diogenes.h:141-148 | a spec containing the test's name or its filename selects it |
| Diogenes.Record | diogenes/diogenes.h:169-187 | op 1 counts a pass or a fail, op 2 counts a run, op 0 fails iff a failure was counted, and nothing else changes |
| Diogenes.DioExpect | diogenes/diogenes.h:190-195 | a true expectation adds one to passed, a false one adds one to failed, and no other counter changes |
| Diogenes.RecordExpectsCounts | diogenes/diogenes.h:169-195 | a test body's expectations add their true ones to passed and their false ones to failed |
| Diogenes.SelectedRun | diogenes/diogenes.h:152-161 | every test `RunAll` runs passes the filter, or the spec is empty |
| Diogenes.SelectedComplete | diogenes/diogenes.h:152-161 | every test that passes the filter is run |
| Diogenes.SelectedIncreasing | diogenes/diogenes.h:152-161 | tests run in registration order, each at most once |
| Diogenes.SelectedExactly | diogenes/diogenes.h:152-161 | the tests run are exactly the selected ones, in order |
| Diogenes.EmptySpecRunsEverything | diogenes/diogenes.h:152-161 | an empty spec runs every registered test, in order |
| Diogenes.UnnamedNeverSelected | diogenes/diogenes.h:142-154 | with a non-empty spec, a test without a name never runs |
| Diogenes.NamedTestSkipped | diogenes/diogenes.h:142-161 | with a non-empty spec, `RunAll` skips a named test iff the spec contains neither its filename nor its test name |
| Diogenes.CountersAfterCounts | diogenes/diogenes.h:152-187 | after running the selected tests, the run count grows by their number and passed+failed by their expectations |
| Diogenes.RunAll | diogenes/diogenes.h:152-164 | the loop runs exactly the selected tests, keeps the counters above, and the final report fails iff a failure was counted |
| Diogenes.FreshRunPassesIffAllExpectsPass | diogenes/diogenes.h:162-187 | from zero counters, the final report succeeds iff every expectation of every selected test is true |
| Diogenes.Snapshot | diogenes/diogenes.h:282-311 | get returns the stored value and ok iff the key is present; set inserts without overwriting and returns ok; other ops return not-ok; only set changes the cache |
| Diogenes.GetSnapshotted | diogenes/diogenes.h:317-324 | the typed getter yields the stored value iff the key is present |
| Diogenes.SnapshotSetThenGet | diogenes/diogenes.h:282-311 | after a set, a get of that key returns the value already stored, if any, and otherwise the new value |
| Diogenes.SnapshotSetIdempotent | diogenes/diogenes.h:299-304 | a second set of the same key changes nothing, and a get changes nothing |
| LocationCodes.OpenBrace | cpp-makeheader/cpp-makeheader.py:174-179 | at a `{`, the counter list grows by one at a new depth, never shrinks or lowers a counter, and fails (as Python would) only for an index before its start |
| LocationCodes.OpenBraceCounts | cpp-makeheader/cpp-makeheader.py:174-179 | a new depth gets a first child set to 1, and a known depth counts one more child |
| LocationCodes.UpdateNumChildren | cpp-makeheader/cpp-makeheader.py:172-182 | the returned depth is the input depth plus the number of `{` minus the number of `}`, and counters only grow |
| LocationCodes.UpdateNumChildrenSafe | cpp-makeheader/cpp-makeheader.py:172-182 | from a depth the counters cover, a line that never closes more than is open cannot raise, and the counters still cover the new depth |
| LocationCodes.LocationCode | cpp-makeheader/cpp-makeheader.py:190 | the code is the comma-join of the first `scope_level` counters, with Python's slice for a negative depth |
| LocationCodes.CodeEmptyIff | cpp-makeheader/cpp-makeheader.py:190 | a location code is empty iff its depth is 0 |
| LocationCodes.EnclosesIsPrefix | cpp-makeheader/cpp-makeheader.py:157-158 | comparing codes with a trailing comma is exactly the prefix order on the counter lists, that is, scope enclosure |
| LocationCodes.AsWrittenAcceptsEnclosing | cpp-makeheader/cpp-makeheader.py:332 | the script's string-prefix test accepts every enclosing scope |
| LocationCodes.AsWrittenConfusesSiblings | cpp-makeheader/cpp-makeheader.py:332 | the script's test also accepts code "1" as enclosing code "10", a sibling scope |
| HeaderScan.UsingPath | cpp-makeheader/cpp-makeheader.py:231 | a parsed using path is non-empty, has no spaces and comes from a line starting `using` plus a space; which lines parse is stated by UsingPathMatches |
| HeaderScan.CapturedPath | cpp-makeheader/cpp-makeheader.py:231 | the regex group captures a non-empty run of non-space characters |
| HeaderScan.CapturedPathOf | cpp-makeheader/cpp-makeheader.py:231 | the group after `using` captures exactly the path before the spaces and `;` |
| HeaderScan.UsingPathRoundTrip | cpp-makeheader/cpp-makeheader.py:231 | every line `using <spaces><path><spaces>;<spaces>` parses back to the path |
| HeaderScan.UsingPathParsed | cpp-makeheader/cpp-makeheader.py:231 | conversely, a line that parses is `using`, at least one space, the path it gives, optional spaces, `;` and optional spaces |
| HeaderScan.UsingPathMatches | cpp-makeheader/cpp-makeheader.py:231-232 | the regex matches a line iff it is such a well-formed using line, so the `assert` stops the script on every other line starting `using ` |
| HeaderScan.UsingNamespaceRejected | cpp-makeheader/cpp-makeheader.py:230-232 | `using namespace std;` does not match, so the script stops on it |
| HeaderScan.LastComponentIsSuffix | cpp-makeheader/cpp-makeheader.py:235 | the short name of a using path is a suffix of it |
| HeaderScan.LastComponentUnqualifiedResult | cpp-makeheader/cpp-makeheader.py:235 | the short name contains no `::` |
| HeaderScan.LastComponentOfQualified | cpp-makeheader/cpp-makeheader.py:235 | for `a::b::c` with unqualified parts, the short name is the last part |
| HeaderScan.LastComponent | cpp-makeheader/cpp-makeheader.py:235 | `split('::')[-1]`, what follows the last `::`; it has no contract of its own, and the three lemmas above state its properties |
| HeaderScan.ClassifyLine | cpp-makeheader/cpp-makeheader.py:213-274 | lines are blank iff empty, copied verbatim iff `#include `/`#define `, using lines iff `using `; `namespace {` opens an anonymous namespace; prototypes end in `{` and do not start with a space or mention `DioTest` |
| HeaderScan.ExtendComment | cpp-makeheader/cpp-makeheader.py:199-207 | a `//` line right after the candidate extends it, and any other `//` line starts a new one |
| HeaderScan.CloseComment | cpp-makeheader/cpp-makeheader.py:208-211 | a non-comment line records a non-empty candidate as a comment block and resets it |
| HeaderScan.RecordLine | cpp-makeheader/cpp-makeheader.py:213-274 | a line fails iff it is a using line whose path does not parse, and otherwise only appends to the outputs, block starts or usings |
| HeaderScan.ScanLine | cpp-makeheader/cpp-makeheader.py:185-274 | one line advances the offset past it, `//` lines merge into the candidate, and other lines close it |
| HeaderScan.ScanLines | cpp-makeheader/cpp-makeheader.py:185-274 | the loop over all lines, stopping at the first that fails; it has no contract of its own, and ScanLinesKeepsConsistent states its invariant |
| HeaderScan.Scan | cpp-makeheader/cpp-makeheader.py:111-112 | the first pass over `inbuf.split('\n')`; it has no contract of its own, and ScanRangesInInput bounds the ranges it records |
| HeaderScan.ScanLinesKeepsConsistent | cpp-makeheader/cpp-makeheader.py:185-274 | every recorded range lies within the text read so far |
| HeaderScan.ScanRangesInInput | cpp-makeheader/cpp-makeheader.py:185-274 | the first pass ends at offset `len(inbuf) + 1`, because it counts a newline after every line of `inbuf.split('\n')`, the last one included; every range it records lies in `0 .. len(inbuf) + 1`, so a range of a last line with no final newline ends one past the input |
| HeaderScan.ScanLinesEnd | cpp-makeheader/cpp-makeheader.py:185-187 | after the lines, the offset has moved past each line and its newline |
| HeaderScan.SplitWidth | cpp-makeheader/cpp-makeheader.py:111-112 | the pieces of `inbuf.split('\n')`, each with one newline after it, span the input and one more character |
| HeaderScan.CommentRunMerges | cpp-makeheader/cpp-makeheader.py:199-207 | a run of consecutive `//` lines becomes one candidate block spanning all of them, with nothing else recorded |
| HeaderBlocks.BlockEnd | cpp-makeheader/cpp-makeheader.py:293-304 | the loop computes the block scan, and its final depth is the brace balance of the text it read |
| HeaderBlocks.ScanBlock | cpp-makeheader/cpp-makeheader.py:293-304 | the scan stops at the end of the input or once the depth has returned to 0 after a first `{` |
| HeaderBlocks.BlockEndAfterMatchingBrace | cpp-makeheader/cpp-makeheader.py:293-304 | with a balanced body, the scan ends right after the `}` that matches the first `{`, at depth 0 |
| HeaderBlocks.ExtractBlock | cpp-makeheader/cpp-makeheader.py:283-321 | a block is unbalanced iff the scan ends at non-zero depth; a balanced block is an excluded range iff its start is flagged as an anonymous namespace, otherwise its opening range plus a one-byte range for the closing `}` iff flagged as a named namespace, otherwise the whole block from its start to the scan's end, keeping the start's flags and location code, with suffix `;` when flagged and "" otherwise |
| HeaderBlocks.ExtractBlocks | cpp-makeheader/cpp-makeheader.py:283-321 | the second pass only appends, at most two outputs and one range or report per block start |
| HeaderBlocks.AnonymousRangesFromAnonymousStarts | cpp-makeheader/cpp-makeheader.py:283-321 | every excluded range comes from an anonymous-namespace block start and spans its block |
| HeaderBlocks.WithinAnonymousNamespace | cpp-makeheader/cpp-makeheader.py:347-355 | true iff some recorded range `[s, e]` has `s <= start` and `end <= e` |
| HeaderBlocks.CommentBlockEndingBefore | cpp-makeheader/cpp-makeheader.py:357-361 | returns the first comment block ending where the range starts, and None iff there is none |
| HeaderBlocks.ReplaceIdentity | cpp-makeheader/cpp-makeheader.py:337 | `str.replace(x, x)` changes nothing |
| HeaderBlocks.ReplaceAbsent | cpp-makeheader/cpp-makeheader.py:337 | replacing a name that does not occur changes nothing |
| HeaderBlocks.ReplaceEmptyLength | cpp-makeheader/cpp-makeheader.py:337 | replacing the empty string inserts the replacement around every character |
| HeaderBlocks.ReplaceAll | cpp-makeheader/cpp-makeheader.py:337 | Python's `str.replace`, left to right and without overlaps; it has no contract of its own, and the three Replace lemmas above state its identity, no-occurrence and empty-pattern cases |
| HeaderBlocks.Applicable | cpp-makeheader/cpp-makeheader.py:328-345 | the using declarations applied to a range are exactly those from an enclosing scope |
| HeaderBlocks.DoReplacements | cpp-makeheader/cpp-makeheader.py:328-345 | with the flag off, the exact slice; with no applicable declaration, the slice plus its suffix |
| HeaderBlocks.ApplicableAsWritten | cpp-makeheader/cpp-makeheader.py:332 | the script's filter keeps exactly the declarations whose code is a string prefix of the range's code |
| HeaderBlocks.DoReplacementsAsWritten | cpp-makeheader/cpp-makeheader.py:328-345 | the script's `do_replacements`, with the same slice and suffix behaviour |
| HeaderBlocks.EnclosesImpliesAsWritten | cpp-makeheader/cpp-makeheader.py:332 | the script's test accepts everything the intended one does, and a top-level declaration applies everywhere |
| HeaderBlocks.ApplicableAppend | cpp-makeheader/cpp-makeheader.py:331-334 | the filter keeps the declaration order: filtering a concatenation concatenates the filtered parts |
| HeaderBlocks.ApplicableAsWrittenAppend | cpp-makeheader/cpp-makeheader.py:331-334 | the script's filter keeps the declaration order in the same way |
| HeaderBlocks.ApplicableDropsOtherScopes | cpp-makeheader/cpp-makeheader.py:331-334 | removing declarations from non-enclosing scopes, anywhere in the list, leaves the applicable list unchanged |
| HeaderBlocks.ApplicableAsWrittenDropsOtherScopes | cpp-makeheader/cpp-makeheader.py:331-334 | removing declarations whose code is not a string prefix of the range's code leaves the script's list unchanged |
| HeaderBlocks.DoReplacementsIgnoresOtherScopes | cpp-makeheader/cpp-makeheader.py:328-345 | declarations from scopes that do not enclose the range, wherever they sit in the list, leave the result unchanged |
| HeaderBlocks.DoReplacementsAsWrittenIgnoresOtherScopes | cpp-makeheader/cpp-makeheader.py:328-345 | the same for the script's filter: declarations whose code is not a string prefix of the range's code leave the result unchanged |
| HeaderBlocks.AsWrittenRewritesSiblingScope | cpp-makeheader/cpp-makeheader.py:332 | `using a::Foo;` at code "1" rewrites `Foo` in a range at code "10" in the script, and not under the intended test |
| Lazeb.CcBinary | lazeb/lazeb.py:88-97 | `cc_binary` appends one non-test binary whose output defaults to name + "_main" and whose sources default to [name + ".cc"] |
| Lazeb.CcTest | lazeb/lazeb.py:100-109 | `cc_test` appends one test binary whose output defaults to name + "_test_main" and whose source defaults to name + ".cc" |
| Lazeb.CcObjfile | lazeb/lazeb.py:112-121 | `cc_objfile` appends one unwritten objfile with outputs defaulting to [name.o, name.h] and source defaulting to name.cc |
| Lazeb.IncludeOf | lazeb/lazeb.py:168-170 | the stripped line, when it starts with `#include "`, gives `line[10:-1]`; it has no contract of its own, and IncludeLineRoundTrip reads an include line back |
| Lazeb.IncludedFiles | lazeb/lazeb.py:163-171 | the filter keeps at most one name per line |
| Lazeb.IncludedFilesNone | lazeb/lazeb.py:163-171 | nothing is returned when no line is a quoted include |
| Lazeb.IncludedFilesAppend | lazeb/lazeb.py:163-171 | the includes of concatenated line lists are the includes of each, in order |
| Lazeb.IncludedFilesMembers | lazeb/lazeb.py:163-171 | a name is returned iff some line is `#include "name"` |
| Lazeb.IncludeLineRoundTrip | lazeb/lazeb.py:168-170 | the name in `#include "f"` is read back as f by `line[10:-1]` |
| Lazeb.IncludeLineWithNewline | lazeb/lazeb.py:167-170 | the same line as `readlines()` returns it, with its newline, is read back as f: `strip()` removes the newline first |
| Lazeb.IncludedFilesRoundTrip | lazeb/lazeb.py:163-171 | the include lines of a list of files are read back as that list, in order |
| Lazeb.Splitext | lazeb/lazeb.py:264-265 | `splitext` splits a path into a root and an extension that concatenate back to it |
| Lazeb.SplitextRoundTrip | lazeb/lazeb.py:283-284 | `root.ext` with a plain extension splits back into root and ".ext" |
| Lazeb.SourceObjects | lazeb/lazeb.py:283-284 | each source becomes its root plus ".o", in order |
| Lazeb.TargetProviding | lazeb/lazeb.py:174-183 | the provider is the first binary with that output, otherwise the first objfile with it, and None iff neither exists |
| Lazeb.CcBinaryProvidesOutput | lazeb/lazeb.py:174-183 | a newly declared binary provides its output when nothing else did |
| Lazeb.CcObjfileProvidesObject | lazeb/lazeb.py:174-183 | a newly declared objfile provides name.o when nothing else did |
| Lazeb.Objects | lazeb/lazeb.py:263-266 | the objects of an output list are exactly its ".o" entries |
| Lazeb.SortedUnique | lazeb/lazeb.py:271 | `sorted(set(xs))` is strictly increasing with the same elements as xs |
| Lazeb.SortedIsCanonical | lazeb/lazeb.py:271 | two strictly sorted lists with the same elements are equal |
| Lazeb.FirstBinary | lazeb/lazeb.py:175-177 | the index of the first binary whose output is the file, and None iff no binary has it |
| Lazeb.FirstObjfile | lazeb/lazeb.py:179-181 | the index of the first objfile listing the file among its outputs, and None iff none lists it |
| Lazeb.ObjfileLinkSet | lazeb/lazeb.py:242-271 | an objfile's link set is sorted, duplicate-free and holds only ".o" files, and it fails naming the source when the source file is missing; when it succeeds is stated by ObjfileLinkSetSucceeds |
| Lazeb.ObjfileLinkSetFromClosed | lazeb/lazeb.py:253-271 | the link set of an objfile is computed whenever the objfile lies in a set of objfiles whose sources can all be read and whose includes are all provided by objfiles of the set |
| Lazeb.ObjfileLinkSetReach | lazeb/lazeb.py:253-271 | conversely, a computed link set comes with such a closed set containing the objfile |
| Lazeb.ObjfileLinkSetSucceeds | lazeb/lazeb.py:253-271 | the link set is computed iff the objfile lies in such a closed set; otherwise some source the recursion reaches is missing, or some file it includes has no provider or a binary provider |
| Lazeb.ObjfileLinkSetCovers | lazeb/lazeb.py:242-271 | for each included file with an objfile provider, the link set holds that provider's objects and its own link set |
| Lazeb.ObjfileLinkSetOnlyFromIncludes | lazeb/lazeb.py:257-271 | every entry of an objfile's link set is an object of, or in the link set of, the objfile providing one of its source's includes |
| Lazeb.IncludesLinkList | lazeb/lazeb.py:257-269 | the list collected over the included files holds only ".o" files |
| Lazeb.LinkListCovers | lazeb/lazeb.py:257-269 | every included file's provider objects and link set are in the collected list |
| Lazeb.LinkListOnlyFromIncludes | lazeb/lazeb.py:257-269 | every entry of the collected list comes from the provider of one of the listed files |
| Lazeb.SourcesLinkListObjects | lazeb/lazeb.py:289-297 | the transitive part of a binary's link set holds only ".o" files |
| Lazeb.SourcesLinkListProvided | lazeb/lazeb.py:289-297 | when it succeeds, every source object has an objfile provider |
| Lazeb.SourcesLinkListCovers | lazeb/lazeb.py:289-297 | the collected list contains the whole link set of every source object's provider |
| Lazeb.SourcesLinkListOnly | lazeb/lazeb.py:289-297 | every entry of the collected list is in the link set of some source object's provider |
| Lazeb.SourcesLinkListExactly | lazeb/lazeb.py:289-297 | the collected list contains the link set of every source object's provider, and nothing else |
| Lazeb.BinaryLinkSet | lazeb/lazeb.py:274-299 | a binary's link set is sorted and unique, holds each source's root + ".o", and adds only ".o" files; it fails exactly when collecting the sources' transitive link lists fails, which BinaryLinkSetSucceeds characterises |
| Lazeb.SourcesLinkListFromClosed | lazeb/lazeb.py:289-297 | the loop over the source objects completes when a closed set of objfiles provides every one of them |
| Lazeb.SourcesLinkListReach | lazeb/lazeb.py:289-297 | conversely, a completed loop comes with a closed set of objfiles providing every source object |
| Lazeb.BinaryLinkSetSucceeds | lazeb/lazeb.py:274-299 | a binary's link set is computed iff some set of objfiles closed under includes provides every source's object; otherwise a source object has no objfile provider, or a source or include reached from one is missing or unprovided |
| Lazeb.BinaryLinkSetTransitive | lazeb/lazeb.py:274-299 | a binary's link set holds each source object and that object's objfile link set, and every other entry comes from such a link set |
| Lazeb.WriteObjfileRule | lazeb/lazeb.py:304-308 | rules are emitted iff the objfile was not yet written; it is then marked written and nothing else changes |
| Lazeb.WriteAll | lazeb/lazeb.py:304-308 | over any sequence of calls, each objfile's rules are emitted at most once, and exactly for those called and not already written |
| Elido.ArgsToUse | elido/src/elido.py:284-293 | the arguments before the first "--", or all of them if there is none |
| Elido.ChooseParser | elido/src/elido.py:372-385 | the cross-product parser is chosen iff the first remaining argument is "cross_product", and that argument is dropped |
| Elido.CommandArgumentsIgnored | elido/src/elido.py:284-293 | arguments after "--" never affect elido's own arguments or the parser choice |
| Elido.DashDashDropsCommand | elido/src/elido.py:284-293 | as written, the parser sees the same words as if the "--" and everything after it were absent, so `elido -- --x` parses no words at all |
| Elido.SplitCommandLine | elido/src/elido.py:44-45 | the documented split: elido's arguments before the first "--", the command's words after it, which concatenate back to the input |
| Elido.SplitCommandLineKeepsCommand | elido/src/elido.py:44-45 | the command keeps every word after the first "--", even one starting with "--" or reading "cross_product" |
| Elido.PyMod | elido/src/elido.py:574 | Python's `%` has the divisor's sign and is zero exactly when Dafny's is |
| Elido.Selected | elido/src/elido.py:566-575 | the indices of the processed lines lie below the line count; SelectedExactly states which they are |
| Elido.SelectedExactly | elido/src/elido.py:566-575 | the collected lines are exactly those at or after `ignore_first_n` whose offset is a multiple of the stride, increasing |
| Elido.DefaultsSelectAll | elido/src/elido.py:324-327 | with the defaults (skip 0, stride 1) every line is collected |
| Elido.Schedule | elido/src/elido.py:580-596 | every emitted command has exactly `chunksize` lines, and nothing is emitted below a full chunk |
| Elido.ScheduleLength | elido/src/elido.py:328-332 | the number of commands is the number of collected lines divided by the chunk size, rounded down |
| Elido.ScheduleTail | elido/src/elido.py:580-596 | after a full chunk's command come exactly the commands of the remaining lines |
| Elido.ScheduleDrop | elido/src/elido.py:580-596 | the commands from q on are exactly the schedule of the collected lines from chunk q's start |
| Elido.ScheduleChunk | elido/src/elido.py:577-596 | command q holds the collected lines q·chunksize onward, stripped, and records the input line number of its last line |
| Elido.XnValue | elido/src/elido.py:578 | `XN` is a non-empty string of decimal digits |
| Elido.XnValueRoundTrip | elido/src/elido.py:578 | reading `XN`'s digits back gives the command's last line number |
| Elido.DoElido | elido/src/elido.py:566-596 | the loop fails iff stride 0 meets a line to check, and otherwise emits exactly the chunked schedule of the collected lines |
| Elido.ElidoStep | elido/src/elido.py:569-596 | one input line keeps the loop's invariant and emits at most one command |
| Elido.VarnameEscaped | elido/src/elido.py:553 | the escaped name is twice as long |
| Elido.VarnameEscapedShape | elido/src/elido.py:553 | a backslash precedes every character of the name |
| Elido.UnescapeRoundTrip | elido/src/elido.py:553 | dropping every other character of the escaped name gives the name back |
| Elido.ProductOrder | elido/src/elido.py:148-160 | combinations are ordered with the last file varying fastest |
| Elido.Product | elido/src/elido.py:543 | `itertools.product` yields as many combinations as the product of the file lengths |
| Elido.ProductMembers | elido/src/elido.py:543 | a combination appears iff it picks one line from each file, in file order |
| Elido.CrossProductOutput | elido/src/elido.py:540-546 | there is one write per file per combination, and write q·n + i is element i of combination q, which comes from file i |
| Text.Strip | lazeb/lazeb.py:168 | `str.strip()` gives a contiguous slice of the input: only white space is cut off before and after it, it has no white space at either end, and it is the input itself when the input holds no white space |
| Text.StripOfPadded | lazeb/lazeb.py:168 | `strip()` of a text with non-space ends surrounded by white space is exactly that text |
| Text.SliceBound | lazeb/lazeb.py:170 | a negative slice bound counts from the end, and every bound is clamped to 0..len |
| Text.PySlice | lazeb/lazeb.py:170 | Python's `s[i:j]` is the ordinary slice within bounds, clamps a `j` past the end, and is never longer than `s` |
| Text.FindFrom | cpp-makeheader/cpp-makeheader.py:247 | `s.find(sub, from)` is -1 or a position at or after `from` where `sub` occurs; that it is the first such position is stated by FindFromIsFirst |
| Text.FindFromIsFirst | cpp-makeheader/cpp-makeheader.py:247 | `s.find(sub, from)` is -1 exactly when `sub` occurs nowhere at or after `from`, and otherwise no earlier position from `from` on holds `sub` |
| Text.Find | diogenes/diogenes.h:146-147 | `find` is -1 (`npos`) or a position where `sub` occurs; that it is the first is stated by FindIsFirst |
| Text.FindIsFirst | diogenes/diogenes.h:146-147 | `find` is -1 (`npos`) exactly when `sub` occurs nowhere, and otherwise the first occurrence |
| Text.Split | cpp-makeheader/cpp-makeheader.py:112 | `split` on one character gives at least one piece, and no piece holds the separator |
| Text.SplitJoin | cpp-makeheader/cpp-makeheader.py:112 | joining the pieces with the separator gives the input back |

## Left out

- Printing and I/O: `cout`/`cerr` output, stdin and file reads, `StringIO`, Makefile text. The inputs become parameters and the outputs become values.
- The `DIOTEST` macro, `std::function` invocation and the setup/teardown hooks of Diogenes. A test body is its sequence of expectation results.
- `DioSnapshotOnExit`. It is the same set operation as `Snapshot` op 1.
- The compile-time template machinery of `Variant`:
  - a missing `TypeToIndex` specialisation;
  - a repeated alternative type (identical overloads);
  - a string literal without a `string` alternative.
  These are the preconditions "occurs exactly once" on each operation.
- Raw union storage, placement new and explicit destructor calls. The model has one optional slot per alternative.
- `Variant::Mutable`. It only casts away `const`.
- The `const` conversion overloads. They are identical to the non-const ones.
- `Test_Vector` and `Test_ListInitVector_NoStringInVariant`. The first is covered by `VariantTests.ListInitVectorTest`; the second only checks that code does not compile.
- Variant.Equals: the alternatives' `operator==` is taken to be equality of the modelled values, so every alternative is compared structurally. A user type with its own `==` is not modelled, and `double` is a real, so there is no NaN that compares unequal to itself.
- Variant.DispatchUsing: requires a handler for every real alternative. A missing overload is a compile error, not a no-op.
- `FlagParser<int>`, which uses `std::stoi` with exceptions. The generic `FlagParser` fallback is a compile error. Flags are modelled as bool flags.
- C++ `int` overflow of the Diogenes counters. Counters are unbounded naturals.
- In elido:
  - `eval` of backtick expressions and the regex substitution of `{var}` templates;
  - hashing and base64 context functions;
  - float conversion of values;
  - subprocess execution, worker threads and the queue;
  - progress output and `pipes.quote` dry-run output.
  A command is modelled as its stripped lines and its `XN` value.
- In elido: the option parsing by `argparse` itself. Only the `--` cut and the subcommand choice are modelled, and option values become parameters.
- Elido.CrossProductOutput: it states the sequence of strings written, not the lines of the output. Each element keeps its own line ending, so the output has one line per element only when every input line ends in a newline; a last line without one runs into the next element.
- Elido.Schedule: the substitution of `X0`.. and of `--define` or `--rawsym` symbols into the command template is not modelled. A command is its lines and `XN`.
- In cpp-makeheader:
  - the SHA-1 hash and random include guard;
  - the final `outputs.sort()` and write loop;
  - the unused `write_byterange`, which reads the suffix field as flags.
- HeaderBlocks.DoReplacements: its ensures fix the result only with the flag off or no applicable declaration. With declarations, the result is `str.replace` applied in declaration order, as defined. `DoReplacementsIgnoresOtherScopes` adds that non-applicable declarations change nothing.
- HeaderBlocks.DoReplacementsAsWritten: the same gap as `DoReplacements`, with the script's filter; `DoReplacementsAsWrittenIgnoresOtherScopes` is its counterpart.
- In lazeb:
  - `execfile` of the BUILD file;
  - the implicit rules;
  - `write_binary_link_rule`;
  - `os.path.join` with the base directory.
  Include contents are a map from file name to lines.
- Lazeb.ObjfileLinkSet: requires an acyclic include graph, given as a rank for every objfile of the build, reachable or not. The script recurses without bound on a cycle, such as a.cc including b.h while b.cc includes a.h; the model does not exhibit that. A source missing from the include map is a `Failure(NoSource)` value where the script's `open` raises.
- Lazeb.BinaryLinkSet: requires the same acyclicity. A missing or non-objfile provider is a `Failure` value where the script's `assert` aborts.
- logging: a stream façade outside this model.

## Findings

| source | as written | input that shows it | evidently intended | confidence | as-written member | corrected member |
|---|---|---|---|---|---|---|
| cpp-makeheader/cpp-makeheader.py:332 | a using declaration applies to an output when the output's location code `startswith` the declaration's code, a plain string prefix | a declaration in the first top-level block (code "1") and an output in the tenth (code "10"): "10" starts with "1", so the sibling block's names get rewritten | a declaration applies only inside scopes it encloses: compare the comma-terminated codes, so "1," is not a prefix of "10," | not executed | HeaderBlocks.DoReplacementsAsWritten | HeaderBlocks.DoReplacements |
| elido/src/elido.py:289-293 | `compute_args_to_use` keeps only the words before the first "--" and computes the command's range without using it; `parse_args` (line 383) parses just those words | `elido -- --x`, the documented way to run a command starting with "--": the parser receives no words, so the command `--x` is lost | the words after the first "--" become the command, so `--x` is run | not executed | Elido.DashDashDropsCommand | Elido.SplitCommandLineKeepsCommand |

=== FILE: diogenes.dfy ===
/** Diogenes test-harness bookkeeping: the registry of tests, the run filter, the
    `RunAll` loop with its pass/fail/run counters, and the keyed snapshot cache.
    A test body is opaque; all that matters here is the sequence of `DioExpect`
    outcomes it reports. */
module Diogenes {
  import opened Wrappers
  import opened Text

  /** A registered `DioTest`: optional file name, line number and test name, and the
      outcomes of the `DioExpect` calls its body makes, in order. */
  datatype DioTest = DioTest(filename: Option<string>, linenum: int, testName: Option<string>, expects: seq<bool>)

  /** `DioTest(Lambda l)`: an unnamed test; file and name stay null, line -1. */
  function Unnamed(expects: seq<bool>): (t: DioTest)
    ensures t.filename.None? && t.testName.None? && t.linenum == -1
  {
    DioTest(None, -1, None, expects)
  }

  /** `DioTest(filename, linenum, test_name[, l])`, also what `DIOTEST(name)` expands to. */
  function Named(filename: string, linenum: int, testName: string, expects: seq<bool>): (t: DioTest)
    ensures t.filename == Some(filename) && t.testName == Some(testName) && t.linenum == linenum
  {
    DioTest(Some(filename), linenum, Some(testName), expects)
  }

  /** Every constructor ends with `AllTests().push_back(this)`. */
  function RegisterTest(all: seq<DioTest>, t: DioTest): (r: seq<DioTest>)
    ensures |r| == |all| + 1 && r[|all|] == t
    ensures r[..|all|] == all
  {
    all + [t]
  }

  /** Static initialisation registers the tests one by one. */
  function RegisterAll(all: seq<DioTest>, ts: seq<DioTest>): seq<DioTest>
    decreases |ts|
  {
    if |ts| == 0 then all else RegisterAll(RegisterTest(all, ts[0]), ts[1..])
  }

  /** Registration order is run order: the registry lists the tests as they were constructed. */
  lemma {:induction false} RegistrationKeepsOrder(all: seq<DioTest>, ts: seq<DioTest>)
    ensures RegisterAll(all, ts) == all + ts
    decreases |ts|
  {
    if |ts| > 0 {
      RegistrationKeepsOrder(all + [ts[0]], ts[1..]);
      assert all + [ts[0]] + ts[1..] == all + ts;
    }
  }

  /** `ShouldRunTest(t, run_spec)`: only named tests can be selected, and a test is
      selected when the spec contains its file name or its test name. */
  function ShouldRunTest(t: DioTest, spec: string): (r: bool)
    ensures (t.filename.None? || t.testName.None?) ==> !r
  {
    if t.filename.None? || t.testName.None? then false
    else Contains(spec, t.filename.value) || Contains(spec, t.testName.value)
  }

  /** A named test is selected by its own name, by any spec that lists it among others,
      and (because `find("")` always succeeds) by every spec when its file name is empty. */
  lemma ShouldRunTestSelects(t: DioTest, before: string, after: string)
    requires t.filename.Some? && t.testName.Some?
    ensures ShouldRunTest(t, before + t.testName.value + after)
    ensures ShouldRunTest(t, before + t.filename.value + after)
    ensures t.filename.value == "" ==> ShouldRunTest(t, before)
  {
    var name := t.testName.value;
    var file := t.filename.value;
    assert (before + name + after)[|before|..|before| + |name|] == name;
    assert OccursAt(before + name + after, name, |before|);
    assert (before + file + after)[|before|..|before| + |file|] == file;
    assert OccursAt(before + file + after, file, |before|);
    EmptyIsContained(before);
  }

  /** The three static counters of `RecordExpectStatusOrPrintResults`. */
  datatype Counters = Counters(numTestsRun: nat, passed: nat, failed: nat)

  const Fresh: Counters := Counters(0, 0, 0)

  /** The report (op 0) asserts that no expect failed. */
  datatype DioError = ExpectsFailed(counters: Counters)

  /** `RecordExpectStatusOrPrintResults(value, op)`: op 1 records an expect, op 2 counts
      a test run, op 0 reports and asserts `failed == 0`, other ops do nothing. */
  function Record(c: Counters, value: bool, op: int): (r: Result<Counters, DioError>)
    ensures r.Failure? <==> op == 0 && c.failed != 0
    ensures r.Failure? ==> r.error == ExpectsFailed(c)
    ensures op == 1 && value ==> r == Success(c.(passed := c.passed + 1))
    ensures op == 1 && !value ==> r == Success(c.(failed := c.failed + 1))
    ensures op == 2 ==> r == Success(c.(numTestsRun := c.numTestsRun + 1))
    ensures op != 1 && op != 2 && r.Success? ==> r.value == c
  {
    if op == 1 then
      if value then Success(c.(passed := c.passed + 1)) else Success(c.(failed := c.failed + 1))
    else if op == 2 then
      Success(c.(numTestsRun := c.numTestsRun + 1))
    else if op == 0 then
      if c.failed == 0 then Success(c) else Failure(ExpectsFailed(c))
    else
      Success(c)
  }

  /** `DioExpect2(expression, value)`: records one expect outcome. */
  function DioExpect(c: Counters, value: bool): (r: Counters)
    ensures r.numTestsRun == c.numTestsRun
    ensures r.passed + r.failed == c.passed + c.failed + 1
    ensures value <==> r.passed == c.passed + 1
    ensures value ==> r == c.(passed := c.passed + 1)
    ensures !value ==> r == c.(failed := c.failed + 1)
  {
    Record(c, value, 1).value
  }

  function CountTrue(bs: seq<bool>): (n: nat)
    ensures n <= |bs|
  {
    if |bs| == 0 then 0 else (if bs[0] then 1 else 0) + CountTrue(bs[1..])
  }

  /** Records a test body's expects in order. */
  function RecordExpects(c: Counters, expects: seq<bool>): Counters
    decreases |expects|
  {
    if |expects| == 0 then c else RecordExpects(DioExpect(c, expects[0]), expects[1..])
  }

  /** A body's expects add their passes to `passed` and their failures to `failed`. */
  lemma {:induction false} RecordExpectsCounts(c: Counters, expects: seq<bool>)
    ensures RecordExpects(c, expects) ==
      Counters(c.numTestsRun, c.passed + CountTrue(expects), c.failed + |expects| - CountTrue(expects))
    decreases |expects|
  {
    if |expects| > 0 {
      RecordExpectsCounts(DioExpect(c, expects[0]), expects[1..]);
    }
  }

  /** `RunAll` runs a test when the spec is empty or selects it. */
  predicate Runs(t: DioTest, spec: string) {
    |spec| == 0 || ShouldRunTest(t, spec)
  }

  /** The indices, among the first `n` registered tests, that `RunAll(spec)` runs. */
  function SelectedPrefix(tests: seq<DioTest>, spec: string, n: nat): (r: seq<nat>)
    requires n <= |tests|
    ensures forall k :: 0 <= k < |r| ==> r[k] < n
  {
    if n == 0 then []
    else SelectedPrefix(tests, spec, n - 1) + (if Runs(tests[n - 1], spec) then [n - 1] else [])
  }

  /** Every selected index is a test the spec selects. */
  lemma {:induction false} SelectedRun(tests: seq<DioTest>, spec: string, n: nat)
    requires n <= |tests|
    ensures forall k :: 0 <= k < |SelectedPrefix(tests, spec, n)| ==> Runs(tests[SelectedPrefix(tests, spec, n)[k]], spec)
  {
    if n > 0 {
      SelectedRun(tests, spec, n - 1);
      var p := SelectedPrefix(tests, spec, n - 1);
      var r := SelectedPrefix(tests, spec, n);
      forall k | 0 <= k < |r|
        ensures Runs(tests[r[k]], spec)
      {
        if k < |p| {
          assert r[k] == p[k] && Runs(tests[p[k]], spec);
        } else {
          assert r[k] == n - 1;
        }
      }
    }
  }

  /** Every test below `n` that the spec selects is among the selected indices. */
  lemma {:induction false} SelectedComplete(tests: seq<DioTest>, spec: string, n: nat)
    requires n <= |tests|
    ensures forall i :: 0 <= i < n && Runs(tests[i], spec) ==> i in SelectedPrefix(tests, spec, n)
  {
    if n > 0 {
      SelectedComplete(tests, spec, n - 1);
      var p := SelectedPrefix(tests, spec, n - 1);
      var r := SelectedPrefix(tests, spec, n);
      assert forall i :: i in p ==> i in r;
      if Runs(tests[n - 1], spec) {
        assert r[|p|] == n - 1;
      }
    }
  }

  /** The selected indices increase. */
  lemma {:induction false} SelectedIncreasing(tests: seq<DioTest>, spec: string, n: nat)
    requires n <= |tests|
    ensures forall k, l :: 0 <= k < l < |SelectedPrefix(tests, spec, n)| ==>
      SelectedPrefix(tests, spec, n)[k] < SelectedPrefix(tests, spec, n)[l]
  {
    if n > 0 {
      SelectedIncreasing(tests, spec, n - 1);
      var p := SelectedPrefix(tests, spec, n - 1);
      var r := SelectedPrefix(tests, spec, n);
      forall k, l | 0 <= k < l < |r|
        ensures r[k] < r[l]
      {
        assert r[k] == p[k];
        if l < |p| {
          assert r[l] == p[l];
        }
      }
    }
  }

  /** `RunAll` visits the tests in registration order and runs exactly those the spec selects. */
  lemma SelectedExactly(tests: seq<DioTest>, spec: string, n: nat)
    requires n <= |tests|
    ensures var r := SelectedPrefix(tests, spec, n);
      && (forall k :: 0 <= k < |r| ==> Runs(tests[r[k]], spec))
      && (forall i :: 0 <= i < n && Runs(tests[i], spec) ==> i in r)
      && (forall k, l :: 0 <= k < l < |r| ==> r[k] < r[l])
  {
    SelectedRun(tests, spec, n);
    SelectedComplete(tests, spec, n);
    SelectedIncreasing(tests, spec, n);
  }

  /** The tests `RunAll(spec)` runs, in registration order. */
  function Selected(tests: seq<DioTest>, spec: string): seq<nat> {
    SelectedPrefix(tests, spec, |tests|)
  }

  /** With an empty spec every registered test runs, in order. */
  lemma {:induction false} EmptySpecRunsEverything(tests: seq<DioTest>, n: nat)
    requires n <= |tests|
    ensures SelectedPrefix(tests, "", n) == seq(n, (i: int) requires 0 <= i => i as nat)
  {
    if n > 0 {
      EmptySpecRunsEverything(tests, n - 1);
    }
  }

  /** With a non-empty spec an unnamed test never runs. */
  lemma UnnamedNeverSelected(tests: seq<DioTest>, spec: string, i: nat)
    requires i < |tests| && |spec| > 0
    requires tests[i].filename.None? || tests[i].testName.None?
    ensures i !in Selected(tests, spec)
  {
    SelectedExactly(tests, spec, |tests|);
  }

  /** With a non-empty spec, `RunAll` skips a named test exactly when the spec contains
      neither its file name nor its test name. */
  lemma NamedTestSkipped(tests: seq<DioTest>, spec: string, i: nat)
    requires i < |tests| && |spec| > 0
    requires tests[i].filename.Some? && tests[i].testName.Some?
    ensures i !in Selected(tests, spec) <==>
      !Contains(spec, tests[i].filename.value) && !Contains(spec, tests[i].testName.value)
  {
    SelectedRun(tests, spec, |tests|);
    SelectedComplete(tests, spec, |tests|);
    var r := SelectedPrefix(tests, spec, |tests|);
    if i in r {
      var k :| 0 <= k < |r| && r[k] == i;
      assert Runs(tests[r[k]], spec);
      assert ShouldRunTest(tests[i], spec);
    }
  }

  /** One test's turn in the loop: count the run, then its expects. */
  function RunOne(c: Counters, t: DioTest): Counters {
    RecordExpects(Record(c, false, 2).value, t.expects)
  }

  /** The counters after the loop has visited the first `n` tests. */
  function CountersAfter(c: Counters, tests: seq<DioTest>, spec: string, n: nat): Counters
    requires n <= |tests|
  {
    if n == 0 then c
    else
      var prev := CountersAfter(c, tests, spec, n - 1);
      if Runs(tests[n - 1], spec) then RunOne(prev, tests[n - 1]) else prev
  }

  /** Total passing and total expects of the given tests. */
  function PassesOf(tests: seq<DioTest>, idx: seq<nat>): nat
    requires forall k :: 0 <= k < |idx| ==> idx[k] < |tests|
  {
    if |idx| == 0 then 0 else PassesOf(tests, idx[..|idx| - 1]) + CountTrue(tests[idx[|idx| - 1]].expects)
  }

  function ExpectsOf(tests: seq<DioTest>, idx: seq<nat>): nat
    requires forall k :: 0 <= k < |idx| ==> idx[k] < |tests|
  {
    if |idx| == 0 then 0 else ExpectsOf(tests, idx[..|idx| - 1]) + |tests[idx[|idx| - 1]].expects|
  }

  lemma PassesAtMostExpects(tests: seq<DioTest>, idx: seq<nat>)
    requires forall k :: 0 <= k < |idx| ==> idx[k] < |tests|
    ensures PassesOf(tests, idx) <= ExpectsOf(tests, idx)
  {
  }

  /** The loop's counters in closed form: one run per selected test, and the passes and
      failures of exactly the selected tests' expects. */
  lemma {:induction false} CountersAfterCounts(c: Counters, tests: seq<DioTest>, spec: string, n: nat)
    requires n <= |tests|
    ensures var sel := SelectedPrefix(tests, spec, n);
      var r := CountersAfter(c, tests, spec, n);
      && r.numTestsRun == c.numTestsRun + |sel|
      && r.passed == c.passed + PassesOf(tests, sel)
      && r.passed + r.failed == c.passed + c.failed + ExpectsOf(tests, sel)
  {
    if n > 0 {
      CountersAfterCounts(c, tests, spec, n - 1);
      var prev := CountersAfter(c, tests, spec, n - 1);
      var sel := SelectedPrefix(tests, spec, n);
      var sel0 := SelectedPrefix(tests, spec, n - 1);
      if Runs(tests[n - 1], spec) {
        assert sel == sel0 + [n - 1];
        assert sel[..|sel| - 1] == sel0;
        var e := tests[n - 1].expects;
        assert PassesOf(tests, sel) == PassesOf(tests, sel0) + CountTrue(e);
        assert ExpectsOf(tests, sel) == ExpectsOf(tests, sel0) + |e|;
        var mid := Record(prev, false, 2).value;
        assert mid == prev.(numTestsRun := prev.numTestsRun + 1);
        RecordExpectsCounts(mid, e);
        assert CountersAfter(c, tests, spec, n) == RecordExpects(mid, e);
      } else {
        assert sel == sel0;
      }
    }
  }

  /** `RunAll(run_spec)`: runs the selected tests in registration order, counting each
      run and each expect, then reports; the report fails when any expect has failed.
      Returns the indices run, the final counters and the outcome of the report. */
  method RunAll(tests: seq<DioTest>, spec: string, start: Counters)
    returns (ran: seq<nat>, counters: Counters, outcome: Result<Counters, DioError>)
    ensures ran == Selected(tests, spec)
    ensures counters.numTestsRun == start.numTestsRun + |ran|
    ensures counters.passed == start.passed + PassesOf(tests, ran)
    ensures counters.passed + counters.failed == start.passed + start.failed + ExpectsOf(tests, ran)
    ensures outcome.Success? <==> counters.failed == 0
    ensures outcome.Success? ==> outcome.value == counters
  {
    ran := [];
    counters := start;
    var i := 0;
    while i < |tests|
      invariant i <= |tests|
      invariant ran == SelectedPrefix(tests, spec, i)
      invariant counters == CountersAfter(start, tests, spec, i)
    {
      var t := tests[i];
      if |spec| == 0 || ShouldRunTest(t, spec) {
        counters := Record(counters, false, 2).value;
        var j := 0;
        var c0 := counters;
        while j < |t.expects|
          invariant j <= |t.expects|
          invariant RecordExpects(counters, t.expects[j..]) == RecordExpects(c0, t.expects)
        {
          assert t.expects[j..][1..] == t.expects[j + 1..];
          counters := DioExpect(counters, t.expects[j]);
          j := j + 1;
        }
        assert t.expects[j..] == [];
        ran := ran + [i];
      }
      i := i + 1;
    }
    CountersAfterCounts(start, tests, spec, |tests|);
    outcome := Record(counters, false, 0);
  }

  /** From fresh counters, the report passes exactly when every expect of every test run passed. */
  lemma {:induction false} FreshRunPassesIffAllExpectsPass(tests: seq<DioTest>, spec: string)
    ensures var r := CountersAfter(Fresh, tests, spec, |tests|);
      r.failed == 0 <==> PassesOf(tests, Selected(tests, spec)) == ExpectsOf(tests, Selected(tests, spec))
  {
    CountersAfterCounts(Fresh, tests, spec, |tests|);
  }

  /** The reply of `DioGetOrSetSnapshot`: the returned pointer and what it writes to `*ok`. */
  datatype SnapshotReply<T> = SnapshotReply(found: Option<T>, ok: bool)

  /** `DioGetOrSetSnapshot<T>(op, key, val, ok)` on the per-type cache: op 0 gets,
      op 1 inserts without overwriting, any other op is rejected. A set dereferences
      `val`, so it must not be null. */
  function Snapshot<T>(cache: map<string, T>, op: int, key: string, val: Option<T>): (r: (map<string, T>, SnapshotReply<T>))
    requires op == 1 ==> val.Some?
    ensures op != 1 ==> r.0 == cache
    ensures op == 0 ==> (r.1.ok <==> key in cache)
    ensures op == 0 && key in cache ==> r.1.found == Some(cache[key])
    ensures op == 0 && key !in cache ==> r.1.found.None?
    ensures op == 1 ==> r.1 == SnapshotReply(None, true)
    ensures op == 1 ==> key in r.0 && r.0.Keys == cache.Keys + {key}
    ensures op == 1 ==> forall k :: k in cache ==> r.0[k] == cache[k]
    ensures op == 1 && key !in cache ==> r.0[key] == val.value
    ensures op != 0 && op != 1 ==> r.1 == SnapshotReply(None, false)
  {
    if op == 0 then
      if key in cache then (cache, SnapshotReply(Some(cache[key]), true))
      else (cache, SnapshotReply(None, false))
    else if op == 1 then
      if key in cache then (cache, SnapshotReply(None, true))
      else (cache[key := val.value], SnapshotReply(None, true))
    else
      (cache, SnapshotReply(None, false))
  }

  /** `DioGetSnapshottedValue<T>(key)`: a get that asserts the key was found.
      `None` is the failed assertion. */
  function GetSnapshotted<T>(cache: map<string, T>, key: string): (r: Option<T>)
    ensures r.Some? <==> key in cache
    ensures r.Some? ==> r.value == cache[key]
  {
    var reply := Snapshot(cache, 0, key, None).1;
    if reply.ok then reply.found else None
  }

  /** A get after a set finds the value: the one just set when the key was new, the
      first one stored otherwise (a second set never overwrites). */
  lemma SnapshotSetThenGet<T>(cache: map<string, T>, key: string, val: T)
    ensures var c1 := Snapshot(cache, 1, key, Some(val)).0;
      && Snapshot(c1, 0, key, None).1 ==
           SnapshotReply(Some(if key in cache then cache[key] else val), true)
      && GetSnapshotted(c1, key) == Some(if key in cache then cache[key] else val)
  {
  }

  /** Setting the same key twice is the same as setting it once; gets change nothing. */
  lemma SnapshotSetIdempotent<T>(cache: map<string, T>, key: string, v: T, w: T)
    ensures var c1 := Snapshot(cache, 1, key, Some(v)).0;
      Snapshot(c1, 1, key, Some(w)).0 == c1
    ensures Snapshot(cache, 0, key, None).0 == cache
  {
  }
}

=== FILE: elido.dfy ===
/** Elido's pure scheduling rules: which command-line arguments are elido's own, which
    subcommand runs, which input lines become commands and in what chunks, the
    escaping of the variable name, and the order of the cross product. */
module Elido {
  import opened Wrappers
  import opened Text

  /** `compute_args_to_use`: the arguments before the first `--`, or all of them. */
  function ArgsToUse(inargs: seq<string>): (r: seq<string>)
    ensures r <= inargs
    ensures "--" !in r
    ensures r == inargs <==> "--" !in inargs
    ensures |r| < |inargs| ==> inargs[|r|] == "--"
  {
    if |inargs| == 0 then []
    else if inargs[0] == "--" then []
    else [inargs[0]] + ArgsToUse(inargs[1..])
  }

  /** The two argument parsers. */
  datatype Parser = ElidoParser | CrossProductParser

  /** The subcommand choice of `parse_args`: the cross-product parser iff the first of
      elido's own arguments is `cross_product`, which is then dropped. */
  function ChooseParser(inargs: seq<string>): (r: (Parser, seq<string>))
    ensures var own := ArgsToUse(inargs);
      && (r.0 == CrossProductParser <==> |own| > 0 && own[0] == "cross_product")
      && (r.0 == CrossProductParser ==> [own[0]] + r.1 == own)
      && (r.0 == ElidoParser ==> r.1 == own)
  {
    var own := ArgsToUse(inargs);
    if |own| > 0 && own[0] == "cross_product" then
      assert [own[0]] + own[1..] == own;
      (CrossProductParser, own[1..])
    else (ElidoParser, own)
  }

  /** The words after a `--` take no part in elido's own arguments or in the parser
      choice, even a `cross_product` there. `parse_args` hands the parser only the words
      before the `--`, so the words after it are dropped (see `DashDashDropsCommand`). */
  lemma CommandArgumentsIgnored(own: seq<string>, cmd: seq<string>)
    requires "--" !in own
    ensures ArgsToUse(own + ["--"] + cmd) == own
    ensures ChooseParser(own + ["--"] + cmd).0 == CrossProductParser <==> |own| > 0 && own[0] == "cross_product"
  {
    var all := own + ["--"] + cmd;
    var r := ArgsToUse(all);
    assert all[|own|] == "--";
    assert all[..|own|] == own;
  }

  /** The documented escape for a command that itself starts with `--` does not work as
      written: `elido -- --x` hands the parser no words at all, so the command `--x` is
      lost, and the parser sees the same words as if the `--` and everything after it
      were not there. */
  lemma DashDashDropsCommand(own: seq<string>, cmd: seq<string>)
    requires "--" !in own
    ensures ChooseParser(["--", "--x"]) == (ElidoParser, [])
    ensures ChooseParser(own + ["--"] + cmd) == ChooseParser(own)
  {
    assert ["--", "--x"][0] == "--";
    CommandArgumentsIgnored(own, cmd);
    assert ArgsToUse(own) == own;
  }

  /** The intended split of a command line: elido's own arguments, before the first
      `--`, and the command's words, everything after it. */
  function SplitCommandLine(inargs: seq<string>): (r: (seq<string>, seq<string>))
    ensures r.0 == ArgsToUse(inargs)
    ensures "--" in inargs ==> r.0 + ["--"] + r.1 == inargs
    ensures "--" !in inargs ==> r.1 == []
  {
    var own := ArgsToUse(inargs);
    if |own| < |inargs| then
      assert inargs == own + ["--"] + inargs[|own| + 1..] by {
        assert inargs[..|own|] == own;
      }
      (own, inargs[|own| + 1..])
    else
      (own, [])
  }

  /** With the intended split the command keeps every word after the first `--`,
      including one that itself starts with `--` or reads `cross_product`. */
  lemma SplitCommandLineKeepsCommand(own: seq<string>, cmd: seq<string>)
    requires "--" !in own
    ensures SplitCommandLine(own + ["--"] + cmd) == (own, cmd)
  {
    var all := own + ["--"] + cmd;
    CommandArgumentsIgnored(own, cmd);
    assert all[|own| + 1..] == cmd;
  }

  /** Python's `a % b`: the remainder takes the sign of the divisor. */
  function PyMod(a: int, b: int): (r: int)
    requires b != 0
    ensures b > 0 ==> 0 <= r < b
    ensures b < 0 ==> b < r <= 0
    ensures r == 0 <==> a % b == 0
  {
    if b > 0 || a % b == 0 then a % b else a % b + b
  }

  /** Every index is below `n`. */
  predicate Below(idx: seq<nat>, n: nat) {
    forall j :: 0 <= j < |idx| ==> idx[j] < n
  }

  /** Whether line `k` is one elido processes: past the ignored lines and on the stride. */
  predicate Chosen(k: nat, ignoreFirstN: int, stride: int)
    requires stride != 0
  {
    k >= ignoreFirstN && PyMod(k - ignoreFirstN, stride) == 0
  }

  /** The indices below `m` of the lines elido processes, in input order. */
  function Selected(m: nat, ignoreFirstN: int, stride: int): (r: seq<nat>)
    requires stride != 0
    ensures Below(r, m)
  {
    if m == 0 then []
    else Selected(m - 1, ignoreFirstN, stride) + (if Chosen(m - 1, ignoreFirstN, stride) then [m - 1] else [])
  }

  /** The selection holds exactly the chosen lines below `m`, in increasing order. */
  lemma {:induction false} SelectedExactly(m: nat, ignoreFirstN: int, stride: int)
    requires stride != 0
    ensures var r := Selected(m, ignoreFirstN, stride);
      && (forall j :: 0 <= j < |r| ==> Chosen(r[j], ignoreFirstN, stride))
      && (forall k: nat :: k < m && Chosen(k, ignoreFirstN, stride) ==> k in r)
      && (forall i, j :: 0 <= i < j < |r| ==> r[i] < r[j])
  {
    if m > 0 {
      SelectedExactly(m - 1, ignoreFirstN, stride);
      var p := Selected(m - 1, ignoreFirstN, stride);
      var r := Selected(m, ignoreFirstN, stride);
      if Chosen(m - 1, ignoreFirstN, stride) {
        assert r == p + [m - 1];
        forall k: nat | k < m && Chosen(k, ignoreFirstN, stride)
          ensures k in r
        {
          if k < m - 1 {
            var j :| 0 <= j < |p| && p[j] == k;
            assert r[j] == k;
          } else {
            assert r[|p|] == k;
          }
        }
      } else {
        assert r == p;
      }
    }
  }

  /** With the defaults, every line is processed. */
  lemma {:induction false} DefaultsSelectAll(m: nat)
    ensures Selected(m, 0, 1) == seq(m, (k: int) requires 0 <= k < m => k as nat)
  {
    if m > 0 {
      DefaultsSelectAll(m - 1);
      assert Chosen(m - 1, 0, 1);
    }
  }

  /** One command: the stripped lines of its chunk, and the 0-based number of the
      chunk's last input line, from which `XN` is rendered. */
  datatype Command = Command(lines: seq<string>, lineNum: nat)

  /** `XN_value = str(line_num)`: the decimal digits of the last line's number. */
  function XnValue(c: Command): (r: string)
    ensures |r| > 0 && forall i :: 0 <= i < |r| ==> IsDigit(r[i])
  {
    Decimal(c.lineNum)
  }

  /** `XN` loses nothing: reading its digits back gives the line number. */
  lemma XnValueRoundTrip(c: Command)
    ensures DecimalValue(XnValue(c)) == c.lineNum
  {
    DecimalRoundTrip(c.lineNum);
  }

  /** The stripped input lines at the given indices. */
  function Lines(input: seq<string>, idx: seq<nat>): (r: seq<string>)
    requires Below(idx, |input|)
    ensures |r| == |idx|
  {
    seq(|idx|, (j: int) requires 0 <= j < |idx| => Strip(input[idx[j]]))
  }

  /** The commands for the selected line indices: one per full chunk of `chunksize`;
      an incomplete last chunk, and every chunk when `chunksize` is not positive,
      gives none. */
  function Schedule(input: seq<string>, idx: seq<nat>, chunksize: int): (r: seq<Command>)
    requires Below(idx, |input|)
    ensures chunksize <= 0 || |idx| < chunksize ==> r == []
    ensures forall q :: 0 <= q < |r| ==> |r[q].lines| == chunksize
    decreases |idx|
  {
    if chunksize <= 0 || |idx| < chunksize then []
    else
      var c := Command(Lines(input, idx[..chunksize]), idx[chunksize - 1]);
      [c] + Schedule(input, idx[chunksize..], chunksize)
  }

  /** The number of commands is the number of full chunks. */
  lemma {:induction false} ScheduleLength(input: seq<string>, idx: seq<nat>, chunksize: int)
    requires Below(idx, |input|)
    requires chunksize >= 1
    ensures var n := |Schedule(input, idx, chunksize)|;
      n * chunksize <= |idx| < n * chunksize + chunksize
    decreases |idx|
  {
    if |idx| >= chunksize {
      ScheduleLength(input, idx[chunksize..], chunksize);
      var n := |Schedule(input, idx[chunksize..], chunksize)|;
      assert (n + 1) * chunksize == n * chunksize + chunksize;
    }
  }

  /** A whole number of chunks. */
  predicate Aligned(a: seq<nat>, chunksize: int)
    requires chunksize >= 1
    decreases |a|
  {
    |a| == 0 || (|a| >= chunksize && Aligned(a[chunksize..], chunksize))
  }

  lemma {:induction false} AlignedAppend(a: seq<nat>, b: seq<nat>, chunksize: int)
    requires chunksize >= 1 && Aligned(a, chunksize) && |b| == chunksize
    ensures Aligned(a + b, chunksize)
    decreases |a|
  {
    if |a| == 0 {
      assert a + b == b && b[chunksize..] == [];
    } else {
      AlignedAppend(a[chunksize..], b, chunksize);
      assert (a + b)[chunksize..] == a[chunksize..] + b;
    }
  }

  /** Commands of a chunk-aligned prefix come first, unchanged. */
  lemma {:induction false} ScheduleAppend(input: seq<string>, a: seq<nat>, b: seq<nat>, chunksize: int)
    requires chunksize >= 1 && Aligned(a, chunksize)
    requires Below(a, |input|)
    requires Below(b, |input|)
    ensures Below(a + b, |input|)
    ensures Schedule(input, a + b, chunksize) == Schedule(input, a, chunksize) + Schedule(input, b, chunksize)
    decreases |a|
  {
    assert forall j :: 0 <= j < |a + b| ==> (a + b)[j] == if j < |a| then a[j] else b[j - |a|];
    if |a| > 0 {
      assert (a + b)[..chunksize] == a[..chunksize];
      assert (a + b)[chunksize..] == a[chunksize..] + b;
      ScheduleAppend(input, a[chunksize..], b, chunksize);
    } else {
      assert a + b == b;
    }
  }

  /** A chunk of exactly `chunksize` indices is one command. */
  lemma ScheduleOne(input: seq<string>, idx: seq<nat>, chunksize: int)
    requires chunksize >= 1 && |idx| == chunksize
    requires Below(idx, |input|)
    ensures Schedule(input, idx, chunksize) == [Command(Lines(input, idx), idx[chunksize - 1])]
  {
    assert idx[..chunksize] == idx;
    assert idx[chunksize..] == [];
  }

  /** How `do_elido` can stop: `--stride 0` divides by zero at the first line it checks. */
  datatype ElidoError = ZeroStride

  /** The first index elido checks against the stride. */
  function FirstChecked(ignoreFirstN: int): nat {
    if ignoreFirstN < 0 then 0 else ignoreFirstN
  }

  /** The scheduling loop of `do_elido` over the input lines: the commands it queues, in
      order, each with its chunk of stripped lines and its `XN`. */
  method DoElido(input: seq<string>, ignoreFirstN: int, stride: int, chunksize: int) returns (r: Result<seq<Command>, ElidoError>)
    ensures r.Failure? <==> stride == 0 && |input| > FirstChecked(ignoreFirstN)
    ensures r.Success? && stride != 0 ==> r.value == Schedule(input, Selected(|input|, ignoreFirstN, stride), chunksize)
    ensures r.Success? && stride == 0 ==> r.value == []
  {
    var out: seq<Command> := [];
    var chunk: seq<string> := [];
    ghost var done: seq<nat> := [];
    ghost var pending: seq<nat> := [];
    var lineNum := 0;
    while lineNum < |input|
      invariant lineNum <= |input|
      invariant stride == 0 ==> lineNum <= FirstChecked(ignoreFirstN) && out == []
      invariant stride != 0 ==> Progress(input, ignoreFirstN, stride, chunksize, lineNum, out, chunk, done, pending)
    {
      if lineNum >= ignoreFirstN && stride == 0 {
        return Failure(ZeroStride);
      }
      if stride != 0 {
        out, chunk, done, pending := ElidoStep(input, ignoreFirstN, stride, chunksize, lineNum, out, chunk, done, pending);
      }
      lineNum := lineNum + 1;
    }
    if stride != 0 {
      ProgressComplete(input, ignoreFirstN, stride, chunksize, out, chunk, done, pending);
    }
    return Success(out);
  }

  /** Once every line is read, the queued commands are the schedule of the selection:
      the open chunk is too short to emit anything. */
  lemma ProgressComplete(input: seq<string>, ignoreFirstN: int, stride: int, chunksize: int,
                         out: seq<Command>, chunk: seq<string>, done: seq<nat>, pending: seq<nat>)
    requires stride != 0
    requires Progress(input, ignoreFirstN, stride, chunksize, |input|, out, chunk, done, pending)
    ensures out == Schedule(input, Selected(|input|, ignoreFirstN, stride), chunksize)
  {
    if chunksize >= 1 {
      ScheduleAppend(input, done, pending, chunksize);
    }
  }

  /** The loop state after the first `lineNum` lines: the commands queued for the
      complete chunks `done`, and the stripped lines of the open chunk `pending`. */
  ghost predicate Progress(input: seq<string>, ignoreFirstN: int, stride: int, chunksize: int, lineNum: nat,
                           out: seq<Command>, chunk: seq<string>, done: seq<nat>, pending: seq<nat>)
    requires stride != 0
  {
    && lineNum <= |input|
    && done + pending == Selected(lineNum, ignoreFirstN, stride)
    && Below(done, |input|) && Below(pending, |input|)
    && chunk == Lines(input, pending)
    && (chunksize >= 1 ==> Aligned(done, chunksize) && |pending| < chunksize && out == Schedule(input, done, chunksize))
    && (chunksize <= 0 ==> out == [] && done == [])
  }

  /** One iteration of the loop for line `lineNum`, for a non-zero stride. */
  method ElidoStep(input: seq<string>, ignoreFirstN: int, stride: int, chunksize: int, lineNum: nat,
                   out: seq<Command>, chunk: seq<string>, ghost done: seq<nat>, ghost pending: seq<nat>)
    returns (out': seq<Command>, chunk': seq<string>, ghost done': seq<nat>, ghost pending': seq<nat>)
    requires stride != 0 && lineNum < |input|
    requires Progress(input, ignoreFirstN, stride, chunksize, lineNum, out, chunk, done, pending)
    ensures Progress(input, ignoreFirstN, stride, chunksize, lineNum + 1, out', chunk', done', pending')
    ensures out <= out' && |out'| <= |out| + 1
  {
    SelectedNext(lineNum, ignoreFirstN, stride);
    out', chunk', done', pending' := out, chunk, done, pending;
    if lineNum >= ignoreFirstN && PyMod(lineNum - ignoreFirstN, stride) == 0 {
      LinesSnoc(input, pending, lineNum);
      if |chunk| + 1 == chunksize {
        TakeLine(input, done, pending, lineNum, chunksize);
        out' := out + [Command(chunk + [Strip(input[lineNum])], lineNum)];
        done' := done + (pending + [lineNum]);
        pending' := [];
        chunk' := [];
      } else {
        chunk' := chunk + [Strip(input[lineNum])];
        pending' := pending + [lineNum];
      }
    }
  }

  /** The selection grows by the next line when it is chosen. */
  lemma SelectedNext(m: nat, ignoreFirstN: int, stride: int)
    requires stride != 0
    ensures Selected(m + 1, ignoreFirstN, stride)
         == Selected(m, ignoreFirstN, stride) + (if Chosen(m, ignoreFirstN, stride) then [m] else [])
  {
  }

  /** Taking the line that completes a chunk emits that chunk's command. */
  lemma TakeLine(input: seq<string>, done: seq<nat>, pending: seq<nat>, k: nat, chunksize: int)
    requires Below(done, |input|) && Below(pending, |input|) && k < |input|
    requires chunksize >= 1 && Aligned(done, chunksize) && |pending| + 1 == chunksize
    ensures Below(done + (pending + [k]), |input|)
    ensures Aligned(done + (pending + [k]), chunksize)
    ensures Schedule(input, done + (pending + [k]), chunksize)
         == Schedule(input, done, chunksize) + [Command(Lines(input, pending) + [Strip(input[k])], k)]
  {
    var p := pending + [k];
    LinesSnoc(input, pending, k);
    ScheduleOne(input, p, chunksize);
    ScheduleAppend(input, done, p, chunksize);
    AlignedAppend(done, p, chunksize);
  }

  lemma LinesSnoc(input: seq<string>, idx: seq<nat>, k: nat)
    requires Below(idx, |input|) && k < |input|
    ensures Below(idx + [k], |input|)
    ensures Lines(input, idx + [k]) == Lines(input, idx) + [Strip(input[k])]
  {
    assert forall j :: 0 <= j < |idx| ==> (idx + [k])[j] == idx[j];
  }

  /** Where chunk `q` starts: `q` chunks of `chunksize` in, counted one chunk at a time. */
  function ChunkOffset(q: nat, chunksize: nat): nat {
    if q == 0 then 0 else ChunkOffset(q - 1, chunksize) + chunksize
  }

  lemma {:induction false} ChunkOffsetIsProduct(q: nat, chunksize: nat)
    ensures ChunkOffset(q, chunksize) == q * chunksize
  {
    if q > 0 {
      ChunkOffsetIsProduct(q - 1, chunksize);
      assert q * chunksize == (q - 1) * chunksize + chunksize;
    }
  }

  /** After the first command come the commands of the remaining indices. */
  lemma ScheduleTail(input: seq<string>, idx: seq<nat>, chunksize: nat)
    requires Below(idx, |input|)
    requires chunksize >= 1 && |idx| >= chunksize
    ensures Below(idx[chunksize..], |input|)
    ensures Schedule(input, idx, chunksize)[1..] == Schedule(input, idx[chunksize..], chunksize)
  {
    var rest := idx[chunksize..];
    assert forall j :: 0 <= j < |rest| ==> rest[j] == idx[chunksize + j];
  }

  /** The commands from `q` on are the schedule of the indices from chunk `q`'s start. */
  lemma {:induction false} ScheduleDrop(input: seq<string>, idx: seq<nat>, chunksize: nat, q: nat)
    requires Below(idx, |input|)
    requires chunksize >= 1 && q <= |Schedule(input, idx, chunksize)|
    ensures ChunkOffset(q, chunksize) <= |idx|
    ensures Below(idx[ChunkOffset(q, chunksize)..], |input|)
    ensures Schedule(input, idx, chunksize)[q..] == Schedule(input, idx[ChunkOffset(q, chunksize)..], chunksize)
    decreases q
  {
    if q == 0 {
      assert idx[0..] == idx;
    } else {
      var r := Schedule(input, idx, chunksize);
      assert |idx| >= chunksize;
      ScheduleTail(input, idx, chunksize);
      var rest := idx[chunksize..];
      ScheduleDrop(input, rest, chunksize, q - 1);
      var off' := ChunkOffset(q - 1, chunksize);
      assert ChunkOffset(q, chunksize) == off' + chunksize;
      assert rest[off'..] == idx[off' + chunksize..];
      assert r[q..] == r[1..][q - 1..];
      assert r[1..][q - 1..] == Schedule(input, rest, chunksize)[q - 1..];
    }
  }

  /** Command `q` is the chunk of selected lines from `q * chunksize` on: their
      stripped text, and as `XN` the number of the last of them. */
  lemma ScheduleChunk(input: seq<string>, idx: seq<nat>, chunksize: int, q: nat, m: nat)
    requires Below(idx, |input|)
    requires chunksize >= 1 && q < |Schedule(input, idx, chunksize)| && m == q * chunksize
    ensures m + chunksize <= |idx|
    ensures Schedule(input, idx, chunksize)[q] == Command(Lines(input, idx[m..m + chunksize]), idx[m + chunksize - 1])
  {
    ChunkOffsetIsProduct(q, chunksize);
    ScheduleDrop(input, idx, chunksize, q);
    var from := idx[m..];
    assert Schedule(input, idx, chunksize)[q] == Schedule(input, from, chunksize)[0];
    assert |from| >= chunksize;
    assert from[..chunksize] == idx[m..m + chunksize];
    assert from[chunksize - 1] == idx[m + chunksize - 1];
  }

  /** `''.join(['\\' + c for c in varname])`. */
  function VarnameEscaped(v: string): (r: string)
    ensures |r| == 2 * |v|
  {
    if |v| == 0 then "" else ['\\', v[0]] + VarnameEscaped(v[1..])
  }

  /** Each character of the name is preceded by a backslash, in order. */
  lemma {:induction false} VarnameEscapedShape(v: string)
    ensures forall i :: 0 <= i < |v| ==> VarnameEscaped(v)[2 * i] == '\\' && VarnameEscaped(v)[2 * i + 1] == v[i]
    decreases |v|
  {
    if |v| > 0 {
      VarnameEscapedShape(v[1..]);
      var e := VarnameEscaped(v);
      var t := VarnameEscaped(v[1..]);
      assert e == ['\\', v[0]] + t;
      forall i | 0 <= i < |v|
        ensures e[2 * i] == '\\' && e[2 * i + 1] == v[i]
      {
        if i > 0 {
          assert e[2 * i] == t[2 * (i - 1)] && e[2 * i + 1] == t[2 * (i - 1) + 1];
          assert v[i] == v[1..][i - 1];
        }
      }
    }
  }

  /** Reading back an escaped name: every second character. */
  function Unescape(e: string): string
    decreases |e|
  {
    if |e| < 2 then "" else [e[1]] + Unescape(e[2..])
  }

  lemma {:induction false} UnescapeRoundTrip(v: string)
    ensures Unescape(VarnameEscaped(v)) == v
    decreases |v|
  {
    if |v| > 0 {
      var e := VarnameEscaped(v);
      assert e[2..] == VarnameEscaped(v[1..]);
      UnescapeRoundTrip(v[1..]);
      assert v == [v[0]] + v[1..];
    }
  }

  /** Number of combinations of the inputs' lines. */
  function Count(files: seq<seq<string>>): nat {
    if |files| == 0 then 1 else |files[0]| * Count(files[1..])
  }

  /** Every `x` of `xs` in front of every combination of `rest`, `xs` varying slowest. */
  function Prefixed(xs: seq<string>, rest: seq<seq<string>>): (r: seq<seq<string>>)
    ensures |r| == |xs| * |rest|
  {
    if |xs| == 0 then []
    else seq(|rest|, (j: int) requires 0 <= j < |rest| => [xs[0]] + rest[j]) + Prefixed(xs[1..], rest)
  }

  /** `itertools.product(*files)`: the first input varies slowest, the last fastest. */
  function Product(files: seq<seq<string>>): (r: seq<seq<string>>)
    ensures |r| == Count(files)
  {
    if |files| == 0 then [[]] else Prefixed(files[0], Product(files[1..]))
  }

  /** The combination at position `i * |rest| + j` is `xs[i]` before `rest[j]`. */
  lemma {:induction false} PrefixedIndex(xs: seq<string>, rest: seq<seq<string>>, i: nat, j: nat)
    requires i < |xs| && j < |rest|
    ensures i * |rest| + j < |Prefixed(xs, rest)|
    ensures Prefixed(xs, rest)[i * |rest| + j] == [xs[i]] + rest[j]
    decreases i
  {
    if i > 0 {
      PrefixedIndex(xs[1..], rest, i - 1, j);
      assert i * |rest| == (i - 1) * |rest| + |rest|;
    }
  }

  /** The ordering of the cross product: for the first input's line `i` and the
      combination `j` of the others, the combination at `i * Count(others) + j`. */
  lemma ProductOrder(files: seq<seq<string>>, i: nat, j: nat)
    requires |files| > 0 && i < |files[0]| && j < Count(files[1..])
    ensures i * Count(files[1..]) + j < Count(files)
    ensures Product(files)[i * Count(files[1..]) + j] == [files[0][i]] + Product(files[1..])[j]
  {
    PrefixedIndex(files[0], Product(files[1..]), i, j);
  }

  lemma {:induction false} PrefixedMembers(xs: seq<string>, rest: seq<seq<string>>, c: seq<string>)
    ensures c in Prefixed(xs, rest) <==> |c| > 0 && c[0] in xs && c[1..] in rest
    decreases |xs|
  {
    if |xs| > 0 {
      var head := seq(|rest|, (j: int) requires 0 <= j < |rest| => [xs[0]] + rest[j]);
      PrefixedMembers(xs[1..], rest, c);
      assert c in head <==> |c| > 0 && c[0] == xs[0] && c[1..] in rest by {
        if c in head {
          var j :| 0 <= j < |rest| && head[j] == c;
          assert c[1..] == rest[j];
        }
        if |c| > 0 && c[0] == xs[0] && c[1..] in rest {
          var j :| 0 <= j < |rest| && rest[j] == c[1..];
          assert head[j] == c;
        }
      }
      assert xs == [xs[0]] + xs[1..];
    }
  }

  /** A sequence of lines is in the cross product iff it takes one line from each input, in order. */
  lemma {:induction false} ProductMembers(files: seq<seq<string>>, c: seq<string>)
    ensures c in Product(files) <==> |c| == |files| && forall i :: 0 <= i < |files| ==> c[i] in files[i]
    decreases |files|
  {
    if |files| == 0 {
      if |c| == 0 {
        assert c == [];
      }
    } else {
      PrefixedMembers(files[0], Product(files[1..]), c);
      if |c| > 0 {
        ProductMembers(files[1..], c[1..]);
        if |c| == |files| && c[0] in files[0] && c[1..] in Product(files[1..]) {
          forall i | 0 <= i < |files|
            ensures c[i] in files[i]
          {
            if i > 0 {
              assert c[1..][i - 1] == c[i] && files[1..][i - 1] == files[i];
            }
          }
        }
        if |c| == |files| && forall i :: 0 <= i < |files| ==> c[i] in files[i] {
          forall i | 0 <= i < |files[1..]|
            ensures c[1..][i] in files[1..][i]
          {
            assert c[1..][i] == c[i + 1];
          }
        }
      }
    }
  }

  /** The strings `do_cross_product` writes, in order: each combination's elements in
      turn. Each element is written as read, with whatever line ending it has. */
  function Flatten(combos: seq<seq<string>>): seq<string> {
    if |combos| == 0 then [] else combos[0] + Flatten(combos[1..])
  }

  /** With `n` inputs, write number `q * n + i` is element `i` of combination `q`. */
  lemma {:induction false} FlattenIndex(combos: seq<seq<string>>, n: nat, q: nat, i: nat)
    requires forall k :: 0 <= k < |combos| ==> |combos[k]| == n
    requires q < |combos| && i < n
    ensures q * n + i < |Flatten(combos)|
    ensures Flatten(combos)[q * n + i] == combos[q][i]
    decreases q
  {
    FlattenLength(combos[1..], n);
    if q > 0 {
      FlattenIndex(combos[1..], n, q - 1, i);
      assert q * n == (q - 1) * n + n;
    }
  }

  lemma {:induction false} FlattenLength(combos: seq<seq<string>>, n: nat)
    requires forall k :: 0 <= k < |combos| ==> |combos[k]| == n
    ensures |Flatten(combos)| == |combos| * n
    decreases |combos|
  {
    if |combos| > 0 {
      FlattenLength(combos[1..], n);
    }
  }

  /** Every combination has one line per input. */
  lemma ProductWidth(files: seq<seq<string>>)
    ensures forall k :: 0 <= k < |Product(files)| ==> |Product(files)[k]| == |files|
  {
    forall k | 0 <= k < |Product(files)|
      ensures |Product(files)[k]| == |files|
    {
      ProductMembers(files, Product(files)[k]);
    }
  }

  /** `do_cross_product`: one write per input per combination, and write number
      `q * |files| + i` is the line of input `i` in combination `q`. */
  lemma CrossProductOutput(files: seq<seq<string>>, q: nat, i: nat)
    requires q < Count(files) && i < |files|
    ensures |Product(files)[q]| == |files|
    ensures q * |files| + i < |Flatten(Product(files))|
    ensures |Flatten(Product(files))| == Count(files) * |files|
    ensures Flatten(Product(files))[q * |files| + i] == Product(files)[q][i]
    ensures Product(files)[q][i] in files[i]
  {
    ProductWidth(files);
    FlattenLength(Product(files), |files|);
    FlattenIndex(Product(files), |files|, q, i);
    ProductMembers(files, Product(files)[q]);
  }
}

=== FILE: flags.dfy ===
/** Command-line flags: a registry of named boolean flags that rejects duplicate
    names, the boolean value parser, and the `--name=value` argument scan. */
module Flags {
  import opened Wrappers
  import opened Text

  /** A `define_flag<bool>`: its registered name and current value. */
  datatype Flag = Flag(name: string, value: bool)

  /** The process-wide flag registry, in registration order. */
  type Registry = seq<Flag>

  predicate UniqueNames(reg: Registry) {
    forall i, j :: 0 <= i < j < |reg| ==> reg[i].name != reg[j].name
  }

  predicate Registered(reg: Registry, name: string) {
    exists i :: 0 <= i < |reg| && reg[i].name == name
  }

  datatype FlagError = DuplicateFlag(name: string)

  /** The `basic_flag` constructor: asserts that no registered flag has the same name,
      then appends the new flag, holding its default value. */
  function Register(reg: Registry, name: string, default: bool): (r: Result<Registry, FlagError>)
    ensures r.Failure? <==> Registered(reg, name)
    ensures r.Failure? ==> r.error == DuplicateFlag(name)
    ensures r.Success? ==> |r.value| == |reg| + 1 && r.value[..|reg|] == reg
    ensures r.Success? ==> r.value[|reg|] == Flag(name, default)
  {
    if exists i :: 0 <= i < |reg| && reg[i].name == name then
      Failure(DuplicateFlag(name))
    else
      Success(reg + [Flag(name, default)])
  }

  /** Registration never lets two flags share a name. */
  lemma RegisterKeepsNamesUnique(reg: Registry, name: string, default: bool)
    requires UniqueNames(reg)
    requires Register(reg, name, default).Success?
    ensures UniqueNames(Register(reg, name, default).value)
    ensures Registered(Register(reg, name, default).value, name)
  {
    var r := Register(reg, name, default).value;
    assert r[|reg|].name == name;
  }

  /** `FlagParser<bool>`: only "1" and "true" mean true; everything else is false. */
  function ParseBool(s: string): bool {
    s == "1" || s == "true"
  }

  /** How `cout << bool` renders a flag value. */
  function FormatBool(b: bool): string {
    if b then "1" else "0"
  }

  /** The parser accepts exactly the strings "1" and "true", and reads back what
      `cout` prints for a flag. */
  lemma ParseBoolAccepts(s: string)
    ensures ParseBool(s) <==> s in {"1", "true"}
    ensures ParseBool(FormatBool(true)) && !ParseBool(FormatBool(false))
    ensures !ParseBool("") && !ParseBool("True") && !ParseBool("yes")
  {
  }

  /** `get_flag()` (and the implicit conversion to `const bool&`) of flag `i`. */
  function GetFlag(reg: Registry, i: nat): bool
    requires i < |reg|
  {
    reg[i].value
  }

  /** `set_flag(v)` on flag `i`: only that flag's value changes. */
  function SetFlag(reg: Registry, i: nat, v: bool): (r: Registry)
    requires i < |reg|
    ensures |r| == |reg|
    ensures forall k :: 0 <= k < |r| ==> r[k].name == reg[k].name
    ensures forall k :: 0 <= k < |r| && k != i ==> r[k] == reg[k]
  {
    reg[i := Flag(reg[i].name, v)]
  }

  /** `flag = v`: sets the flag and returns what `get_flag()` now reports. */
  function Assign(reg: Registry, i: nat, v: bool): (r: (Registry, bool))
    requires i < |reg|
    ensures |r.0| == |reg| && r.1 == GetFlag(r.0, i)
  {
    var reg' := SetFlag(reg, i, v);
    (reg', GetFlag(reg', i))
  }

  /** `set_flag(const string&)`: parse, then set. */
  function SetFlagFromString(reg: Registry, i: nat, s: string): (r: Registry)
    requires i < |reg|
    ensures |r| == |reg|
  {
    SetFlag(reg, i, ParseBool(s))
  }

  /** After `set_flag(v)`, `flag = v` or `set_flag(s)`, `get_flag()` returns the new value;
      the other flags keep theirs. */
  lemma SetThenGet(reg: Registry, i: nat, v: bool, s: string)
    requires i < |reg|
    ensures GetFlag(SetFlag(reg, i, v), i) == v
    ensures Assign(reg, i, v).1 == v
    ensures GetFlag(SetFlagFromString(reg, i, s), i) == ParseBool(s)
    ensures forall k :: 0 <= k < |reg| && k != i ==> GetFlag(SetFlag(reg, i, v), k) == GetFlag(reg, k)
  {
  }

  /** What the scan does with one command-line argument. */
  datatype ArgAction =
    | StopScan                               // the argument "--": nothing after it is for us
    | Skip                                   // not of the form --name=value
    | SetNamed(name: string, value: string)  // set every flag called `name` from `value`

  /** The body of the argument loop of `InitializeFlags`, for one argument. */
  function ClassifyArg(arg: string): (r: ArgAction)
    ensures r.StopScan? <==> arg == "--"
    ensures r.SetNamed? ==>
      && arg == "--" + r.name + "=" + r.value
      && '=' !in r.name
      && |r.value| >= 1
      && |arg| >= 5
  {
    if arg == "--" then StopScan
    else if |arg| < 5 then Skip
    else if arg[..2] != "--" then Skip
    else
      match IndexOf(arg, '=')
      case None => Skip
      case Some(split) =>
        if split >= |arg| - 1 then Skip
        else
          assert 2 <= split by {
            assert arg[0] == '-' && arg[1] == '-';
          }
          var name := arg[2..split];
          var value := arg[split + 1..];
          assert '=' !in name by {
            assert forall c :: c in name ==> c in arg[..split];
          }
          assert arg == "--" + name + "=" + value;
          SetNamed(name, value)
  }

  /** Every well-formed `--name=value` is recognised, and split back into exactly
      that name and value: the first '=' separates them. */
  lemma {:induction false} ClassifyArgRoundTrip(name: string, value: string)
    requires '=' !in name
    requires |value| >= 1
    requires |name| + |value| >= 2
    ensures ClassifyArg("--" + name + "=" + value) == SetNamed(name, value)
  {
    var arg := "--" + name + "=" + value;
    assert arg[..2] == "--";
    assert arg[2 + |name|] == '=';
    assert '=' !in arg[..2 + |name|] by {
      assert arg[..2 + |name|] == "--" + name;
    }
    assert IndexOf(arg, '=') == Some(2 + |name|) by {
      var idx := IndexOf(arg, '=');
      assert idx.Some?;
    }
    assert arg[2..2 + |name|] == name;
    assert arg[2 + |name| + 1..] == value;
  }

  /** Arguments the scan always ignores. */
  lemma ClassifyArgSkips(arg: string)
    ensures arg != "--" && |arg| < 5 ==> ClassifyArg(arg) == Skip
    ensures |arg| >= 2 && arg[..2] != "--" ==> ClassifyArg(arg) == Skip
    ensures arg != "--" && '=' !in arg ==> ClassifyArg(arg) == Skip
    ensures |arg| > 0 && arg[|arg| - 1] == '=' && '=' !in arg[..|arg| - 1] ==> ClassifyArg(arg) == Skip
  {
    if |arg| > 0 && arg[|arg| - 1] == '=' && '=' !in arg[..|arg| - 1] && arg != "--" && |arg| >= 5 && arg[..2] == "--" {
      var idx := IndexOf(arg, '=');
      assert idx.Some?;
    }
  }

  /** Every registered flag called `name` takes `value`; the rest are untouched. */
  function SetMatching(reg: Registry, name: string, value: bool): (r: Registry)
    ensures |r| == |reg|
    ensures forall k :: 0 <= k < |r| ==> r[k].name == reg[k].name
    ensures forall k :: 0 <= k < |r| && reg[k].name != name ==> r[k] == reg[k]
    ensures forall k :: 0 <= k < |r| && reg[k].name == name ==> r[k].value == value
  {
    seq(|reg|, (k: int) requires 0 <= k < |reg| => if reg[k].name == name then Flag(name, value) else reg[k])
  }

  /** The effect of the arguments after `argv[0]`, one at a time, up to the first "--". */
  function ApplyArgs(reg: Registry, args: seq<string>): (r: Registry)
    ensures |r| == |reg|
    ensures forall k :: 0 <= k < |r| ==> r[k].name == reg[k].name
    decreases |args|
  {
    if |args| == 0 then reg
    else
      match ClassifyArg(args[0])
      case StopScan => reg
      case Skip => ApplyArgs(reg, args[1..])
      case SetNamed(n, v) => ApplyArgs(SetMatching(reg, n, ParseBool(v)), args[1..])
  }

  /** The value text of the last `--name=...` argument before the first "--", if any. */
  function LastSetting(args: seq<string>, name: string): Option<string>
    decreases |args|
  {
    if |args| == 0 then None
    else
      match ClassifyArg(args[0])
      case StopScan => None
      case Skip => LastSetting(args[1..], name)
      case SetNamed(n, v) =>
        var later := LastSetting(args[1..], name);
        if later.Some? then later else if n == name then Some(v) else None
  }

  /** The outcome of the scan, flag by flag: a flag ends with the parsed value of the
      last argument that names it before "--"; a flag no argument names is unchanged. */
  lemma {:induction false} ApplyArgsUsesLastSetting(reg: Registry, args: seq<string>, k: nat)
    requires k < |reg|
    ensures ApplyArgs(reg, args)[k].value ==
      match LastSetting(args, reg[k].name)
      case None => reg[k].value
      case Some(v) => ParseBool(v)
    decreases |args|
  {
    if |args| > 0 {
      match ClassifyArg(args[0])
      case StopScan =>
      case Skip =>
        ApplyArgsUsesLastSetting(reg, args[1..], k);
      case SetNamed(n, v) =>
        var reg' := SetMatching(reg, n, ParseBool(v));
        ApplyArgsUsesLastSetting(reg', args[1..], k);
    }
  }

  /** The arguments the scan looks at: `argv[1..argc]`. */
  function ScannedArgs(argv: seq<string>): seq<string> {
    if |argv| == 0 then [] else argv[1..]
  }

  /** `InitializeFlags(argc, argv)`: walks `argv` from index 1, stops at "--", and sets
      every flag named by a well-formed `--name=value` argument. */
  method InitializeFlags(reg: Registry, argv: seq<string>) returns (r: Registry)
    ensures r == ApplyArgs(reg, ScannedArgs(argv))
    ensures |r| == |reg|
    ensures forall k :: 0 <= k < |r| ==> r[k].name == reg[k].name
    ensures forall k :: 0 <= k < |r| ==>
      r[k].value == match LastSetting(ScannedArgs(argv), reg[k].name)
                    case None => reg[k].value
                    case Some(v) => ParseBool(v)
  {
    r := reg;
    var i := 1;
    while i < |argv|
      invariant 1 <= i
      invariant |argv| > 0 ==> i <= |argv|
      invariant |argv| > 0 ==> ApplyArgs(r, argv[i..]) == ApplyArgs(reg, argv[1..])
      invariant |argv| == 0 ==> r == reg
      decreases |argv| - i
    {
      var action := ClassifyArg(argv[i]);
      assert argv[i..][1..] == argv[i + 1..];
      if action.StopScan? {
        break;
      }
      if action.SetNamed? {
        r := SetMatching(r, action.name, ParseBool(action.value));
      }
      i := i + 1;
    }
    if |argv| > 0 && i >= |argv| {
      assert argv[i..] == [];
    }
    forall k | 0 <= k < |reg|
      ensures r[k].value == match LastSetting(ScannedArgs(argv), reg[k].name)
                            case None => reg[k].value
                            case Some(v) => ParseBool(v)
    {
      ApplyArgsUsesLastSetting(reg, ScannedArgs(argv), k);
    }
  }

  /** Test_Example and Test_SetViaAssign: a fresh flag reads its default, then the value set. */
  lemma ExampleTest()
    ensures var reg := Register([], "dump_shaders", false);
      && reg.Success?
      && !GetFlag(reg.value, 0)
      && GetFlag(SetFlag(reg.value, 0, true), 0)
      && Assign(reg.value, 0, true).1
  {
  }

  /** Test_Initialize, for any program name and any well-formed `--name=value`:
      the flags called `name` take the parsed value, the others keep theirs. */
  method InitializeOneFlag(reg: Registry, program: string, name: string, value: string) returns (r: Registry)
    requires '=' !in name && |value| >= 1 && |name| + |value| >= 2
    ensures |r| == |reg|
    ensures forall k :: 0 <= k < |r| && reg[k].name == name ==> r[k] == Flag(name, ParseBool(value))
    ensures forall k :: 0 <= k < |r| && reg[k].name != name ==> r[k] == reg[k]
  {
    var arg := "--" + name + "=" + value;
    ClassifyArgRoundTrip(name, value);
    assert ScannedArgs([program, arg]) == [arg];
    assert [arg][1..] == [];
    r := InitializeFlags(reg, [program, arg]);
  }
}

=== FILE: lazeb.dfy ===
/** Lazeb's rule logic: the BUILD-file rule constructors with their default names, the
    lookup of the rule that provides a file, the link sets computed over the include
    graph, and the guard that writes an object file's rules once. A source file is
    represented by its lines, as `readlines` returns them; the include graph is the map
    from file name to those lines. */
module Lazeb {
  import opened Wrappers
  import opened Text

  /** A `cc_binary` or `cc_test` rule: one linker invocation. */
  datatype Binary = Binary(name: string, output: string, sources: seq<string>, isTest: bool)

  /** A `cc_objfile` rule: a compile and a header generation. */
  datatype Objfile = Objfile(name: string, outputs: seq<string>, source: string, written: bool)

  /** All the rules of a BUILD file, in declaration order. */
  datatype Build = Build(header: string, binaries: seq<Binary>, objfiles: seq<Objfile>, basedir: string)

  /** `cc_binary(name, sources=None, output=None)`: the output defaults to the name with
      `_main`, the sources to the name's `.cc` file; the rule is appended. */
  function CcBinary(build: Build, name: string, sources: Option<seq<string>>, output: Option<string>): (r: (Build, Binary))
    ensures r.0.binaries == build.binaries + [r.1] && r.0.objfiles == build.objfiles
    ensures r.1.name == name && !r.1.isTest
    ensures r.1.output == (if output.Some? then output.value else name + "_main")
    ensures r.1.sources == (if sources.Some? then sources.value else [name + ".cc"])
  {
    var output' := if output.None? then name + "_main" else output.value;
    var sources' := if sources.None? then [name + ".cc"] else sources.value;
    var binary := Binary(name, output', sources', false);
    (build.(binaries := build.binaries + [binary]), binary)
  }

  /** `cc_test(name, source=None, output=None)`: a binary marked as a test, with output
      `<name>_test_main` and the single source `<name>.cc` by default. */
  function CcTest(build: Build, name: string, source: Option<string>, output: Option<string>): (r: (Build, Binary))
    ensures r.0.binaries == build.binaries + [r.1] && r.0.objfiles == build.objfiles
    ensures r.1.name == name && r.1.isTest
    ensures r.1.output == (if output.Some? then output.value else name + "_test_main")
    ensures r.1.sources == [if source.Some? then source.value else name + ".cc"]
  {
    var output' := if output.None? then name + "_test_main" else output.value;
    var source' := if source.None? then name + ".cc" else source.value;
    var test := Binary(name, output', [source'], true);
    (build.(binaries := build.binaries + [test]), test)
  }

  /** `cc_objfile(name, source=None, outputs=None)`: outputs `<name>.o` and `<name>.h`
      from `<name>.cc` by default, not yet written. */
  function CcObjfile(build: Build, name: string, source: Option<string>, outputs: Option<seq<string>>): (r: (Build, Objfile))
    ensures r.0.objfiles == build.objfiles + [r.1] && r.0.binaries == build.binaries
    ensures r.1.name == name && !r.1.written
    ensures r.1.outputs == (if outputs.Some? then outputs.value else [name + ".o", name + ".h"])
    ensures r.1.source == (if source.Some? then source.value else name + ".cc")
  {
    var outputs' := if outputs.None? then [name + ".o", name + ".h"] else outputs.value;
    var source' := if source.None? then name + ".cc" else source.value;
    var objfile := Objfile(name, outputs', source', false);
    (build.(objfiles := build.objfiles + [objfile]), objfile)
  }

  /** The header a line includes, if it is a project include: the stripped line starts
      with `#include "` and the name is what lies between that and the last character. */
  function IncludeOf(line: string): Option<string> {
    var l := Strip(line);
    if StartsWith(l, "#include \"") then Some(PySlice(l, 10, -1)) else None
  }

  /** `compute_included_files` on a file's lines. */
  function IncludedFiles(lines: seq<string>): (r: seq<string>)
    ensures |r| <= |lines|
  {
    if |lines| == 0 then []
    else
      match IncludeOf(lines[0])
      case Some(f) => [f] + IncludedFiles(lines[1..])
      case None => IncludedFiles(lines[1..])
  }

  /** Lines none of which is a project include yield no names. */
  lemma IncludedFilesNone(lines: seq<string>)
    ensures (forall k :: 0 <= k < |lines| ==> IncludeOf(lines[k]).None?) ==> IncludedFiles(lines) == []
  {
    var r := IncludedFiles(lines);
    if |r| > 0 {
      IncludedFilesMembers(lines, r[0]);
    }
  }

  /** An include directive for `f`. */
  function IncludeLine(f: string): string {
    "#include \"" + f + "\""
  }

  lemma IncludeLineRoundTrip(f: string)
    ensures IncludeOf(IncludeLine(f)) == Some(f)
  {
    var l := IncludeLine(f);
    StripTrimmed(l);
    assert l[..10] == "#include \"";
    assert PySlice(l, 10, -1) == l[10..|l| - 1];
  }

  /** The same directive as `readlines()` gives it, newline included. */
  lemma IncludeLineWithNewline(f: string)
    ensures IncludeOf(IncludeLine(f) + "\n") == Some(f)
  {
    var l := IncludeLine(f);
    assert l + "\n" == "" + l + "\n";
    StripOfPadded("", l, "\n");
    IncludeLineRoundTrip(f);
  }

  /** A file consisting of an include directive for each of `fs`. */
  function IncludeLines(fs: seq<string>): (lines: seq<string>)
    ensures |lines| == |fs|
  {
    if |fs| == 0 then [] else [IncludeLine(fs[0])] + IncludeLines(fs[1..])
  }

  lemma IncludedFilesCons(line: string, rest: seq<string>, f: string)
    requires IncludeOf(line) == Some(f)
    ensures IncludedFiles([line] + rest) == [f] + IncludedFiles(rest)
  {
    assert ([line] + rest)[1..] == rest;
  }

  /** A file made of include directives names exactly the included files, in order. */
  lemma {:induction false} IncludedFilesRoundTrip(fs: seq<string>)
    ensures IncludedFiles(IncludeLines(fs)) == fs
    decreases |fs|
  {
    if |fs| > 0 {
      var lines := IncludeLines(fs);
      assert lines[0] == IncludeLine(fs[0]) && lines[1..] == IncludeLines(fs[1..]);
      IncludeLineRoundTrip(fs[0]);
      IncludedFilesCons(lines[0], lines[1..], fs[0]);
      assert lines == [lines[0]] + lines[1..];
      IncludedFilesRoundTrip(fs[1..]);
      assert fs == [fs[0]] + fs[1..];
    }
  }

  /** The filter works line by line: the includes of two parts of a file are those of
      the first part followed by those of the second. */
  lemma {:induction false} IncludedFilesAppend(a: seq<string>, b: seq<string>)
    ensures IncludedFiles(a + b) == IncludedFiles(a) + IncludedFiles(b)
    decreases |a|
  {
    if |a| == 0 {
      assert a + b == b;
    } else {
      assert (a + b)[0] == a[0] && (a + b)[1..] == a[1..] + b;
      IncludedFilesAppend(a[1..], b);
    }
  }

  /** A returned name comes from some line that is a project include of it; the line's
      index is the lemma's result. */
  lemma {:induction false} IncludedFilesSource(lines: seq<string>, x: string) returns (k: nat)
    requires x in IncludedFiles(lines)
    ensures k < |lines| && IncludeOf(lines[k]) == Some(x)
    decreases |lines|
  {
    var tail := lines[1..];
    var found := IncludeOf(lines[0]);
    var head := if found.Some? then [found.value] else [];
    assert IncludedFiles(lines) == head + IncludedFiles(tail);
    if x in head {
      k := 0;
    } else {
      var t := IncludedFilesSource(tail, x);
      assert lines[t + 1] == tail[t];
      k := t + 1;
    }
  }

  /** The name of every project include line is returned. */
  lemma {:induction false} IncludedFilesComplete(lines: seq<string>, x: string, k: nat)
    requires k < |lines| && IncludeOf(lines[k]) == Some(x)
    ensures x in IncludedFiles(lines)
    decreases k
  {
    var tail := lines[1..];
    var found := IncludeOf(lines[0]);
    var head := if found.Some? then [found.value] else [];
    assert IncludedFiles(lines) == head + IncludedFiles(tail);
    if k > 0 {
      assert tail[k - 1] == lines[k];
      IncludedFilesComplete(tail, x, k - 1);
    }
  }

  /** A name is returned iff some line, whatever the other lines are, is a project
      include of it. */
  lemma IncludedFilesMembers(lines: seq<string>, x: string)
    ensures x in IncludedFiles(lines) <==> exists k :: 0 <= k < |lines| && IncludeOf(lines[k]) == Some(x)
  {
    if x in IncludedFiles(lines) {
      var k := IncludedFilesSource(lines, x);
    }
    if exists k :: 0 <= k < |lines| && IncludeOf(lines[k]) == Some(x) {
      var k :| 0 <= k < |lines| && IncludeOf(lines[k]) == Some(x);
      IncludedFilesComplete(lines, x, k);
    }
  }

  /** Index of the last occurrence of `c`, or -1. */
  function LastIndexOf(s: string, c: char): (r: int)
    ensures -1 <= r < |s|
    ensures r >= 0 ==> s[r] == c
    ensures forall i :: r < i < |s| ==> s[i] != c
  {
    if |s| == 0 then -1
    else if s[|s| - 1] == c then |s| - 1
    else LastIndexOf(s[..|s| - 1], c)
  }

  predicate AllDots(s: string) {
    forall i :: 0 <= i < |s| ==> s[i] == '.'
  }

  /** What `splitext` can return as an extension: nothing, or a dot followed by
      neither dots nor slashes. */
  predicate IsExtension(e: string) {
    e == "" || (e[0] == '.' && '.' !in e[1..] && '/' !in e)
  }

  /** `os.path.splitext`: the extension starts at the last dot of the last path
      component, unless only dots precede it in that component. */
  function Splitext(p: string): (r: (string, string))
    ensures r.0 + r.1 == p
    ensures IsExtension(r.1)
  {
    var sep := LastIndexOf(p, '/');
    var dot := LastIndexOf(p, '.');
    if dot > sep && !AllDots(p[sep + 1..dot]) then
      ExtensionShape(p, sep, dot);
      (p[..dot], p[dot..])
    else
      assert p + "" == p;
      (p, "")
  }

  lemma ExtensionShape(p: string, sep: int, dot: nat)
    requires -1 <= sep < dot < |p| && p[dot] == '.'
    requires forall i :: dot < i < |p| ==> p[i] != '.'
    requires forall i :: sep < i < |p| ==> p[i] != '/'
    ensures p[..dot] + p[dot..] == p
    ensures IsExtension(p[dot..])
  {
    var e := p[dot..];
    assert forall i :: 0 <= i < |e| ==> e[i] == p[dot + i];
    assert e[1..] == p[dot + 1..];
  }

  /** A root whose last character is neither `/` nor `.`, and an extension without dots
      or slashes, come apart again. */
  lemma SplitextRoundTrip(root: string, ext: string)
    requires |root| > 0 && root[|root| - 1] != '/' && root[|root| - 1] != '.'
    requires '.' !in ext && '/' !in ext
    ensures Splitext(root + "." + ext) == (root, "." + ext)
  {
    var p := root + "." + ext;
    var n := |root|;
    forall i | n < i < |p|
      ensures p[i] != '.' && p[i] != '/'
    {
      assert p[i] == ext[i - n - 1];
    }
    SplitextAt(p, n);
    assert p[..n] == root && p[n..] == "." + ext;
  }

  /** The split happens at a dot that is the last dot and after the last slash, when
      the character before it is neither. */
  lemma SplitextAt(p: string, n: nat)
    requires 0 < n < |p| && p[n] == '.' && p[n - 1] != '/' && p[n - 1] != '.'
    requires forall i :: n < i < |p| ==> p[i] != '.' && p[i] != '/'
    ensures Splitext(p) == (p[..n], p[n..])
  {
    LastIndexIs(p, '.', n);
    LastIndexBefore(p, '/', n - 1);
    var sep := LastIndexOf(p, '/');
    assert !AllDots(p[sep + 1..n]) by {
      assert p[sep + 1..n][n - 1 - (sep + 1)] == p[n - 1];
    }
  }

  lemma LastIndexIs(s: string, c: char, k: nat)
    requires k < |s| && s[k] == c
    requires forall i :: k < i < |s| ==> s[i] != c
    ensures LastIndexOf(s, c) == k
  {
  }

  lemma LastIndexBefore(s: string, c: char, k: nat)
    requires k < |s|
    requires forall i :: k <= i < |s| ==> s[i] != c
    ensures LastIndexOf(s, c) < k
  {
  }

  /** Who provides a file: a binary by its output, or an objfile by one of its outputs. */
  datatype Provider = ByBinary(index: nat) | ByObjfile(index: nat)

  function FirstBinary(binaries: seq<Binary>, f: string): (r: Option<nat>)
    ensures r.None? <==> forall i :: 0 <= i < |binaries| ==> binaries[i].output != f
    ensures r.Some? ==> r.value < |binaries| && binaries[r.value].output == f
                        && forall i :: 0 <= i < r.value ==> binaries[i].output != f
  {
    if |binaries| == 0 then None
    else if binaries[0].output == f then Some(0)
    else match FirstBinary(binaries[1..], f)
      case None => None
      case Some(i) => Some(i + 1)
  }

  function FirstObjfile(objfiles: seq<Objfile>, f: string): (r: Option<nat>)
    ensures r.None? <==> forall i :: 0 <= i < |objfiles| ==> f !in objfiles[i].outputs
    ensures r.Some? ==> r.value < |objfiles| && f in objfiles[r.value].outputs
                        && forall i :: 0 <= i < r.value ==> f !in objfiles[i].outputs
  {
    if |objfiles| == 0 then None
    else if f in objfiles[0].outputs then Some(0)
    else match FirstObjfile(objfiles[1..], f)
      case None => None
      case Some(i) => Some(i + 1)
  }

  /** `target_providing_filename`: binaries are searched first, then objfiles; the first
      match wins. */
  function TargetProviding(build: Build, f: string): (r: Option<Provider>)
    ensures r.None? <==> (forall i :: 0 <= i < |build.binaries| ==> build.binaries[i].output != f)
                         && (forall i :: 0 <= i < |build.objfiles| ==> f !in build.objfiles[i].outputs)
    ensures r.Some? && r.value.ByBinary? ==> r.value.index < |build.binaries| && build.binaries[r.value.index].output == f
    ensures r.Some? && r.value.ByObjfile? ==> r.value.index < |build.objfiles| && f in build.objfiles[r.value.index].outputs
    ensures r.Some? && r.value.ByObjfile? ==> forall i :: 0 <= i < |build.binaries| ==> build.binaries[i].output != f
  {
    match FirstBinary(build.binaries, f)
    case Some(i) => Some(ByBinary(i))
    case None =>
      match FirstObjfile(build.objfiles, f)
      case Some(i) => Some(ByObjfile(i))
      case None => None
  }

  /** A newly declared binary provides its output unless an earlier binary does. */
  lemma CcBinaryProvidesOutput(build: Build, name: string, sources: Option<seq<string>>, output: Option<string>)
    requires var out := if output.Some? then output.value else name + "_main";
      forall i :: 0 <= i < |build.binaries| ==> build.binaries[i].output != out
    ensures var (build', binary) := CcBinary(build, name, sources, output);
      TargetProviding(build', binary.output) == Some(ByBinary(|build.binaries|))
  {
    var (build', binary) := CcBinary(build, name, sources, output);
    FirstBinaryAppended(build.binaries, binary, binary.output);
    assert FirstBinary(build'.binaries, binary.output) == Some(|build.binaries|);
  }

  /** A binary appended after others with different outputs is the first to provide its output. */
  lemma FirstBinaryAppended(binaries: seq<Binary>, b: Binary, f: string)
    requires forall i :: 0 <= i < |binaries| ==> binaries[i].output != f
    requires b.output == f
    ensures FirstBinary(binaries + [b], f) == Some(|binaries|)
  {
    var all := binaries + [b];
    assert all[|binaries|] == b;
    assert forall i :: 0 <= i < |binaries| ==> all[i].output != f;
  }

  /** A newly declared default objfile provides `<name>.o`, unless something earlier does. */
  lemma CcObjfileProvidesObject(build: Build, name: string)
    requires TargetProviding(build, name + ".o").None?
    ensures var (build', objfile) := CcObjfile(build, name, None, None);
      TargetProviding(build', name + ".o") == Some(ByObjfile(|build.objfiles|))
  {
    var (build', objfile) := CcObjfile(build, name, None, None);
    assert build'.objfiles[|build.objfiles|] == objfile;
    assert name + ".o" in objfile.outputs;
  }

  /** The include directives of a source file, or none when the file is not in the map. */
  function Includes(sources: map<string, seq<string>>, file: string): seq<string> {
    if file in sources then IncludedFiles(sources[file]) else []
  }

  /** A file's provider, if it is an objfile, ranks below `bound`. */
  predicate ProviderBelow(build: Build, rank: seq<nat>, f: string, bound: nat) {
    match TargetProviding(build, f)
    case Some(ByObjfile(j)) => j < |rank| && rank[j] < bound
    case _ => true
  }

  /** The objfiles providing the includes of objfile `i`'s source rank below it. */
  predicate IncludesRankBelow(build: Build, sources: map<string, seq<string>>, rank: seq<nat>, i: nat)
    requires i < |build.objfiles| && i < |rank|
  {
    forall f :: f in Includes(sources, build.objfiles[i].source) ==> ProviderBelow(build, rank, f, rank[i])
  }

  /** The include graph is acyclic: the objfiles providing a source's includes rank
      strictly lower than the objfile compiling it. */
  predicate Acyclic(build: Build, sources: map<string, seq<string>>, rank: seq<nat>) {
    && |rank| == |build.objfiles|
    && forall i :: 0 <= i < |build.objfiles| ==> IncludesRankBelow(build, sources, rank, i)
  }

  /** How the link-set computation stops: a source that cannot be opened (the `IOError`
      of `open`), or one of its `assert`s. */
  datatype LinkError = NoSource(file: string) | NoProvider(file: string) | NotAnObjfile(file: string)

  predicate IsObject(f: string) {
    Splitext(f).1 == ".o"
  }

  /** The `.o` outputs among an objfile's outputs. */
  function Objects(outputs: seq<string>): (r: seq<string>)
    ensures forall x :: x in r <==> x in outputs && IsObject(x)
  {
    if |outputs| == 0 then []
    else (if IsObject(outputs[0]) then [outputs[0]] else []) + Objects(outputs[1..])
  }

  /** A sequence strictly increasing in Python's string order. */
  predicate StrictlySorted(xs: seq<string>) {
    forall i, j :: 0 <= i < j < |xs| ==> LexLess(xs[i], xs[j])
  }

  /** Inserts into a strictly sorted sequence, keeping it so; an element already present is not repeated. */
  function Insert(x: string, xs: seq<string>): (r: seq<string>)
    requires StrictlySorted(xs)
    ensures StrictlySorted(r)
    ensures forall y :: y in r <==> y == x || y in xs
  {
    if |xs| == 0 then [x]
    else if x == xs[0] then xs
    else if LexLess(x, xs[0]) then
      assert forall j :: 0 <= j < |xs| ==> LexLess(x, xs[j]) by {
        forall j | 0 < j < |xs| {
          LexLessTransitive(x, xs[0], xs[j]);
        }
      }
      [x] + xs
    else
      LexLessTotal(x, xs[0]);
      var rest := Insert(x, xs[1..]);
      assert forall y :: y in rest ==> LexLess(xs[0], y);
      [xs[0]] + rest
  }

  /** `sorted(set(xs))`. */
  function SortedUnique(xs: seq<string>): (r: seq<string>)
    ensures StrictlySorted(r)
    ensures forall y :: y in r <==> y in xs
  {
    if |xs| == 0 then [] else Insert(xs[0], SortedUnique(xs[1..]))
  }

  lemma SameElementsNonEmpty(a: seq<string>, b: seq<string>)
    requires |a| > 0 && forall y :: y in a <==> y in b
    ensures |b| > 0
  {
    assert a[0] in b;
  }

  /** A strictly sorted sequence is determined by its elements: `sorted(set(xs))` is the
      only sorted, duplicate-free listing of them. */
  lemma {:induction false} SortedIsCanonical(a: seq<string>, b: seq<string>)
    requires StrictlySorted(a) && StrictlySorted(b)
    requires forall y :: y in a <==> y in b
    ensures a == b
    decreases |a|
  {
    if |a| > 0 {
      SameElementsNonEmpty(a, b);
    }
    if |b| > 0 {
      SameElementsNonEmpty(b, a);
    }
    if |a| > 0 && |b| > 0 {
      assert a[0] in b && b[0] in a;
      if a[0] != b[0] {
        var i :| 0 <= i < |b| && b[i] == a[0];
        var j :| 0 <= j < |a| && a[j] == b[0];
        assert LexLess(b[0], a[0]) && LexLess(a[0], b[0]);
        LexLessAsymmetric(a[0], b[0]);
      }
      assert a == [a[0]] + a[1..] && b == [b[0]] + b[1..];
      forall y
        ensures y in a[1..] <==> y in b[1..]
      {
        if y in a[1..] {
          var i :| 0 <= i < |a[1..]| && a[1..][i] == y;
          assert a[i + 1] == y && y in a && y in b;
          assert LexLess(a[0], a[i + 1]);
          LexLessIrreflexive(y);
          assert y != b[0];
        }
        if y in b[1..] {
          var i :| 0 <= i < |b[1..]| && b[1..][i] == y;
          assert b[i + 1] == y && y in b && y in a;
          assert LexLess(b[0], b[i + 1]);
          LexLessIrreflexive(y);
          assert y != a[0];
        }
      }
      SortedIsCanonical(a[1..], b[1..]);
      assert a == [a[0]] + a[1..] && b == [b[0]] + b[1..];
    }
  }

  /** `compute_link_set_for_objfile`: the `.o` files of the objfiles providing the
      source's includes and, transitively, of theirs; sorted and without duplicates. */
  function ObjfileLinkSet(build: Build, sources: map<string, seq<string>>, rank: seq<nat>, i: nat): (r: Result<seq<string>, LinkError>)
    requires Acyclic(build, sources, rank) && i < |build.objfiles|
    ensures r.Success? ==> StrictlySorted(r.value) && forall x :: x in r.value ==> IsObject(x)
    ensures build.objfiles[i].source !in sources ==> r == Failure(NoSource(build.objfiles[i].source))
    decreases rank[i], 1
  {
    if build.objfiles[i].source !in sources then Failure(NoSource(build.objfiles[i].source))
    else
      assert IncludesRankBelow(build, sources, rank, i);
      match IncludesLinkList(build, sources, rank, rank[i], Includes(sources, build.objfiles[i].source))
      case Failure(e) => Failure(e)
      case Success(l) => Success(SortedUnique(l))
  }

  /** The loop over one source's includes, before sorting. */
  function IncludesLinkList(build: Build, sources: map<string, seq<string>>, rank: seq<nat>, bound: nat, files: seq<string>): (r: Result<seq<string>, LinkError>)
    requires Acyclic(build, sources, rank)
    requires forall f :: f in files ==> ProviderBelow(build, rank, f, bound)
    ensures r.Success? ==> forall x :: x in r.value ==> IsObject(x)
    decreases bound, 0, |files|
  {
    if |files| == 0 then Success([])
    else
      assert ProviderBelow(build, rank, files[0], bound);
      match TargetProviding(build, files[0])
      case None => Failure(NoProvider(files[0]))
      case Some(ByBinary(_)) => Failure(NotAnObjfile(files[0]))
      case Some(ByObjfile(j)) =>
        match ObjfileLinkSet(build, sources, rank, j)
        case Failure(e) => Failure(e)
        case Success(sub) =>
          match IncludesLinkList(build, sources, rank, bound, files[1..])
          case Failure(e) => Failure(e)
          case Success(rest) =>
            Success(Objects(build.objfiles[j].outputs) + sub + rest)
  }

  /** An included file is provided by an objfile whose `.o` outputs and whose own link
      set all appear in `l`. */
  predicate Covered(build: Build, sources: map<string, seq<string>>, rank: seq<nat>, f: string, l: seq<string>)
    requires Acyclic(build, sources, rank)
  {
    match TargetProviding(build, f)
    case Some(ByObjfile(j)) =>
      && (forall x :: x in Objects(build.objfiles[j].outputs) ==> x in l)
      && ObjfileLinkSet(build, sources, rank, j).Success?
      && (forall x :: x in ObjfileLinkSet(build, sources, rank, j).value ==> x in l)
    case _ => false
  }

  /** Everything a successful link list holds for the first include holds for each
      include: its provider is an objfile whose objects and link set are listed. */
  lemma {:induction false} LinkListCovers(build: Build, sources: map<string, seq<string>>, rank: seq<nat>, bound: nat, files: seq<string>)
    requires Acyclic(build, sources, rank)
    requires forall f :: f in files ==> ProviderBelow(build, rank, f, bound)
    requires IncludesLinkList(build, sources, rank, bound, files).Success?
    ensures forall k :: 0 <= k < |files| ==> Covered(build, sources, rank, files[k], IncludesLinkList(build, sources, rank, bound, files).value)
    decreases |files|
  {
    if |files| > 0 {
      var l := IncludesLinkList(build, sources, rank, bound, files).value;
      var j := TargetProviding(build, files[0]).value.index;
      var sub := ObjfileLinkSet(build, sources, rank, j).value;
      var rest := IncludesLinkList(build, sources, rank, bound, files[1..]).value;
      assert l == Objects(build.objfiles[j].outputs) + sub + rest;
      LinkListCovers(build, sources, rank, bound, files[1..]);
      forall k | 0 <= k < |files|
        ensures Covered(build, sources, rank, files[k], l)
      {
        if k > 0 {
          assert files[k] == files[1..][k - 1];
          assert Covered(build, sources, rank, files[k], rest);
        }
      }
    }
  }

  /** An objfile's link set holds the objects of every objfile providing one of its
      source's includes, and those objfiles' own link sets. */
  lemma ObjfileLinkSetCovers(build: Build, sources: map<string, seq<string>>, rank: seq<nat>, i: nat)
    requires Acyclic(build, sources, rank) && i < |build.objfiles|
    requires ObjfileLinkSet(build, sources, rank, i).Success?
    ensures forall f :: f in Includes(sources, build.objfiles[i].source) ==>
      Covered(build, sources, rank, f, ObjfileLinkSet(build, sources, rank, i).value)
  {
    var files := Includes(sources, build.objfiles[i].source);
    assert IncludesRankBelow(build, sources, rank, i);
    LinkListCovers(build, sources, rank, rank[i], files);
    var l := IncludesLinkList(build, sources, rank, rank[i], files).value;
    forall f | f in files
      ensures Covered(build, sources, rank, f, ObjfileLinkSet(build, sources, rank, i).value)
    {
      var k :| 0 <= k < |files| && files[k] == f;
      assert Covered(build, sources, rank, f, l);
    }
  }

  /** `x` is contributed by the provider of the included file `f`: one of its `.o`
      outputs, or a member of its own link set. */
  predicate FromProvider(build: Build, sources: map<string, seq<string>>, rank: seq<nat>, f: string, x: string)
    requires Acyclic(build, sources, rank)
  {
    match TargetProviding(build, f)
    case Some(ByObjfile(j)) =>
      || x in Objects(build.objfiles[j].outputs)
      || (ObjfileLinkSet(build, sources, rank, j).Success? && x in ObjfileLinkSet(build, sources, rank, j).value)
    case _ => false
  }

  /** One step of a successful list over included files: the first file's provider is
      objfile `j`, and the list is its objects, its link set, then the rest. */
  lemma IncludesLinkListStep(build: Build, sources: map<string, seq<string>>, rank: seq<nat>, bound: nat, files: seq<string>)
      returns (j: nat)
    requires Acyclic(build, sources, rank)
    requires forall f :: f in files ==> ProviderBelow(build, rank, f, bound)
    requires |files| > 0 && IncludesLinkList(build, sources, rank, bound, files).Success?
    ensures TargetProviding(build, files[0]) == Some(ByObjfile(j)) && j < |build.objfiles|
    ensures ObjfileLinkSet(build, sources, rank, j).Success?
    ensures IncludesLinkList(build, sources, rank, bound, files[1..]).Success?
    ensures IncludesLinkList(build, sources, rank, bound, files).value
         == Objects(build.objfiles[j].outputs) + ObjfileLinkSet(build, sources, rank, j).value
            + IncludesLinkList(build, sources, rank, bound, files[1..]).value
  {
    j := TargetProviding(build, files[0]).value.index;
  }

  /** Every entry of `l` is contributed by the provider of some file of `files`. */
  predicate OnlyFrom(build: Build, sources: map<string, seq<string>>, rank: seq<nat>, files: seq<string>, l: seq<string>)
    requires Acyclic(build, sources, rank)
  {
    forall x :: x in l ==> exists k :: 0 <= k < |files| && FromProvider(build, sources, rank, files[k], x)
  }

  /** Putting the first file's contribution in front of the rest's keeps `OnlyFrom`. */
  lemma OnlyFromCons(build: Build, sources: map<string, seq<string>>, rank: seq<nat>, files: seq<string>, j: nat, rest: seq<string>)
    requires Acyclic(build, sources, rank) && |files| > 0
    requires TargetProviding(build, files[0]) == Some(ByObjfile(j)) && j < |build.objfiles|
    requires ObjfileLinkSet(build, sources, rank, j).Success?
    requires OnlyFrom(build, sources, rank, files[1..], rest)
    ensures OnlyFrom(build, sources, rank, files,
      Objects(build.objfiles[j].outputs) + ObjfileLinkSet(build, sources, rank, j).value + rest)
  {
    var sub := ObjfileLinkSet(build, sources, rank, j).value;
    forall x | x in Objects(build.objfiles[j].outputs) + sub + rest
      ensures exists k :: 0 <= k < |files| && FromProvider(build, sources, rank, files[k], x)
    {
      if x in Objects(build.objfiles[j].outputs) || x in sub {
        assert FromProvider(build, sources, rank, files[0], x);
      } else {
        var k :| 0 <= k < |files[1..]| && FromProvider(build, sources, rank, files[1..][k], x);
        assert files[1..][k] == files[k + 1];
      }
    }
  }

  /** A successful link list holds nothing but what the providers of the files
      contribute. */
  lemma {:induction false} LinkListOnlyFromIncludes(build: Build, sources: map<string, seq<string>>, rank: seq<nat>, bound: nat, files: seq<string>)
    requires Acyclic(build, sources, rank)
    requires forall f :: f in files ==> ProviderBelow(build, rank, f, bound)
    requires IncludesLinkList(build, sources, rank, bound, files).Success?
    ensures OnlyFrom(build, sources, rank, files, IncludesLinkList(build, sources, rank, bound, files).value)
    decreases |files|
  {
    if |files| > 0 {
      var j := IncludesLinkListStep(build, sources, rank, bound, files);
      LinkListOnlyFromIncludes(build, sources, rank, bound, files[1..]);
      OnlyFromCons(build, sources, rank, files, j, IncludesLinkList(build, sources, rank, bound, files[1..]).value);
    }
  }

  /** An objfile's link set holds nothing else: every member is a `.o` output of the
      provider of one of its source's includes, or is in that provider's link set. */
  lemma ObjfileLinkSetOnlyFromIncludes(build: Build, sources: map<string, seq<string>>, rank: seq<nat>, i: nat)
    requires Acyclic(build, sources, rank) && i < |build.objfiles|
    requires ObjfileLinkSet(build, sources, rank, i).Success?
    ensures forall x :: x in ObjfileLinkSet(build, sources, rank, i).value ==>
      exists f :: f in Includes(sources, build.objfiles[i].source) && FromProvider(build, sources, rank, f, x)
  {
    var files := Includes(sources, build.objfiles[i].source);
    assert IncludesRankBelow(build, sources, rank, i);
    LinkListOnlyFromIncludes(build, sources, rank, rank[i], files);
    var l := IncludesLinkList(build, sources, rank, rank[i], files).value;
    assert OnlyFrom(build, sources, rank, files, l);
    forall x | x in ObjfileLinkSet(build, sources, rank, i).value
      ensures exists f :: f in files && FromProvider(build, sources, rank, f, x)
    {
      assert x in l;
      var k :| 0 <= k < |files| && FromProvider(build, sources, rank, files[k], x);
    }
  }

  /** The object each source of a binary compiles to: its root with `.o`. */
  function SourceObjects(srcs: seq<string>): (r: seq<string>)
    ensures |r| == |srcs|
    ensures forall k :: 0 <= k < |srcs| ==> r[k] == Splitext(srcs[k]).0 + ".o"
  {
    seq(|srcs|, (k: int) requires 0 <= k < |srcs| => Splitext(srcs[k]).0 + ".o")
  }

  lemma AllObjects(a: seq<string>, b: seq<string>)
    requires forall x :: x in a ==> IsObject(x)
    requires forall x :: x in b ==> IsObject(x)
    ensures forall x :: x in a + b ==> IsObject(x)
  {
  }

  /** The file is provided, and by an objfile. */
  predicate ObjfileProvided(build: Build, f: string) {
    TargetProviding(build, f).Some? && TargetProviding(build, f).value.ByObjfile?
  }

  /** The loop of `compute_link_set_for_binary`: each source object must come from an
      objfile, whose link set is collected. */
  function SourcesLinkList(build: Build, sources: map<string, seq<string>>, rank: seq<nat>, objs: seq<string>): Result<seq<string>, LinkError>
    requires Acyclic(build, sources, rank)
  {
    if |objs| == 0 then Success([])
    else
      match TargetProviding(build, objs[0])
      case None => Failure(NoProvider(objs[0]))
      case Some(ByBinary(_)) => Failure(NotAnObjfile(objs[0]))
      case Some(ByObjfile(j)) =>
        match ObjfileLinkSet(build, sources, rank, j)
        case Failure(e) => Failure(e)
        case Success(sub) =>
          match SourcesLinkList(build, sources, rank, objs[1..])
          case Failure(e) => Failure(e)
          case Success(rest) => Success(sub + rest)
  }

  /** A successful link list holds only objects. */
  lemma {:induction false} SourcesLinkListObjects(build: Build, sources: map<string, seq<string>>, rank: seq<nat>, objs: seq<string>)
    requires Acyclic(build, sources, rank)
    requires SourcesLinkList(build, sources, rank, objs).Success?
    ensures forall x :: x in SourcesLinkList(build, sources, rank, objs).value ==> IsObject(x)
    decreases |objs|
  {
    if |objs| > 0 {
      var j := TargetProviding(build, objs[0]).value.index;
      var sub := ObjfileLinkSet(build, sources, rank, j).value;
      SourcesLinkListObjects(build, sources, rank, objs[1..]);
      var rest := SourcesLinkList(build, sources, rank, objs[1..]).value;
      AllObjects(sub, rest);
    }
  }

  /** A successful link list found an objfile providing every source object. */
  lemma {:induction false} SourcesLinkListProvided(build: Build, sources: map<string, seq<string>>, rank: seq<nat>, objs: seq<string>)
    requires Acyclic(build, sources, rank)
    requires SourcesLinkList(build, sources, rank, objs).Success?
    ensures forall f :: f in objs ==> ObjfileProvided(build, f)
    decreases |objs|
  {
    if |objs| > 0 {
      assert TargetProviding(build, objs[0]).Some? && TargetProviding(build, objs[0]).value.ByObjfile?;
      SourcesLinkListProvided(build, sources, rank, objs[1..]);
      forall f | f in objs
        ensures ObjfileProvided(build, f)
      {
        if f != objs[0] {
          assert f in objs[1..];
        }
      }
    }
  }

  /** `compute_link_set_for_binary`: the sources' objects and everything they need,
      sorted and without duplicates. */
  function BinaryLinkSet(build: Build, sources: map<string, seq<string>>, rank: seq<nat>, b: Binary): (r: Result<seq<string>, LinkError>)
    requires Acyclic(build, sources, rank)
    ensures r.Success? ==> StrictlySorted(r.value)
    ensures r.Success? ==> forall k :: 0 <= k < |b.sources| ==> Splitext(b.sources[k]).0 + ".o" in r.value
    ensures r.Success? ==> forall x :: x in r.value ==> x in SourceObjects(b.sources) || IsObject(x)
    ensures r.Failure? <==> SourcesLinkList(build, sources, rank, SourceObjects(b.sources)).Failure?
  {
    var objs := SourceObjects(b.sources);
    match SourcesLinkList(build, sources, rank, objs)
    case Failure(e) => Failure(e)
    case Success(t) =>
      SourcesLinkListObjects(build, sources, rank, objs);
      var r := SortedUnique(objs + t);
      assert forall k :: 0 <= k < |b.sources| ==> objs[k] in objs + t;
      Success(r)
  }

  /** The objfile providing `f` has a link set, and all of it is in `l`. */
  predicate LinkSetWithin(build: Build, sources: map<string, seq<string>>, rank: seq<nat>, f: string, l: seq<string>)
    requires Acyclic(build, sources, rank)
  {
    match TargetProviding(build, f)
    case Some(ByObjfile(j)) =>
      ObjfileLinkSet(build, sources, rank, j).Success? && forall x :: x in ObjfileLinkSet(build, sources, rank, j).value ==> x in l
    case _ => false
  }

  /** `x` is in the link set of the objfile providing `f`. */
  predicate InLinkSetOf(build: Build, sources: map<string, seq<string>>, rank: seq<nat>, f: string, x: string)
    requires Acyclic(build, sources, rank)
  {
    match TargetProviding(build, f)
    case Some(ByObjfile(j)) => ObjfileLinkSet(build, sources, rank, j).Success? && x in ObjfileLinkSet(build, sources, rank, j).value
    case _ => false
  }

  /** A successful link list contains the link set of every source object's provider. */
  lemma {:induction false} SourcesLinkListCovers(build: Build, sources: map<string, seq<string>>, rank: seq<nat>, objs: seq<string>)
    requires Acyclic(build, sources, rank)
    requires SourcesLinkList(build, sources, rank, objs).Success?
    ensures forall k :: 0 <= k < |objs| ==> LinkSetWithin(build, sources, rank, objs[k], SourcesLinkList(build, sources, rank, objs).value)
    decreases |objs|
  {
    if |objs| > 0 {
      var l := SourcesLinkList(build, sources, rank, objs).value;
      var rest := SourcesLinkList(build, sources, rank, objs[1..]).value;
      SourcesLinkListCovers(build, sources, rank, objs[1..]);
      forall k | 0 <= k < |objs|
        ensures LinkSetWithin(build, sources, rank, objs[k], l)
      {
        if k > 0 {
          assert objs[k] == objs[1..][k - 1];
          assert LinkSetWithin(build, sources, rank, objs[k], rest);
        }
      }
    }
  }

  /** One step of a successful link list: the first source object's provider is
      objfile `j`, and the list is its link set followed by the rest. */
  lemma SourcesLinkListStep(build: Build, sources: map<string, seq<string>>, rank: seq<nat>, objs: seq<string>)
      returns (j: nat)
    requires Acyclic(build, sources, rank)
    requires |objs| > 0 && SourcesLinkList(build, sources, rank, objs).Success?
    ensures TargetProviding(build, objs[0]) == Some(ByObjfile(j)) && j < |build.objfiles|
    ensures ObjfileLinkSet(build, sources, rank, j).Success?
    ensures SourcesLinkList(build, sources, rank, objs[1..]).Success?
    ensures SourcesLinkList(build, sources, rank, objs).value
         == ObjfileLinkSet(build, sources, rank, j).value + SourcesLinkList(build, sources, rank, objs[1..]).value
  {
    j := TargetProviding(build, objs[0]).value.index;
  }

  /** Every entry of a successful link list is in the link set of some source object's
      provider. */
  lemma {:induction false} SourcesLinkListOnly(build: Build, sources: map<string, seq<string>>, rank: seq<nat>, objs: seq<string>)
    requires Acyclic(build, sources, rank)
    requires SourcesLinkList(build, sources, rank, objs).Success?
    ensures forall x :: x in SourcesLinkList(build, sources, rank, objs).value ==>
      exists k :: 0 <= k < |objs| && InLinkSetOf(build, sources, rank, objs[k], x)
    decreases |objs|
  {
    if |objs| > 0 {
      var j := SourcesLinkListStep(build, sources, rank, objs);
      var l := SourcesLinkList(build, sources, rank, objs).value;
      var sub := ObjfileLinkSet(build, sources, rank, j).value;
      SourcesLinkListOnly(build, sources, rank, objs[1..]);
      forall x | x in l
        ensures exists k :: 0 <= k < |objs| && InLinkSetOf(build, sources, rank, objs[k], x)
      {
        if x in sub {
          assert InLinkSetOf(build, sources, rank, objs[0], x);
        } else {
          var k :| 0 <= k < |objs[1..]| && InLinkSetOf(build, sources, rank, objs[1..][k], x);
          assert objs[1..][k] == objs[k + 1];
        }
      }
    }
  }

  /** A successful link list over the source objects is exactly the union of the link
      sets of the objfiles providing them. */
  lemma SourcesLinkListExactly(build: Build, sources: map<string, seq<string>>, rank: seq<nat>, objs: seq<string>)
    requires Acyclic(build, sources, rank)
    requires SourcesLinkList(build, sources, rank, objs).Success?
    ensures forall k :: 0 <= k < |objs| ==> LinkSetWithin(build, sources, rank, objs[k], SourcesLinkList(build, sources, rank, objs).value)
    ensures forall x :: x in SourcesLinkList(build, sources, rank, objs).value ==>
      exists k :: 0 <= k < |objs| && InLinkSetOf(build, sources, rank, objs[k], x)
  {
    SourcesLinkListCovers(build, sources, rank, objs);
    SourcesLinkListOnly(build, sources, rank, objs);
  }

  /** A binary's link set is its sources' objects together with the complete link sets
      of the objfiles providing them, and nothing else. */
  lemma BinaryLinkSetTransitive(build: Build, sources: map<string, seq<string>>, rank: seq<nat>, b: Binary)
    requires Acyclic(build, sources, rank)
    requires BinaryLinkSet(build, sources, rank, b).Success?
    ensures var objs := SourceObjects(b.sources);
      var r := BinaryLinkSet(build, sources, rank, b).value;
      && (forall k :: 0 <= k < |objs| ==> objs[k] in r && LinkSetWithin(build, sources, rank, objs[k], r))
      && (forall x :: x in r ==> x in objs || exists k :: 0 <= k < |objs| && InLinkSetOf(build, sources, rank, objs[k], x))
  {
    var objs := SourceObjects(b.sources);
    SourcesLinkListExactly(build, sources, rank, objs);
    var t := SourcesLinkList(build, sources, rank, objs).value;
    var r := BinaryLinkSet(build, sources, rank, b).value;
    assert r == SortedUnique(objs + t);
    forall k | 0 <= k < |objs|
      ensures objs[k] in r && LinkSetWithin(build, sources, rank, objs[k], r)
    {
      assert objs[k] in objs + t;
      assert LinkSetWithin(build, sources, rank, objs[k], t);
    }
  }

  /** File `f` is provided by an objfile of `s`. */
  predicate ProvidedWithin(build: Build, f: string, s: set<nat>) {
    match TargetProviding(build, f)
    case Some(ByObjfile(j)) => j in s
    case _ => false
  }

  /** Every file of `fs` is provided by an objfile of `s`. */
  predicate AllProvidedWithin(build: Build, fs: seq<string>, s: set<nat>) {
    forall f :: f in fs ==> ProvidedWithin(build, f, s)
  }

  /** Objfile `j`'s source can be read, and every file it includes is provided by an
      objfile of `s`. */
  predicate OpensWithin(build: Build, sources: map<string, seq<string>>, j: nat, s: set<nat>)
    requires j < |build.objfiles|
  {
    build.objfiles[j].source in sources && AllProvidedWithin(build, Includes(sources, build.objfiles[j].source), s)
  }

  /** A set of objfiles the link-set recursion never leaves: the source of each can be
      read, and each file it includes is provided by an objfile of the set. */
  predicate ClosedUnderIncludes(build: Build, sources: map<string, seq<string>>, s: set<nat>) {
    forall j :: j in s ==> j < |build.objfiles| && OpensWithin(build, sources, j, s)
  }

  lemma AllProvidedWithinGrows(build: Build, fs: seq<string>, s: set<nat>, s': set<nat>)
    requires AllProvidedWithin(build, fs, s) && s <= s'
    ensures AllProvidedWithin(build, fs, s')
  {
    forall f | f in fs
      ensures ProvidedWithin(build, f, s')
    {
      assert ProvidedWithin(build, f, s);
    }
  }

  lemma OpensWithinGrows(build: Build, sources: map<string, seq<string>>, j: nat, s: set<nat>, s': set<nat>)
    requires j < |build.objfiles| && OpensWithin(build, sources, j, s) && s <= s'
    ensures OpensWithin(build, sources, j, s')
  {
    AllProvidedWithinGrows(build, Includes(sources, build.objfiles[j].source), s, s');
  }

  /** The union of two closed sets is closed. */
  lemma ClosedUnion(build: Build, sources: map<string, seq<string>>, s1: set<nat>, s2: set<nat>)
    requires ClosedUnderIncludes(build, sources, s1) && ClosedUnderIncludes(build, sources, s2)
    ensures ClosedUnderIncludes(build, sources, s1 + s2)
  {
    forall j | j in s1 + s2
      ensures j < |build.objfiles| && OpensWithin(build, sources, j, s1 + s2)
    {
      if j in s1 {
        OpensWithinGrows(build, sources, j, s1, s1 + s2);
      } else {
        OpensWithinGrows(build, sources, j, s2, s1 + s2);
      }
    }
  }

  /** The link set of an objfile in a closed set is computed. */
  lemma {:induction false} ObjfileLinkSetFromClosed(build: Build, sources: map<string, seq<string>>, rank: seq<nat>, i: nat, s: set<nat>)
    requires Acyclic(build, sources, rank) && i < |build.objfiles|
    requires ClosedUnderIncludes(build, sources, s) && i in s
    ensures ObjfileLinkSet(build, sources, rank, i).Success?
    decreases rank[i], 1
  {
    assert OpensWithin(build, sources, i, s);
    assert IncludesRankBelow(build, sources, rank, i);
    IncludesLinkListFromClosed(build, sources, rank, rank[i], Includes(sources, build.objfiles[i].source), s);
  }

  lemma {:induction false} IncludesLinkListFromClosed(build: Build, sources: map<string, seq<string>>, rank: seq<nat>, bound: nat, files: seq<string>, s: set<nat>)
    requires Acyclic(build, sources, rank)
    requires forall f :: f in files ==> ProviderBelow(build, rank, f, bound)
    requires ClosedUnderIncludes(build, sources, s) && AllProvidedWithin(build, files, s)
    ensures IncludesLinkList(build, sources, rank, bound, files).Success?
    decreases bound, 0, |files|
  {
    if |files| > 0 {
      assert ProvidedWithin(build, files[0], s) && ProviderBelow(build, rank, files[0], bound);
      var j := TargetProviding(build, files[0]).value.index;
      ObjfileLinkSetFromClosed(build, sources, rank, j, s);
      assert forall f :: f in files[1..] ==> f in files;
      IncludesLinkListFromClosed(build, sources, rank, bound, files[1..], s);
    }
  }

  /** A computed link set comes with a closed set holding its objfile: the objfiles the
      recursion visited. */
  lemma {:induction false} ObjfileLinkSetReach(build: Build, sources: map<string, seq<string>>, rank: seq<nat>, i: nat) returns (s: set<nat>)
    requires Acyclic(build, sources, rank) && i < |build.objfiles|
    requires ObjfileLinkSet(build, sources, rank, i).Success?
    ensures i in s && ClosedUnderIncludes(build, sources, s)
    decreases rank[i], 1
  {
    var src := build.objfiles[i].source;
    assert src in sources;
    assert IncludesRankBelow(build, sources, rank, i);
    var t := IncludesLinkListReach(build, sources, rank, rank[i], Includes(sources, src));
    s := {i} + t;
    AllProvidedWithinGrows(build, Includes(sources, src), t, s);
    assert OpensWithin(build, sources, i, s);
    forall j | j in s
      ensures j < |build.objfiles| && OpensWithin(build, sources, j, s)
    {
      if j != i {
        OpensWithinGrows(build, sources, j, t, s);
      }
    }
  }

  lemma {:induction false} IncludesLinkListReach(build: Build, sources: map<string, seq<string>>, rank: seq<nat>, bound: nat, files: seq<string>) returns (s: set<nat>)
    requires Acyclic(build, sources, rank)
    requires forall f :: f in files ==> ProviderBelow(build, rank, f, bound)
    requires IncludesLinkList(build, sources, rank, bound, files).Success?
    ensures ClosedUnderIncludes(build, sources, s) && AllProvidedWithin(build, files, s)
    decreases bound, 0, |files|
  {
    if |files| == 0 {
      s := {};
    } else {
      assert ProviderBelow(build, rank, files[0], bound);
      var j := TargetProviding(build, files[0]).value.index;
      var s1 := ObjfileLinkSetReach(build, sources, rank, j);
      assert forall f :: f in files[1..] ==> f in files;
      var s2 := IncludesLinkListReach(build, sources, rank, bound, files[1..]);
      s := s1 + s2;
      ClosedUnion(build, sources, s1, s2);
      AllProvidedWithinGrows(build, files[1..], s2, s);
      assert ProvidedWithin(build, files[0], s);
      forall f | f in files
        ensures ProvidedWithin(build, f, s)
      {
        if f != files[0] {
          assert f in files[1..];
        }
      }
    }
  }

  /** When `compute_link_set_for_objfile` returns: exactly when the objfile lies in a set
      of objfiles that is closed under includes, that is, when every source the
      recursion reaches can be read and every file it includes comes from an objfile.
      Otherwise it stops on a missing source or a missing or non-objfile provider. */
  lemma ObjfileLinkSetSucceeds(build: Build, sources: map<string, seq<string>>, rank: seq<nat>, i: nat)
    requires Acyclic(build, sources, rank) && i < |build.objfiles|
    ensures ObjfileLinkSet(build, sources, rank, i).Success? <==>
      exists s :: i in s && ClosedUnderIncludes(build, sources, s)
  {
    if ObjfileLinkSet(build, sources, rank, i).Success? {
      var s := ObjfileLinkSetReach(build, sources, rank, i);
    }
    if exists s :: i in s && ClosedUnderIncludes(build, sources, s) {
      var s :| i in s && ClosedUnderIncludes(build, sources, s);
      ObjfileLinkSetFromClosed(build, sources, rank, i, s);
    }
  }

  lemma {:induction false} SourcesLinkListFromClosed(build: Build, sources: map<string, seq<string>>, rank: seq<nat>, objs: seq<string>, s: set<nat>)
    requires Acyclic(build, sources, rank)
    requires ClosedUnderIncludes(build, sources, s) && AllProvidedWithin(build, objs, s)
    ensures SourcesLinkList(build, sources, rank, objs).Success?
    decreases |objs|
  {
    if |objs| > 0 {
      assert ProvidedWithin(build, objs[0], s);
      var j := TargetProviding(build, objs[0]).value.index;
      ObjfileLinkSetFromClosed(build, sources, rank, j, s);
      assert forall f :: f in objs[1..] ==> f in objs;
      SourcesLinkListFromClosed(build, sources, rank, objs[1..], s);
    }
  }

  lemma {:induction false} SourcesLinkListReach(build: Build, sources: map<string, seq<string>>, rank: seq<nat>, objs: seq<string>) returns (s: set<nat>)
    requires Acyclic(build, sources, rank)
    requires SourcesLinkList(build, sources, rank, objs).Success?
    ensures ClosedUnderIncludes(build, sources, s) && AllProvidedWithin(build, objs, s)
    decreases |objs|
  {
    if |objs| == 0 {
      s := {};
    } else {
      var j := TargetProviding(build, objs[0]).value.index;
      var s1 := ObjfileLinkSetReach(build, sources, rank, j);
      var s2 := SourcesLinkListReach(build, sources, rank, objs[1..]);
      s := s1 + s2;
      ClosedUnion(build, sources, s1, s2);
      AllProvidedWithinGrows(build, objs[1..], s2, s);
      assert ProvidedWithin(build, objs[0], s);
      forall f | f in objs
        ensures ProvidedWithin(build, f, s)
      {
        if f != objs[0] {
          assert f in objs[1..];
        }
      }
    }
  }

  /** When `compute_link_set_for_binary` returns: exactly when some set of objfiles
      closed under includes provides every source's object. */
  lemma BinaryLinkSetSucceeds(build: Build, sources: map<string, seq<string>>, rank: seq<nat>, b: Binary)
    requires Acyclic(build, sources, rank)
    ensures BinaryLinkSet(build, sources, rank, b).Success? <==>
      exists s :: ClosedUnderIncludes(build, sources, s) && AllProvidedWithin(build, SourceObjects(b.sources), s)
  {
    var objs := SourceObjects(b.sources);
    if BinaryLinkSet(build, sources, rank, b).Success? {
      var s := SourcesLinkListReach(build, sources, rank, objs);
    }
    if exists s :: ClosedUnderIncludes(build, sources, s) && AllProvidedWithin(build, objs, s) {
      var s :| ClosedUnderIncludes(build, sources, s) && AllProvidedWithin(build, objs, s);
      SourcesLinkListFromClosed(build, sources, rank, objs, s);
    }
  }

  /** `write_objfile_compile_rule`'s guard: the rules of objfile `i` are emitted only if
      it is not yet marked written, and it is marked written afterwards. */
  function WriteObjfileRule(build: Build, i: nat): (r: (Build, bool))
    requires i < |build.objfiles|
    ensures r.1 <==> !build.objfiles[i].written
    ensures r.0.binaries == build.binaries && |r.0.objfiles| == |build.objfiles|
    ensures r.0.objfiles[i] == build.objfiles[i].(written := true)
    ensures forall k :: 0 <= k < |build.objfiles| && k != i ==> r.0.objfiles[k] == build.objfiles[k]
  {
    if build.objfiles[i].written then (build, false)
    else (build.(objfiles := build.objfiles[i := build.objfiles[i].(written := true)]), true)
  }

  /** A sequence of write requests: the objfiles whose rules were emitted, in order.
      Each is emitted at most once, exactly the requested ones not written before are,
      and afterwards an objfile is marked written iff it was before or was requested. */
  function WriteAll(build: Build, calls: seq<nat>): (r: (Build, seq<nat>))
    requires forall k :: 0 <= k < |calls| ==> calls[k] < |build.objfiles|
    ensures |r.0.objfiles| == |build.objfiles|
    ensures forall k :: 0 <= k < |build.objfiles| ==>
      (r.0.objfiles[k].written <==> build.objfiles[k].written || k in calls)
    ensures forall k :: k in r.1 <==> k in calls && !build.objfiles[k].written
    ensures forall x, y :: 0 <= x < y < |r.1| ==> r.1[x] != r.1[y]
    decreases |calls|
  {
    if |calls| == 0 then (build, [])
    else
      var (b1, emitted) := WriteObjfileRule(build, calls[0]);
      assert forall k :: 0 <= k < |calls[1..]| ==> calls[1..][k] == calls[k + 1];
      var (b2, rest) := WriteAll(b1, calls[1..]);
      assert calls == [calls[0]] + calls[1..];
      assert emitted ==> calls[0] !in rest;
      (b2, (if emitted then [calls[0]] else []) + rest)
  }
}

=== FILE: makeheader_blocks.dfy ===
/** cpp-makeheader's second pass and output helpers: the brace-matching scan that finds
    where a block ends, the filters that drop ranges inside anonymous namespaces and
    attach preceding comments, and the rewriting of short names to their using paths. */
module HeaderBlocks {
  import opened Wrappers
  import opened Text
  import opened LocationCodes
  import opened HeaderScan

  /** Where the block scan stands: next position, depth, and how many times the depth
      crossed between 0 and 1. */
  datatype BlockScan = BlockScan(pos: int, level: int, crossings: nat)

  /** The loop condition of the block scan. */
  predicate Continues(inbuf: string, b: BlockScan) {
    0 <= b.pos < |inbuf| && (b.level > 0 || b.crossings < 2)
  }

  /** One iteration: a `{` deepens (a crossing when it reaches 1), a `}` at depth 1 is a
      crossing, and then it makes the block shallower. */
  function BlockStep(b: BlockScan, c: char): (r: BlockScan)
    ensures r.pos == b.pos + 1 && r.level == b.level + Delta(c)
  {
    var level1 := if c == '{' then b.level + 1 else b.level;
    var crossings1 := if c == '{' && level1 == 1 then b.crossings + 1 else b.crossings;
    var crossings2 := if c == '}' && level1 == 1 then crossings1 + 1 else crossings1;
    var level2 := if c == '}' then level1 - 1 else level1;
    BlockScan(b.pos + 1, level2, crossings2)
  }

  /** The whole scan from a given state. */
  function ScanBlock(inbuf: string, b: BlockScan): (r: BlockScan)
    ensures !Continues(inbuf, r)
    ensures r.pos >= b.pos
    ensures Continues(inbuf, b) ==> r.pos <= |inbuf|
    decreases |inbuf| - b.pos
  {
    if Continues(inbuf, b) then ScanBlock(inbuf, BlockStep(b, inbuf[b.pos])) else b
  }

  /** The block scan of the second pass, from `block_start_pos` at depth 0. */
  method BlockEnd(inbuf: string, start: nat) returns (end: nat, level: int)
    ensures BlockScan(end, level, ScanBlock(inbuf, BlockScan(start, 0, 0)).crossings) == ScanBlock(inbuf, BlockScan(start, 0, 0))
    ensures start < |inbuf| ==> start < end <= |inbuf|
    ensures start < |inbuf| ==> level == Balance(inbuf[start..end])
  {
    var b := BlockScan(start, 0, 0);
    while Continues(inbuf, b)
      invariant start <= b.pos
      invariant ScanBlock(inbuf, b) == ScanBlock(inbuf, BlockScan(start, 0, 0))
      invariant start < |inbuf| ==> b.pos <= |inbuf| && b.level == Balance(inbuf[start..b.pos])
      decreases |inbuf| - b.pos
    {
      BalanceSnocFrom(inbuf, start, b.pos);
      b := BlockStep(b, inbuf[b.pos]);
    }
    end := b.pos;
    level := b.level;
  }

  lemma BalanceSnocFrom(s: string, start: nat, k: nat)
    requires start <= k < |s|
    ensures Balance(s[start..k + 1]) == Balance(s[start..k]) + Delta(s[k])
  {
    BalanceSnoc(s[start..], k - start);
    assert s[start..][..k - start + 1] == s[start..k + 1];
    assert s[start..][..k - start] == s[start..k];
  }

  /** No brace in `inbuf[from..to]`. */
  predicate NoBracesIn(inbuf: string, from: nat, to: nat)
    requires from <= to <= |inbuf|
  {
    forall i :: from <= i < to ==> inbuf[i] != '{' && inbuf[i] != '}'
  }

  /** Text before the first brace changes nothing. */
  lemma {:induction false} ScanSkipsHead(inbuf: string, pos: nat, open: nat)
    requires pos <= open <= |inbuf| && NoBracesIn(inbuf, pos, open)
    ensures ScanBlock(inbuf, BlockScan(pos, 0, 0)) == ScanBlock(inbuf, BlockScan(open, 0, 0))
    decreases open - pos
  {
    if pos < open {
      ScanSkipsHead(inbuf, pos + 1, open);
    }
  }

  /** Inside a block whose contents never close more than they open, the scan goes on
      and no crossing is counted. */
  lemma {:induction false} ScanThroughBody(inbuf: string, pos: nat, end: nat, level: int)
    requires pos <= end <= |inbuf|
    requires level >= 1 && NeverNegative(inbuf[pos..end], level - 1)
    ensures ScanBlock(inbuf, BlockScan(pos, level, 1))
         == ScanBlock(inbuf, BlockScan(end, level + Balance(inbuf[pos..end]), 1))
    decreases end - pos
  {
    if pos < end {
      var body := inbuf[pos..end];
      assert body[0] == inbuf[pos] && body[1..] == inbuf[pos + 1..end];
      ScanThroughBody(inbuf, pos + 1, end, level + Delta(inbuf[pos]));
    }
  }

  /** The block scan stops right after the `}` that brings the depth back to 0 after
      the first `{`: scanning from `start`, with no brace before the `{` at `open`, and
      a balanced body between it and the `}` at `close`, the block ends at `close + 1`. */
  lemma BlockEndAfterMatchingBrace(inbuf: string, start: nat, open: nat, close: nat)
    requires start <= open < close < |inbuf|
    requires NoBracesIn(inbuf, start, open) && inbuf[open] == '{' && inbuf[close] == '}'
    requires NeverNegative(inbuf[open + 1..close], 0) && Balance(inbuf[open + 1..close]) == 0
    ensures ScanBlock(inbuf, BlockScan(start, 0, 0)) == BlockScan(close + 1, 0, 2)
  {
    ScanSkipsHead(inbuf, start, open);
    OpenStep(inbuf, open);
    ScanThroughBody(inbuf, open + 1, close, 1);
    CloseStep(inbuf, close);
  }

  lemma OpenStep(inbuf: string, k: nat)
    requires k < |inbuf| && inbuf[k] == '{'
    ensures ScanBlock(inbuf, BlockScan(k, 0, 0)) == ScanBlock(inbuf, BlockScan(k + 1, 1, 1))
  {
    assert BlockStep(BlockScan(k, 0, 0), '{') == BlockScan(k + 1, 1, 1);
  }

  lemma CloseStep(inbuf: string, k: nat)
    requires k < |inbuf| && inbuf[k] == '}'
    ensures ScanBlock(inbuf, BlockScan(k, 1, 1)) == BlockScan(k + 1, 0, 2)
  {
    assert BlockStep(BlockScan(k, 1, 1), '}') == BlockScan(k + 1, 0, 2);
    assert !Continues(inbuf, BlockScan(k + 1, 0, 2));
  }

  /** What the second pass does with one block start. */
  datatype BlockOutcome =
    | Unbalanced(start: int)
    | AnonymousRange(start: int, end: int)
    | NamespaceEnds(open: Byterange, close: Byterange)
    | WholeBlock(block: Byterange)

  /** The second pass on one recorded block start (whose offset the first pass makes
      non-negative): only a block that ends at depth 0 is recorded; an anonymous
      namespace becomes an excluded range, a named namespace contributes its opening
      line and its closing brace, anything else the whole block. */
  function ExtractBlock(inbuf: string, bs: Byterange): (r: BlockOutcome)
    requires bs.start >= 0
    ensures var s := ScanBlock(inbuf, BlockScan(bs.start, 0, 0));
      && (r.Unbalanced? <==> s.level != 0)
      && (r.AnonymousRange? <==> s.level == 0 && HasFlag(bs.flags, IsAnonymousNamespace))
      && (r.AnonymousRange? ==> r.start == bs.start && r.end == s.pos)
      && (r.NamespaceEnds? <==> s.level == 0 && !HasFlag(bs.flags, IsAnonymousNamespace) && HasFlag(bs.flags, IsNamedNamespace))
      && (r.NamespaceEnds? ==> r.open == bs && r.close == Byterange(s.pos - 1, s.pos, "\n", bs.flags, bs.code))
      && (r.WholeBlock? <==> s.level == 0 && !HasFlag(bs.flags, IsAnonymousNamespace) && !HasFlag(bs.flags, IsNamedNamespace))
      && (r.WholeBlock? ==> r.block.start == bs.start && r.block.end == s.pos
                            && r.block.flags == bs.flags && r.block.code == bs.code
                            && r.block.suffix == (if HasFlag(bs.flags, AddSemicolon) then ";" else ""))
  {
    var s := ScanBlock(inbuf, BlockScan(bs.start, 0, 0));
    if s.level != 0 then Unbalanced(bs.start)
    else if HasFlag(bs.flags, IsAnonymousNamespace) then AnonymousRange(bs.start, s.pos)
    else if HasFlag(bs.flags, IsNamedNamespace) then
      NamespaceEnds(bs, Byterange(s.pos - 1, s.pos, "\n", bs.flags, bs.code))
    else
      WholeBlock(Byterange(bs.start, s.pos, if HasFlag(bs.flags, AddSemicolon) then ";" else "", bs.flags, bs.code))
  }

  /** The results of the second pass. */
  datatype Extracted = Extracted(outputs: seq<Byterange>, anonymous: seq<(int, int)>, unbalanced: seq<int>)

  /** Adds one block's outcome to the results. */
  function Absorb(acc: Extracted, outcome: BlockOutcome): (r: Extracted)
    ensures outcome.AnonymousRange? ==> r.anonymous == acc.anonymous + [(outcome.start, outcome.end)]
    ensures !outcome.AnonymousRange? ==> r.anonymous == acc.anonymous
  {
    match outcome
    case Unbalanced(p) => acc.(unbalanced := acc.unbalanced + [p])
    case AnonymousRange(s, e) => acc.(anonymous := acc.anonymous + [(s, e)])
    case NamespaceEnds(o, c) => acc.(outputs := acc.outputs + [o, c])
    case WholeBlock(b) => acc.(outputs := acc.outputs + [b])
  }

  /** The second pass over all block starts, in order. */
  function ExtractBlocks(inbuf: string, starts: seq<Byterange>, acc: Extracted): (r: Extracted)
    requires forall k :: 0 <= k < |starts| ==> starts[k].start >= 0
    ensures acc.outputs <= r.outputs && acc.anonymous <= r.anonymous && acc.unbalanced <= r.unbalanced
    ensures |r.outputs| - |acc.outputs| <= 2 * |starts|
    ensures |r.anonymous| - |acc.anonymous| + |r.unbalanced| - |acc.unbalanced| <= |starts|
    decreases |starts|
  {
    if |starts| == 0 then acc
    else ExtractBlocks(inbuf, starts[1..], Absorb(acc, ExtractBlock(inbuf, starts[0])))
  }

  /** The excluded range a block start can contribute. */
  predicate AnonymousRangeOf(inbuf: string, bs: Byterange, range: (int, int)) {
    HasFlag(bs.flags, IsAnonymousNamespace)
    && range == (bs.start, ScanBlock(inbuf, BlockScan(bs.start, 0, 0)).pos)
  }

  /** Every range in `ranges` comes from an anonymous-namespace block start. */
  predicate FromAnonymousStarts(inbuf: string, starts: seq<Byterange>, ranges: seq<(int, int)>) {
    forall j :: 0 <= j < |ranges| ==> exists k :: 0 <= k < |starts| && AnonymousRangeOf(inbuf, starts[k], ranges[j])
  }

  /** Every excluded range the second pass adds comes from an anonymous-namespace block start. */
  lemma {:induction false} AnonymousRangesFromAnonymousStarts(inbuf: string, starts: seq<Byterange>, acc: Extracted)
    requires forall k :: 0 <= k < |starts| ==> starts[k].start >= 0
    ensures FromAnonymousStarts(inbuf, starts, ExtractBlocks(inbuf, starts, acc).anonymous[|acc.anonymous|..])
    decreases |starts|
  {
    if |starts| > 0 {
      var outcome := ExtractBlock(inbuf, starts[0]);
      var acc' := Absorb(acc, outcome);
      AnonymousRangesFromAnonymousStarts(inbuf, starts[1..], acc');
      var r := ExtractBlocks(inbuf, starts[1..], acc');
      var added := r.anonymous[|acc.anonymous|..];
      var later := r.anonymous[|acc'.anonymous|..];
      forall j | 0 <= j < |added|
        ensures exists k :: 0 <= k < |starts| && AnonymousRangeOf(inbuf, starts[k], added[j])
      {
        var idx := |acc.anonymous| + j;
        if idx < |acc'.anonymous| {
          assert added[j] == acc'.anonymous[idx];
          assert AnonymousRangeOf(inbuf, starts[0], added[j]);
        } else {
          assert added[j] == later[idx - |acc'.anonymous|];
          var k :| 0 <= k < |starts[1..]| && AnonymousRangeOf(inbuf, starts[1..][k], later[idx - |acc'.anonymous|]);
          assert starts[1..][k] == starts[k + 1];
        }
      }
    }
  }

  /** `output_is_within_anonymous_namespace(output, anonymous_namespaces)`. */
  method WithinAnonymousNamespace(o: Byterange, anonymous: seq<(int, int)>) returns (within: bool)
    ensures within <==> exists i :: 0 <= i < |anonymous| && anonymous[i].0 <= o.start && o.end <= anonymous[i].1
  {
    var i := 0;
    while i < |anonymous|
      invariant i <= |anonymous|
      invariant forall j :: 0 <= j < i ==> !(anonymous[j].0 <= o.start && o.end <= anonymous[j].1)
    {
      if o.start >= anonymous[i].0 && o.end <= anonymous[i].1 {
        return true;
      }
      i := i + 1;
    }
    return false;
  }

  /** `comment_block_ending_before_output(output, comment_blocks)`: the first comment
      block that ends exactly where the range starts. */
  method CommentBlockEndingBefore(o: Byterange, comments: seq<Byterange>) returns (r: Option<Byterange>)
    ensures r.None? <==> forall i :: 0 <= i < |comments| ==> comments[i].end != o.start
    ensures r.Some? ==> exists i :: 0 <= i < |comments| && r.value == comments[i]
                          && comments[i].end == o.start
                          && forall j :: 0 <= j < i ==> comments[j].end != o.start
  {
    var i := 0;
    while i < |comments|
      invariant i <= |comments|
      invariant forall j :: 0 <= j < i ==> comments[j].end != o.start
    {
      if o.start == comments[i].end {
        return Some(comments[i]);
      }
      i := i + 1;
    }
    return None;
  }

  /** Python's `s.replace(old, new)`: every non-overlapping occurrence, left to right; an
      empty `pat` matches before every character and at the end. */
  function ReplaceAll(s: string, pat: string, rep: string): (r: string)
    decreases |s|
  {
    if |pat| == 0 then
      if |s| == 0 then rep else rep + [s[0]] + ReplaceAll(s[1..], pat, rep)
    else
      var i := Find(s, pat);
      if i == -1 then s else s[..i] + rep + ReplaceAll(s[i + |pat|..], pat, rep)
  }

  /** Nothing changes when `old` does not occur. */
  lemma ReplaceAbsent(s: string, pat: string, rep: string)
    requires |pat| > 0 && Find(s, pat) == -1
    ensures ReplaceAll(s, pat, rep) == s
  {
  }

  /** An occurrence splits the string around it. */
  lemma SplitAtOccurrence(s: string, sub: string, i: nat)
    requires OccursAt(s, sub, i)
    ensures s == s[..i] + sub + s[i + |sub|..]
  {
    assert s == s[..i] + s[i..i + |sub|] + s[i + |sub|..];
  }

  /** Replacing a string by itself changes nothing. */
  lemma {:induction false} ReplaceIdentity(s: string, pat: string)
    ensures ReplaceAll(s, pat, pat) == s
    decreases |s|
  {
    if |pat| == 0 {
      if |s| > 0 {
        ReplaceIdentity(s[1..], pat);
        assert pat + [s[0]] + s[1..] == s;
      }
    } else {
      var i := Find(s, pat);
      if i != -1 {
        ReplaceIdentity(s[i + |pat|..], pat);
        SplitAtOccurrence(s, pat, i);
      }
    }
  }

  /** An empty `old` puts `new` around every character. */
  lemma {:induction false} ReplaceEmptyLength(s: string, rep: string)
    ensures |ReplaceAll(s, "", rep)| == |s| + (|s| + 1) * |rep|
    decreases |s|
  {
    if |s| > 0 {
      ReplaceEmptyLength(s[1..], rep);
    }
  }

  /** The using declarations that apply to a range: those declared in a scope that
      encloses it, in declaration order. */
  function Applicable(o: Byterange, usings: seq<UsingDecl>): (r: seq<UsingDecl>)
    ensures |r| <= |usings|
    ensures forall u :: u in r <==> u in usings && Encloses(u.code, o.code)
  {
    if |usings| == 0 then []
    else (if Encloses(usings[0].code, o.code) then [usings[0]] else []) + Applicable(o, usings[1..])
  }

  /** The same filter with the script's test, `output[4].startswith(replacement[2])`. */
  function ApplicableAsWritten(o: Byterange, usings: seq<UsingDecl>): (r: seq<UsingDecl>)
    ensures |r| <= |usings|
    ensures forall u :: u in r <==> u in usings && EnclosesAsWritten(u.code, o.code)
  {
    if |usings| == 0 then []
    else (if EnclosesAsWritten(usings[0].code, o.code) then [usings[0]] else []) + ApplicableAsWritten(o, usings[1..])
  }

  /** Applies each using declaration in turn: short name to full path. */
  function ApplyUsings(s: string, usings: seq<UsingDecl>): string
    decreases |usings|
  {
    if |usings| == 0 then s else ApplyUsings(ReplaceAll(s, usings[0].symbol, usings[0].path), usings[1..])
  }

  /** `do_replacements` with the enclosure test the location codes are meant for: the
      exact slice when identifiers are left alone, otherwise the slice and the suffix
      with the applicable using declarations applied. */
  function DoReplacements(addNamespace: bool, inbuf: string, o: Byterange, usings: seq<UsingDecl>): (r: string)
    ensures !addNamespace ==> r == PySlice(inbuf, o.start, o.end)
    ensures addNamespace && Applicable(o, usings) == [] ==> r == PySlice(inbuf, o.start, o.end) + o.suffix
  {
    if addNamespace then
      var rs := Applicable(o, usings);
      ApplyUsings(PySlice(inbuf, o.start, o.end), rs) + ApplyUsings(o.suffix, rs)
    else
      PySlice(inbuf, o.start, o.end)
  }

  /** `do_replacements` as the script has it, filtering by string prefix. */
  function DoReplacementsAsWritten(addNamespace: bool, inbuf: string, o: Byterange, usings: seq<UsingDecl>): (r: string)
    ensures !addNamespace ==> r == PySlice(inbuf, o.start, o.end)
    ensures addNamespace && ApplicableAsWritten(o, usings) == [] ==> r == PySlice(inbuf, o.start, o.end) + o.suffix
  {
    if addNamespace then
      var rs := ApplicableAsWritten(o, usings);
      ApplyUsings(PySlice(inbuf, o.start, o.end), rs) + ApplyUsings(o.suffix, rs)
    else
      PySlice(inbuf, o.start, o.end)
  }

  /** Filtering a concatenation of declaration lists filters each part, in order. */
  lemma {:induction false} ApplicableAppend(o: Byterange, a: seq<UsingDecl>, b: seq<UsingDecl>)
    ensures Applicable(o, a + b) == Applicable(o, a) + Applicable(o, b)
  {
    if |a| == 0 {
      assert a + b == b;
    } else {
      assert (a + b)[0] == a[0];
      assert (a + b)[1..] == a[1..] + b;
      ApplicableAppend(o, a[1..], b);
    }
  }

  /** The same for the script's filter. */
  lemma {:induction false} ApplicableAsWrittenAppend(o: Byterange, a: seq<UsingDecl>, b: seq<UsingDecl>)
    ensures ApplicableAsWritten(o, a + b) == ApplicableAsWritten(o, a) + ApplicableAsWritten(o, b)
  {
    if |a| == 0 {
      assert a + b == b;
    } else {
      assert (a + b)[0] == a[0];
      assert (a + b)[1..] == a[1..] + b;
      ApplicableAsWrittenAppend(o, a[1..], b);
    }
  }

  /** A list with no declaration from an enclosing scope contributes nothing. */
  lemma {:induction false} NoneApplicable(o: Byterange, other: seq<UsingDecl>)
    ensures (forall u :: u in other ==> !Encloses(u.code, o.code)) ==> Applicable(o, other) == []
    ensures (forall u :: u in other ==> !EnclosesAsWritten(u.code, o.code)) ==> ApplicableAsWritten(o, other) == []
  {
    if |other| > 0 {
      assert other[0] in other;
      assert forall u :: u in other[1..] ==> u in other;
      NoneApplicable(o, other[1..]);
    }
  }

  /** Dropping declarations from scopes that do not enclose the range leaves the
      applicable ones as they were. */
  lemma ApplicableDropsOtherScopes(o: Byterange, before: seq<UsingDecl>, other: seq<UsingDecl>, after: seq<UsingDecl>)
    requires forall u :: u in other ==> !Encloses(u.code, o.code)
    ensures Applicable(o, before + other + after) == Applicable(o, before + after)
  {
    ApplicableAppend(o, before + other, after);
    ApplicableAppend(o, before, other);
    ApplicableAppend(o, before, after);
    NoneApplicable(o, other);
    assert Applicable(o, before) + [] == Applicable(o, before);
  }

  /** The same for the script's filter. */
  lemma ApplicableAsWrittenDropsOtherScopes(o: Byterange, before: seq<UsingDecl>, other: seq<UsingDecl>, after: seq<UsingDecl>)
    requires forall u :: u in other ==> !EnclosesAsWritten(u.code, o.code)
    ensures ApplicableAsWritten(o, before + other + after) == ApplicableAsWritten(o, before + after)
  {
    ApplicableAsWrittenAppend(o, before + other, after);
    ApplicableAsWrittenAppend(o, before, other);
    ApplicableAsWrittenAppend(o, before, after);
    NoneApplicable(o, other);
    assert ApplicableAsWritten(o, before) + [] == ApplicableAsWritten(o, before);
  }

  /** Using declarations from scopes that do not enclose the range, wherever they sit
      in the declaration list, leave the intended replacement unchanged. */
  lemma DoReplacementsIgnoresOtherScopes(addNamespace: bool, inbuf: string, o: Byterange,
                                         before: seq<UsingDecl>, other: seq<UsingDecl>, after: seq<UsingDecl>)
    requires forall u :: u in other ==> !Encloses(u.code, o.code)
    ensures DoReplacements(addNamespace, inbuf, o, before + other + after)
         == DoReplacements(addNamespace, inbuf, o, before + after)
  {
    ApplicableDropsOtherScopes(o, before, other, after);
  }

  /** The same for the script's filter, with its string-prefix test. */
  lemma DoReplacementsAsWrittenIgnoresOtherScopes(addNamespace: bool, inbuf: string, o: Byterange,
                                                  before: seq<UsingDecl>, other: seq<UsingDecl>, after: seq<UsingDecl>)
    requires forall u :: u in other ==> !EnclosesAsWritten(u.code, o.code)
    ensures DoReplacementsAsWritten(addNamespace, inbuf, o, before + other + after)
         == DoReplacementsAsWritten(addNamespace, inbuf, o, before + after)
  {
    ApplicableAsWrittenDropsOtherScopes(o, before, other, after);
  }

  /** Every declaration the intended test accepts, the script's test accepts too, and a
      top-level declaration (empty code) applies everywhere under both. */
  lemma EnclosesImpliesAsWritten(outer: string, inner: string)
    ensures Encloses(outer, inner) ==> EnclosesAsWritten(outer, inner)
    ensures Encloses("", inner) && EnclosesAsWritten("", inner)
  {
    if outer != "" && Encloses(outer, inner) {
      assert (inner + ",")[..|outer|] == inner[..|outer|];
    }
  }

  /** A using declaration in the first top-level block, `using a::Foo;` at code "1", and
      a range in the tenth top-level block, at code "10": the script rewrites `Foo` in
      it, the intended test leaves it alone. */
  lemma AsWrittenRewritesSiblingScope()
    ensures var o := Byterange(0, 3, "", AddNamespaceToIdentifiers, "10");
      var usings := [UsingDecl("Foo", "a::Foo", "1")];
      && DoReplacementsAsWritten(true, "Foo", o, usings) == "a::Foo"
      && DoReplacements(true, "Foo", o, usings) == "Foo"
  {
    var o := Byterange(0, 3, "", AddNamespaceToIdentifiers, "10");
    var u := UsingDecl("Foo", "a::Foo", "1");
    assert StartsWith("10", "1");
    assert !Encloses("1", "10") by {
      assert ("10" + ",")[..2] == "10";
    }
    assert ApplicableAsWritten(o, [u]) == [u];
    assert Applicable(o, [u]) == [];
    assert PySlice("Foo", 0, 3) == "Foo";
    FindAt("Foo", "Foo", 0);
    assert ReplaceAll("Foo", "Foo", "a::Foo") == "a::Foo" by {
      assert "Foo"[3..] == "";
      assert ReplaceAll("", "Foo", "a::Foo") == "";
    }
    assert Find("", "Foo") == -1;
    assert ReplaceAll("", "Foo", "a::Foo") == "";
  }
}

=== FILE: makeheader_codes.dfy ===
/** cpp-makeheader's brace bookkeeping: the per-depth child counters, the comma-joined
    location code of a line, and the test that decides whether one location encloses
    another. */
module LocationCodes {
  import opened Wrappers
  import opened Text

  /** How the script can stop: a Python `IndexError`, or the `assert` on a using line. */
  datatype MakeHeaderError = IndexError | UsingNotParsed(line: string)

  /** The depth change one character causes. */
  function Delta(c: char): int {
    if c == '{' then 1 else if c == '}' then -1 else 0
  }

  /** Number of `{` minus number of `}` in `s`. */
  function Balance(s: string): int {
    if |s| == 0 then 0 else Delta(s[0]) + Balance(s[1..])
  }

  lemma {:induction false} BalanceAppend(a: string, b: string)
    ensures Balance(a + b) == Balance(a) + Balance(b)
  {
    if |a| == 0 {
      assert a + b == b;
    } else {
      assert (a + b)[1..] == a[1..] + b;
      BalanceAppend(a[1..], b);
    }
  }

  /** Extending a prefix by one character adds that character's depth change. */
  lemma BalanceSnoc(s: string, k: nat)
    requires k < |s|
    ensures Balance(s[..k + 1]) == Balance(s[..k]) + Delta(s[k])
  {
    assert s[..k + 1] == s[..k] + [s[k]];
    BalanceAppend(s[..k], [s[k]]);
  }

  /** The counter update at one `{` whose new depth is `level`: a new depth gets its
      first child, a known depth counts one more. Python's negative list indices
      apply when `level` is not positive, and an index before the start raises. */
  function OpenBrace(counters: seq<nat>, level: int): (r: Result<seq<nat>, MakeHeaderError>)
    ensures r.Failure? <==> level <= -|counters|
    ensures r.Success? ==> |r.value| == |counters| + (if |counters| < level then 1 else 0)
    ensures r.Success? ==> forall k :: 0 <= k < |counters| ==> counters[k] <= r.value[k]
  {
    if |counters| < level then Success(counters + [1])
    else if level - 1 >= 0 then Success(counters[level - 1 := counters[level - 1] + 1])
    else if level - 1 >= -|counters| then
      var k := |counters| + level - 1;
      Success(counters[k := counters[k] + 1])
    else Failure(IndexError)
  }

  /** At a `{` reached from a non-negative depth with enough counters, the list either
      grows by one entry set to 1 or counts one more child at the new depth. */
  lemma OpenBraceCounts(counters: seq<nat>, level: int)
    requires 1 <= level <= |counters| + 1
    ensures OpenBrace(counters, level).Success?
    ensures level == |counters| + 1 ==> OpenBrace(counters, level).value == counters + [1]
    ensures level <= |counters| ==> OpenBrace(counters, level).value == counters[level - 1 := counters[level - 1] + 1]
  {
  }

  /** `update_num_children_at_level(line, num_children_at_level, scope_level)`: the new
      counters and the new depth, or the `IndexError` the list access can raise. */
  function UpdateNumChildren(line: string, counters: seq<nat>, level: int): (r: Result<(seq<nat>, int), MakeHeaderError>)
    ensures r.Success? ==> r.value.1 == level + Balance(line)
    ensures r.Success? ==> |r.value.0| >= |counters|
    ensures r.Success? ==> forall k :: 0 <= k < |counters| ==> counters[k] <= r.value.0[k]
    decreases |line|
  {
    if |line| == 0 then Success((counters, level))
    else if line[0] == '{' then
      match OpenBrace(counters, level + 1)
      case Failure(e) => Failure(e)
      case Success(counters') => UpdateNumChildren(line[1..], counters', level + 1)
    else if line[0] == '}' then UpdateNumChildren(line[1..], counters, level - 1)
    else UpdateNumChildren(line[1..], counters, level)
  }

  /** The depth never drops below zero while `line` is read from depth `level`. */
  predicate NeverNegative(line: string, level: int)
    decreases |line|
  {
    level >= 0 && (|line| == 0 || NeverNegative(line[1..], level + Delta(line[0])))
  }

  /** Starting from a depth the counters cover, and never closing more braces than are
      open, the update cannot fail and the counters still cover the depth reached. */
  lemma {:induction false} UpdateNumChildrenSafe(line: string, counters: seq<nat>, level: int)
    requires 0 <= level <= |counters|
    requires NeverNegative(line, level)
    ensures UpdateNumChildren(line, counters, level).Success?
    ensures UpdateNumChildren(line, counters, level).value.1 <= |UpdateNumChildren(line, counters, level).value.0|
    decreases |line|
  {
    if |line| > 0 {
      if line[0] == '{' {
        OpenBraceCounts(counters, level + 1);
        var counters' := OpenBrace(counters, level + 1).value;
        UpdateNumChildrenSafe(line[1..], counters', level + 1);
      } else {
        UpdateNumChildrenSafe(line[1..], counters, level + Delta(line[0]));
      }
    }
  }

  /** The decimal renderings of the counters. */
  function Decimals(xs: seq<nat>): (ds: seq<string>)
    ensures |ds| == |xs|
    ensures forall i :: 0 <= i < |xs| ==> ds[i] == Decimal(xs[i])
  {
    seq(|xs|, (i: int) requires 0 <= i < |xs| => Decimal(xs[i]))
  }

  /** `','.join([str(x) for x in xs])`. */
  function Code(xs: seq<nat>): string {
    Join(",", Decimals(xs))
  }

  /** `line_location_code`: the code of the first `scope_level` counters, with Python's
      slice rules for a negative depth. */
  function LocationCode(counters: seq<nat>, level: int): (code: string)
    ensures 0 <= level <= |counters| ==> code == Code(counters[..level])
    ensures level <= 0 && -level >= |counters| ==> code == ""
  {
    Code(PySlice(counters, 0, level))
  }

  /** Each counter followed by a comma: the code with a terminating comma. */
  function Terminated(xs: seq<nat>): string {
    if |xs| == 0 then "" else Decimal(xs[0]) + "," + Terminated(xs[1..])
  }

  lemma {:induction false} CodeTerminated(xs: seq<nat>)
    requires |xs| > 0
    ensures Code(xs) + "," == Terminated(xs)
  {
    var ds := Decimals(xs);
    if |xs| > 1 {
      assert ds[1..] == Decimals(xs[1..]);
      CodeTerminated(xs[1..]);
      assert Code(xs) == Decimal(xs[0]) + "," + Code(xs[1..]);
    } else {
      assert xs[1..] == [];
    }
  }

  lemma CodeEmptyIff(xs: seq<nat>)
    ensures Code(xs) == "" <==> |xs| == 0
  {
    if |xs| > 0 {
      CodeTerminated(xs);
      assert |Terminated(xs)| > |Decimal(xs[0])|;
    }
  }

  /** A digit string followed by a comma: the comma is the first one. */
  lemma FirstComma(d: string, r: string)
    requires forall i :: 0 <= i < |d| ==> IsDigit(d[i])
    ensures (d + "," + r)[|d|] == ','
    ensures forall i :: 0 <= i < |d| ==> (d + "," + r)[i] != ','
  {
  }

  /** Two comma-terminated digit strings, one starting the other, are the same number. */
  lemma SameLeadingNumber(d1: string, d2: string, r1: string, r2: string)
    requires forall i :: 0 <= i < |d1| ==> IsDigit(d1[i])
    requires forall i :: 0 <= i < |d2| ==> IsDigit(d2[i])
    requires StartsWith(d2 + "," + r2, d1 + "," + r1)
    ensures d1 == d2
    ensures StartsWith(r2, r1)
  {
    var a := d1 + "," + r1;
    var b := d2 + "," + r2;
    FirstComma(d1, r1);
    FirstComma(d2, r2);
    assert forall i :: 0 <= i < |a| ==> a[i] == b[i] by {
      assert b[..|a|] == a;
    }
    assert |d1| == |d2|;
    assert d1 == a[..|d1|] == b[..|d1|] == d2;
    assert r1 == a[|d1| + 1..] == b[|d1| + 1..|a|];
    assert r2[..|r1|] == b[|d1| + 1..|a|];
  }

  /** Comma-terminated codes: one starts the other exactly when the counter lists are prefixes. */
  lemma {:induction false} TerminatedPrefix(a: seq<nat>, b: seq<nat>)
    ensures StartsWith(Terminated(b), Terminated(a)) <==> a <= b
  {
    if |a| == 0 {
    } else if |b| == 0 {
      assert |Terminated(a)| > 0;
    } else {
      if StartsWith(Terminated(b), Terminated(a)) {
        SameLeadingNumber(Decimal(a[0]), Decimal(b[0]), Terminated(a[1..]), Terminated(b[1..]));
        DecimalInjective(a[0], b[0]);
        TerminatedPrefix(a[1..], b[1..]);
        assert a == [a[0]] + a[1..] && b == [b[0]] + b[1..];
      }
      if a <= b {
        assert a[0] == b[0] && a[1..] <= b[1..];
        TerminatedPrefix(a[1..], b[1..]);
        var d := Decimal(a[0]) + ",";
        assert Terminated(a) == d + Terminated(a[1..]);
        assert Terminated(b) == d + Terminated(b[1..]);
        assert Terminated(b)[..|Terminated(a)|] == d + Terminated(b[1..])[..|Terminated(a[1..])|];
      }
    }
  }

  /** The enclosure test on codes that the location-code scheme intends: the empty
      (top-level) code encloses everything, otherwise the code followed by a comma
      starts the other code followed by a comma. */
  predicate Encloses(outer: string, inner: string) {
    outer == "" || StartsWith(inner + ",", outer + ",")
  }

  /** `Encloses` on location codes is exactly the prefix order on the counter lists:
      a using declaration applies to a range iff it was declared in an enclosing scope. */
  lemma EnclosesIsPrefix(a: seq<nat>, b: seq<nat>)
    ensures Encloses(Code(a), Code(b)) <==> a <= b
  {
    CodeEmptyIff(a);
    CodeEmptyIff(b);
    if |a| > 0 && |b| > 0 {
      CodeTerminated(a);
      CodeTerminated(b);
      TerminatedPrefix(a, b);
    } else if |a| > 0 {
      assert |Code(a) + ","| > |"" + ","|;
    }
  }

  /** The test the script uses: `output_code.startswith(using_code)`. */
  predicate EnclosesAsWritten(outer: string, inner: string) {
    StartsWith(inner, outer)
  }

  /** The script's test accepts every enclosing scope ... */
  lemma AsWrittenAcceptsEnclosing(a: seq<nat>, b: seq<nat>)
    requires a <= b
    ensures EnclosesAsWritten(Code(a), Code(b))
  {
    EnclosesIsPrefix(a, b);
    if Code(a) != "" {
      assert StartsWith(Code(b) + ",", Code(a) + ",");
      assert (Code(b) + ",")[..|Code(a)|] == Code(b)[..|Code(a)|];
    }
  }

  /** ... but also a sibling: the first top-level scope, code "1", "encloses" the tenth,
      code "10", so a using declared inside the first applies inside the tenth. */
  lemma AsWrittenConfusesSiblings()
    ensures Code([1]) == "1" && Code([10]) == "10"
    ensures EnclosesAsWritten(Code([1]), Code([10]))
    ensures !([1] <= [10]) && !Encloses(Code([1]), Code([10]))
  {
    assert Decimals([1]) == ["1"];
    assert Decimal(10) == "10";
    assert Decimals([10]) == ["10"];
    EnclosesIsPrefix([1], [10]);
  }
}

=== FILE: makeheader_scan.dfy ===
/** cpp-makeheader's first pass: the input is read line by line, keeping byte offsets,
    brace counters and location codes; comment blocks, verbatim lines, using
    declarations, block starts, typedefs and prototypes are recorded. */
module HeaderScan {
  import opened Wrappers
  import opened Text
  import opened LocationCodes

  /** The byterange flags; each is one bit, so `a | b` of distinct flags is `a + b`. */
  const VerbatimOutput: nat := 0
  const AddNamespaceToIdentifiers: nat := 1
  const IsAnonymousNamespace: nat := 2
  const IsNamedNamespace: nat := 4
  const IsCommentBlock: nat := 8
  const AddSemicolon: nat := 16
  const RemoveBrace: nat := 32

  /** `(flags & bit) != 0` for a power of two `bit`. */
  predicate HasFlag(flags: nat, bit: nat)
    requires bit > 0
  {
    (flags / bit) % 2 == 1
  }

  /** A range `[start, end)` of the input to copy out, the text to append after it,
      its flags and the location code of the line it starts on. */
  datatype Byterange = Byterange(start: int, end: int, suffix: string, flags: nat, code: string)

  /** `using ns::Foo;` seen at location `code`: `symbol` is later rewritten to `path`. */
  datatype UsingDecl = UsingDecl(symbol: string, path: string, code: string)

  /** The longest prefix of `s` without white space. */
  function NonSpacePrefix(s: string): (r: string)
    ensures |r| <= |s| && r == s[..|r|]
    ensures forall i :: 0 <= i < |r| ==> !IsSpace(r[i])
    ensures |r| < |s| ==> IsSpace(s[|r|])
  {
    if |s| == 0 || IsSpace(s[0]) then "" else [s[0]] + NonSpacePrefix(s[1..])
  }

  /** The text after the captured path matches `\s*;\s*$`. */
  predicate SemicolonTail(t: string) {
    var u := StripLeft(t);
    |u| > 0 && u[0] == ';' && AllSpace(u[1..])
  }

  /** What the group `([^\s]+)` captures from the text after `using\s+`, given that the
      rest must match `\s*;\s*$`. The greedy group takes the whole non-space run when
      a semicolon follows after white space, and otherwise gives back one trailing ';'. */
  function CapturedPath(t: string): (r: Option<string>)
    ensures r.Some? ==> |r.value| > 0 && forall i :: 0 <= i < |r.value| ==> !IsSpace(r.value[i])
  {
    var n := NonSpacePrefix(t);
    var rest := t[|n|..];
    if |n| == 0 then None
    else if SemicolonTail(rest) then Some(n)
    else if |n| >= 2 && n[|n| - 1] == ';' && AllSpace(rest) then Some(n[..|n| - 1])
    else None
  }

  /** `re.match('using\s+([^\s]+)\s*;\s*$', line)`: the captured path, or None when
      the line does not match. */
  function UsingPath(line: string): (r: Option<string>)
    ensures r.Some? ==> |r.value| > 0 && forall i :: 0 <= i < |r.value| ==> !IsSpace(r.value[i])
    ensures r.Some? ==> StartsWith(line, "using") && |line| > 5 && IsSpace(line[5])
  {
    if !StartsWith(line, "using") || |line| == 5 || !IsSpace(line[5]) then None
    else CapturedPath(StripLeft(line[5..]))
  }

  lemma {:induction false} NonSpacePrefixStops(p: string, x: string)
    requires forall i :: 0 <= i < |p| ==> !IsSpace(p[i])
    requires |x| == 0 || IsSpace(x[0])
    ensures NonSpacePrefix(p + x) == p
  {
    if |p| > 0 {
      assert (p + x)[1..] == p[1..] + x;
      NonSpacePrefixStops(p[1..], x);
    } else {
      assert p + x == x;
    }
  }

  /** The captured group, for the text after the leading white space. */
  lemma CapturedPathOf(path: string, ws2: string, ws3: string)
    requires AllSpace(ws2) && AllSpace(ws3)
    requires |path| > 0 && forall i :: 0 <= i < |path| ==> !IsSpace(path[i])
    ensures CapturedPath(path + ws2 + ";" + ws3) == Some(path)
  {
    var t := path + ws2 + ";" + ws3;
    if |ws2| > 0 {
      assert t == path + (ws2 + ";" + ws3);
      NonSpacePrefixStops(path, ws2 + ";" + ws3);
      assert t[|path|..] == ws2 + (";" + ws3);
      StripLeftSpaces(ws2, ";" + ws3);
    } else {
      assert t == (path + ";") + ws3;
      NonSpacePrefixStops(path + ";", ws3);
      assert t[|path| + 1..] == ws3;
      StripLeftAllSpace(ws3);
      assert (path + ";")[..|path|] == path;
    }
  }

  /** Every `using <path> ;` line, with any white space around the parts, gives back
      exactly its path. */
  lemma UsingPathRoundTrip(ws1: string, path: string, ws2: string, ws3: string)
    requires |ws1| > 0 && AllSpace(ws1) && AllSpace(ws2) && AllSpace(ws3)
    requires |path| > 0 && forall i :: 0 <= i < |path| ==> !IsSpace(path[i])
    ensures UsingPath("using" + ws1 + path + ws2 + ";" + ws3) == Some(path)
  {
    var tail := path + ws2 + ";" + ws3;
    var line := "using" + ws1 + path + ws2 + ";" + ws3;
    assert line == "using" + (ws1 + tail);
    assert line[..5] == "using";
    assert line[5..] == ws1 + tail;
    assert line[5] == ws1[0];
    StripLeftSpaces(ws1, tail);
    CapturedPathOf(path, ws2, ws3);
  }

  lemma {:induction false} StripLeftAllSpace(ws: string)
    requires AllSpace(ws)
    ensures StripLeft(ws) == []
  {
    if |ws| > 0 {
      StripLeftAllSpace(ws[1..]);
    }
  }

  /** A using line assembled from its parts. */
  function UsingText(ws1: string, path: string, ws2: string, ws3: string): string {
    "using" + ws1 + path + ws2 + ";" + ws3
  }

  /** The parts the regex `using\s+([^\s]+)\s*;\s*$` accepts: white space, at least one
      character of it before the path, and a non-empty path without white space. */
  predicate UsingParts(ws1: string, path: string, ws2: string, ws3: string) {
    && |ws1| > 0 && AllSpace(ws1) && AllSpace(ws2) && AllSpace(ws3)
    && |path| > 0 && forall i :: 0 <= i < |path| ==> !IsSpace(path[i])
  }

  lemma Associative(a: string, b: string, c: string)
    ensures (a + b) + c == a + (b + c)
  {
  }

  /** `StripLeft` removes a run of white space from the front. */
  lemma StripLeftSplits(t: string) returns (ws: string)
    ensures AllSpace(ws) && t == ws + StripLeft(t)
  {
    var u := StripLeft(t);
    var k := |t| - |u|;
    ws := t[..k];
    assert u == t[k..];
    TakeDrop(t, k);
  }

  lemma TakeDrop(t: string, k: nat)
    requires k <= |t|
    ensures t == t[..k] + t[k..]
  {
  }

  /** A text the group captures from is the path, white space, `;` and white space. */
  lemma CapturedPathParsed(u: string) returns (ws2: string, ws3: string)
    requires CapturedPath(u).Some?
    ensures AllSpace(ws2) && AllSpace(ws3) && u == CapturedPath(u).value + ws2 + ";" + ws3
  {
    var n := NonSpacePrefix(u);
    var rest := u[|n|..];
    assert u == n + rest;
    if SemicolonTail(rest) {
      ws2, ws3 := SemicolonTailParsed(rest);
      Associative(n, ws2 + ";", ws3);
      Associative(n, ws2, ";");
    } else {
      var p := n[..|n| - 1];
      assert n == p + ";";
      ws2, ws3 := "", rest;
      assert p + ws2 == p;
    }
  }

  /** The `\s*;\s*` after a path that keeps its whole non-space run. */
  lemma SemicolonTailParsed(rest: string) returns (ws2: string, ws3: string)
    requires SemicolonTail(rest)
    ensures AllSpace(ws2) && AllSpace(ws3) && rest == ws2 + ";" + ws3
  {
    var v := StripLeft(rest);
    ws2 := StripLeftSplits(rest);
    ws3 := v[1..];
    HeadTail(v);
    assert [v[0]] == ";";
    Associative(ws2, ";", ws3);
  }

  lemma HeadTail(v: string)
    requires |v| > 0
    ensures v == [v[0]] + v[1..]
  {
  }

  /** The converse of `UsingPathRoundTrip`: a line that parses is a well-formed using
      line around the path it gives; the white space parts are the lemma's results. */
  lemma UsingPathParsed(line: string) returns (ws1: string, ws2: string, ws3: string)
    requires UsingPath(line).Some?
    ensures UsingParts(ws1, UsingPath(line).value, ws2, ws3)
    ensures line == UsingText(ws1, UsingPath(line).value, ws2, ws3)
  {
    var u;
    ws1, u := UsingPrefixParsed(line);
    ws2, ws3 := CapturedPathParsed(u);
    UsingTextRegroups(ws1, CapturedPath(u).value, ws2, ws3);
  }

  /** A line that parses is `using`, white space, and the text the group captures from. */
  lemma UsingPrefixParsed(line: string) returns (ws1: string, u: string)
    requires UsingPath(line).Some?
    ensures |ws1| > 0 && AllSpace(ws1) && line == "using" + ws1 + u && UsingPath(line) == CapturedPath(u)
  {
    var t := line[5..];
    TakeDrop(line, 5);
    u := StripLeft(t);
    assert u == StripLeft(t[1..]);
    ws1 := StripLeftSplits(t);
    Associative("using", ws1, u);
  }

  lemma UsingTextRegroups(ws1: string, p: string, ws2: string, ws3: string)
    ensures "using" + ws1 + (p + ws2 + ";" + ws3) == UsingText(ws1, p, ws2, ws3)
  {
    var head := "using" + ws1;
    Associative(head, p, ws2);
    Associative(head, p + ws2, ";");
    Associative(head, p + ws2 + ";", ws3);
  }

  /** `re.match` succeeds exactly on well-formed using lines. */
  lemma UsingPathMatches(line: string)
    ensures UsingPath(line).Some? <==>
      exists ws1, path, ws2, ws3 :: UsingParts(ws1, path, ws2, ws3) && line == UsingText(ws1, path, ws2, ws3)
  {
    if UsingPath(line).Some? {
      var ws1, ws2, ws3 := UsingPathParsed(line);
    }
    if exists ws1, path, ws2, ws3 :: UsingParts(ws1, path, ws2, ws3) && line == UsingText(ws1, path, ws2, ws3) {
      var ws1, path, ws2, ws3 :| UsingParts(ws1, path, ws2, ws3) && line == UsingText(ws1, path, ws2, ws3);
      UsingPathRoundTrip(ws1, path, ws2, ws3);
    }
  }

  /** `using namespace std;` is not a using declaration the regex accepts, so the
      script's `assert match_obj != None` stops it. */
  lemma UsingNamespaceRejected()
    ensures UsingPath("using namespace std;") == None
  {
    var line := "using namespace std;";
    assert line[..5] == "using" && line[5..] == " " + "namespace std;";
    StripLeftSpaces(" ", "namespace std;");
    NamespaceNotCaptured();
  }

  lemma NamespaceNotCaptured()
    ensures CapturedPath("namespace std;") == None
  {
    NonSpacePrefixStops("namespace", " std;");
    assert "namespace std;" == "namespace" + " std;";
    StripLeftSpaces(" ", "std;");
    assert !SemicolonTail(" std;");
  }

  /** `path.split('::')[-1]`: what follows the last `::` found scanning left to right. */
  function LastComponent(s: string): string
    decreases |s|
  {
    var i := Find(s, "::");
    if i == -1 then s else LastComponent(s[i + 2..])
  }

  /** The symbol is a suffix of the path. */
  lemma {:induction false} LastComponentIsSuffix(s: string)
    ensures |LastComponent(s)| <= |s| && LastComponent(s) == s[|s| - |LastComponent(s)|..]
    decreases |s|
  {
    var i := Find(s, "::");
    if i != -1 {
      var t := LastComponentStep(s);
      LastComponentIsSuffix(t);
      SuffixOfDrop(s, |s| - |t|, |LastComponent(t)|);
    }
  }

  /** With a `::` in `s`, the symbol of `s` is that of what follows its first `::`. */
  lemma LastComponentStep(s: string) returns (t: string)
    requires Find(s, "::") != -1
    ensures |t| < |s| && t == s[|s| - |t|..] && LastComponent(s) == LastComponent(t)
  {
    var i := Find(s, "::");
    assert OccursAt(s, "::", i);
    t := s[i + 2..];
  }

  /** A suffix of `s[k..]` is the suffix of `s` of the same length. */
  lemma SuffixOfDrop(s: string, k: nat, n: nat)
    requires k <= |s| && n <= |s| - k
    ensures s[|s| - n..] == s[k..][|s| - k - n..]
  {
  }

  /** The symbol holds no `::`. */
  lemma {:induction false} LastComponentUnqualifiedResult(s: string)
    ensures Find(LastComponent(s), "::") == -1
    decreases |s|
  {
    var i := Find(s, "::");
    if i != -1 {
      assert LastComponent(s) == LastComponent(s[i + 2..]);
      LastComponentUnqualifiedResult(s[i + 2..]);
    }
  }

  /** In `p::rest` with no ':' in `p`, the first `::` is the one after `p`. */
  lemma FindQualifier(p: string, rest: string)
    requires ':' !in p
    ensures Find(p + "::" + rest, "::") == |p|
  {
    var s := p + "::" + rest;
    assert s[|p|..|p| + 2] == "::";
    forall i: nat | i < |p|
      ensures !OccursAt(s, "::", i)
    {
      assert s[i] == p[i] && p[i] in p;
      if i + 2 <= |s| {
        assert s[i..i + 2][0] == s[i];
      }
    }
    FindAt(s, "::", |p|);
  }

  /** Dropping the first component of a qualified name does not change its last component. */
  lemma LastComponentDropsFirst(parts: seq<string>)
    requires |parts| > 1 && ':' !in parts[0]
    ensures LastComponent(Join("::", parts)) == LastComponent(Join("::", parts[1..]))
  {
    var p := parts[0];
    var rest := Join("::", parts[1..]);
    var s := p + "::" + rest;
    assert Join("::", parts) == s;
    FindQualifier(p, rest);
    assert s[|p| + 2..] == rest;
  }

  /** A name without ':' is its own last component. */
  lemma LastComponentUnqualified(p: string)
    requires ':' !in p
    ensures LastComponent(p) == p
  {
    NotFoundWithout(p, "::");
  }

  /** No component of a qualified name holds a ':'. */
  predicate Unqualified(parts: seq<string>) {
    |parts| == 0 || (':' !in parts[0] && Unqualified(parts[1..]))
  }

  /** For a qualified name whose components contain no ':', the symbol is the last component. */
  lemma {:induction false} LastComponentOfQualified(parts: seq<string>)
    requires |parts| > 0 && Unqualified(parts)
    ensures LastComponent(Join("::", parts)) == parts[|parts| - 1]
  {
    if |parts| == 1 {
      LastComponentUnqualified(parts[0]);
    } else {
      var tail := parts[1..];
      LastComponentDropsFirst(parts);
      LastComponentOfQualified(tail);
      assert tail[|tail| - 1] == parts[|parts| - 1];
    }
  }

  /** What the first pass does with a line that is not a `//` comment. */
  datatype LineKind =
    | Blank
    | Verbatim                 // #include and #define lines
    | UsingLine
    | BlockStart(flags: nat)   // struct/class/inline/template blocks and namespaces
    | TypedefLine
    | Prototype
    | Ignored

  /** Lines that open a struct, class, inline or template block. */
  predicate OpensTypeBlock(line: string) {
    && (EndsWith(line, "{") || EndsWith(line, "};"))
    && (|| StartsWith(line, "struct ") || StartsWith(line, "class ") || StartsWith(line, "inline ")
        || (StartsWith(line, "template <") && (FindFrom(line, "struct ", 10) != -1 || FindFrom(line, "class ", 10) != -1)))
  }

  /** Lines taken as a function definition whose prototype goes into the header. The
      'class' test compares a six-character slice with a five-letter word, so it only
      rejects the line "class" itself. */
  predicate IsPrototype(line: string)
    requires |line| > 0
  {
    && !StartsWith(line, "struct ")
    && PySlice(line, 0, 6) != "class"
    && !StartsWith(line, "namespace")
    && line[0] != ' '
    && (Find(line, "::") == -1 || Find(line, "::") > Find(line, "("))
    && Find(line, "DioTest") == -1
    && EndsWith(line, "{")
  }

  /** The `elif` chain of the first pass, in its order. */
  function ClassifyLine(line: string): (r: LineKind)
    ensures r == Blank <==> |line| == 0
    ensures r == Verbatim <==> StartsWith(line, "#include ") || StartsWith(line, "#define ")
    ensures r == UsingLine <==> StartsWith(line, "using ")
    ensures line == "namespace {" ==> r == BlockStart(IsAnonymousNamespace)
    ensures r.Prototype? ==> |line| > 0 && EndsWith(line, "{") && line[0] != ' ' && Find(line, "DioTest") == -1
    ensures r.BlockStart? ==> EndsWith(line, "{") || EndsWith(line, "};")
  {
    if |line| == 0 then Blank
    else if StartsWith(line, "#include ") || StartsWith(line, "#define ") then
      PrefixesDiffer(line, if StartsWith(line, "#include ") then "#include " else "#define ", "using ");
      Verbatim
    else if StartsWith(line, "using ") then UsingLine
    else if OpensTypeBlock(line) then BlockStart(AddNamespaceToIdentifiers + AddSemicolon)
    else if line == "namespace {" then BlockStart(IsAnonymousNamespace)
    else if StartsWith(line, "namespace ") && EndsWith(line, "{") then BlockStart(IsNamedNamespace)
    else if StartsWith(line, "typedef ") then TypedefLine
    else if IsPrototype(line) then Prototype
    else Ignored
  }

  /** The first pass's variables between two lines. */
  datatype ScanState = ScanState(
    lineEnd: int,             // line_end_pos of the line before
    counters: seq<nat>,       // num_children_at_level
    level: int,               // scope_level
    candStart: int,           // cand_comment_block_start
    candEnd: int,             // cand_comment_block_end
    outputs: seq<Byterange>,
    blockStarts: seq<Byterange>,
    usings: seq<UsingDecl>,
    comments: seq<Byterange>)

  const Initial: ScanState := ScanState(0, [], 0, -1, -1, [], [], [], [])

  /** A `//` line at `[start, end)`: extends the candidate comment block when it ends
      right here, otherwise starts a new one. */
  function ExtendComment(st: ScanState, start: int, end: int): (r: ScanState)
    ensures r.candEnd == end
    ensures r.candStart == if start == st.candEnd then st.candStart else start
    ensures r == st.(candStart := r.candStart, candEnd := end)
  {
    if start == st.candEnd then st.(candEnd := end) else st.(candStart := start, candEnd := end)
  }

  /** A line that is not a comment: a non-empty candidate becomes a comment block with
      this line's code, and the candidate is reset. */
  function CloseComment(st: ScanState, code: string): (r: ScanState)
    ensures st.candEnd - st.candStart > 0 ==>
      r == st.(comments := st.comments + [Byterange(st.candStart, st.candEnd, "", IsCommentBlock, code)],
               candStart := -1, candEnd := -1)
    ensures st.candEnd - st.candStart <= 0 ==> r == st
  {
    if st.candEnd - st.candStart > 0 then
      st.(comments := st.comments + [Byterange(st.candStart, st.candEnd, "", IsCommentBlock, code)],
          candStart := -1, candEnd := -1)
    else st
  }

  /** What a non-comment line at `[start, end)` adds to the pass's lists. */
  function RecordLine(st: ScanState, line: string, start: int, end: int, code: string): (r: Result<ScanState, MakeHeaderError>)
    ensures r.Failure? <==> ClassifyLine(line) == UsingLine && UsingPath(line).None?
    ensures r.Success? ==> r.value.lineEnd == st.lineEnd && r.value.candStart == st.candStart && r.value.candEnd == st.candEnd
    ensures r.Success? ==> r.value.comments == st.comments
    ensures r.Success? ==> st.outputs <= r.value.outputs && st.blockStarts <= r.value.blockStarts && st.usings <= r.value.usings
  {
    var here := Byterange(start, end, "", VerbatimOutput, code);
    match ClassifyLine(line)
    case Blank => Success(st)
    case Ignored => Success(st)
    case Verbatim => Success(st.(outputs := st.outputs + [here]))
    case UsingLine =>
      (match UsingPath(line)
       case None => Failure(UsingNotParsed(line))
       case Some(path) => Success(st.(usings := st.usings + [UsingDecl(LastComponent(path), path, code)])))
    case BlockStart(flags) => Success(st.(blockStarts := st.blockStarts + [here.(flags := flags)]))
    case TypedefLine => Success(st.(outputs := st.outputs + [here.(flags := AddNamespaceToIdentifiers)]))
    case Prototype =>
      Success(st.(outputs := st.outputs +
        [Byterange(start, end - 2, ";\n", AddNamespaceToIdentifiers + AddSemicolon + RemoveBrace, code)]))
  }

  /** One iteration of the first pass's loop over `line`: the line's location code is
      taken before its braces are counted. A `//` line extends or starts the candidate
      comment block; the first other line closes a non-empty candidate, recording it
      with that line's code. */
  function ScanLine(st: ScanState, line: string): (r: Result<ScanState, MakeHeaderError>)
    ensures r.Success? ==> r.value.lineEnd == st.lineEnd + |line| + 1
    ensures r.Success? ==> st.outputs <= r.value.outputs && st.blockStarts <= r.value.blockStarts
    ensures r.Success? ==> st.usings <= r.value.usings && st.comments <= r.value.comments
    ensures r.Success? && StartsWith(line, "//") ==>
      && r.value.candEnd == r.value.lineEnd
      && r.value.candStart == (if st.candEnd == st.lineEnd then st.candStart else st.lineEnd)
      && r.value.comments == st.comments
    ensures r.Success? && !StartsWith(line, "//") && st.candEnd - st.candStart > 0 ==>
      && r.value.comments == st.comments + [Byterange(st.candStart, st.candEnd, "", IsCommentBlock, LocationCode(st.counters, st.level))]
      && r.value.candStart == -1 && r.value.candEnd == -1
  {
    Advance(st, line, UpdateNumChildren(line, st.counters, st.level))
  }

  /** The rest of one iteration, given the outcome of counting the braces of `line`. */
  function Advance(st: ScanState, line: string, counted: Result<(seq<nat>, int), MakeHeaderError>): Result<ScanState, MakeHeaderError> {
    if counted.Failure? then Failure(counted.error)
    else
      var end := st.lineEnd + |line| + 1;
      AfterCount(st.(lineEnd := end, counters := counted.value.0, level := counted.value.1), line, st.lineEnd, end, LocationCode(st.counters, st.level))
  }

  /** The rest of one iteration, once the braces of `line` are counted into `st1`. */
  function AfterCount(st1: ScanState, line: string, start: int, end: int, code: string): Result<ScanState, MakeHeaderError> {
    if StartsWith(line, "//") then Success(ExtendComment(st1, start, end))
    else RecordLine(CloseComment(st1, code), line, start, end, code)
  }

  /** The first pass over all lines, stopping at the first error. */
  function ScanLines(st: ScanState, lines: seq<string>): Result<ScanState, MakeHeaderError>
    decreases |lines|
  {
    if |lines| == 0 then Success(st)
    else
      match ScanLine(st, lines[0])
      case Failure(e) => Failure(e)
      case Success(st') => ScanLines(st', lines[1..])
  }

  /** The first pass over the whole input, split at newlines. */
  function Scan(inbuf: string): Result<ScanState, MakeHeaderError> {
    ScanLines(Initial, Split(inbuf, '\n'))
  }

  predicate InRange(b: Byterange, limit: int) {
    0 <= b.start <= b.end <= limit
  }

  /** What holds between lines: offsets are consistent, every recorded range lies in
      the text read so far, every comment block is non-empty, and the candidate
      comment block is either unset (-1, -1) or a non-empty range already read. */
  predicate Consistent(st: ScanState) {
    && st.lineEnd >= 0
    && ((st.candStart == -1 && st.candEnd == -1) || 0 <= st.candStart < st.candEnd <= st.lineEnd)
    && AllInRange(st.outputs, st.lineEnd)
    && AllInRange(st.blockStarts, st.lineEnd)
    && AllInRange(st.comments, st.lineEnd) && AllNonEmpty(st.comments)
  }

  predicate AllInRange(bs: seq<Byterange>, limit: int) {
    forall k :: 0 <= k < |bs| ==> InRange(bs[k], limit)
  }

  predicate AllNonEmpty(bs: seq<Byterange>) {
    forall k :: 0 <= k < |bs| ==> bs[k].start < bs[k].end
  }

  lemma RecordLineKeepsConsistent(st: ScanState, line: string, start: int, end: int, code: string)
    requires Consistent(st)
    requires 0 <= start && end == start + |line| + 1 && end <= st.lineEnd
    ensures RecordLine(st, line, start, end, code).Success? ==> Consistent(RecordLine(st, line, start, end, code).value)
  {
    var here := Byterange(start, end, "", VerbatimOutput, code);
    match ClassifyLine(line)
    case Verbatim => AppendInRange(st.outputs, here, st.lineEnd);
    case BlockStart(flags) => AppendInRange(st.blockStarts, here.(flags := flags), st.lineEnd);
    case TypedefLine => AppendInRange(st.outputs, here.(flags := AddNamespaceToIdentifiers), st.lineEnd);
    case Prototype =>
      AppendInRange(st.outputs, Byterange(start, end - 2, ";\n", AddNamespaceToIdentifiers + AddSemicolon + RemoveBrace, code), st.lineEnd);
    case _ =>
  }

  lemma AppendInRange(bs: seq<Byterange>, b: Byterange, limit: int)
    requires AllInRange(bs, limit) && InRange(b, limit)
    ensures AllInRange(bs + [b], limit)
  {
    assert forall k :: 0 <= k < |bs| ==> (bs + [b])[k] == bs[k];
  }

  lemma ExtendCommentKeepsConsistent(st: ScanState, start: int, end: int)
    requires Consistent(st) && 0 <= start < end == st.lineEnd
    ensures Consistent(ExtendComment(st, start, end))
  {
  }

  lemma CloseCommentKeepsConsistent(st: ScanState, code: string)
    requires Consistent(st)
    ensures Consistent(CloseComment(st, code))
  {
  }

  lemma AdvanceKeepsConsistent(st: ScanState, line: string, counted: Result<(seq<nat>, int), MakeHeaderError>)
    requires Consistent(st)
    requires Advance(st, line, counted).Success?
    ensures Consistent(Advance(st, line, counted).value)
  {
    var st1, code := AdvanceUnfolds(st, line, counted);
    MoveEndKeepsConsistent(st, st1.lineEnd, st1.counters, st1.level);
    AfterCountKeepsConsistent(st1, line, st.lineEnd, st1.lineEnd, code);
  }

  /** A successful count moves past the line and hands over to `AfterCount`. */
  lemma AdvanceUnfolds(st: ScanState, line: string, counted: Result<(seq<nat>, int), MakeHeaderError>)
    returns (st1: ScanState, code: string)
    requires counted.Success?
    ensures st1 == st.(lineEnd := st.lineEnd + |line| + 1, counters := counted.value.0, level := counted.value.1)
    ensures Advance(st, line, counted) == AfterCount(st1, line, st.lineEnd, st1.lineEnd, code)
  {
    st1 := st.(lineEnd := st.lineEnd + |line| + 1, counters := counted.value.0, level := counted.value.1);
    code := LocationCode(st.counters, st.level);
  }

  /** Moving past a line, with whatever new counters and depth, keeps every recorded range in bounds. */
  lemma MoveEndKeepsConsistent(st: ScanState, end: int, counters: seq<nat>, level: int)
    requires Consistent(st)
    requires st.lineEnd <= end
    ensures Consistent(st.(lineEnd := end, counters := counters, level := level))
  {
  }

  lemma ScanLineKeepsConsistent(st: ScanState, line: string)
    requires Consistent(st)
    ensures ScanLine(st, line).Success? ==> Consistent(ScanLine(st, line).value)
  {
    if ScanLine(st, line).Success? {
      AdvanceKeepsConsistent(st, line, UpdateNumChildren(line, st.counters, st.level));
    }
  }

  lemma AfterCountKeepsConsistent(st1: ScanState, line: string, start: int, end: int, code: string)
    requires Consistent(st1)
    requires 0 <= start && end == start + |line| + 1 == st1.lineEnd
    ensures AfterCount(st1, line, start, end, code).Success? ==> Consistent(AfterCount(st1, line, start, end, code).value)
  {
    if StartsWith(line, "//") {
      ExtendCommentKeepsConsistent(st1, start, end);
    } else {
      CloseCommentKeepsConsistent(st1, code);
      RecordLineKeepsConsistent(CloseComment(st1, code), line, start, end, code);
    }
  }

  lemma {:induction false} ScanLinesKeepsConsistent(st: ScanState, lines: seq<string>)
    requires Consistent(st)
    requires ScanLines(st, lines).Success?
    ensures Consistent(ScanLines(st, lines).value)
    decreases |lines|
  {
    if |lines| > 0 {
      ScanLineKeepsConsistent(st, lines[0]);
      ScanLinesKeepsConsistent(ScanLine(st, lines[0]).value, lines[1..]);
    }
  }

  /** Every range the first pass records lies inside the input (plus the final newline
      position the offsets count). */
  lemma ScanRangesInInput(inbuf: string)
    requires Scan(inbuf).Success?
    ensures Consistent(Scan(inbuf).value)
    ensures Scan(inbuf).value.lineEnd == |inbuf| + 1
    ensures AllInRange(Scan(inbuf).value.outputs, |inbuf| + 1)
    ensures AllInRange(Scan(inbuf).value.blockStarts, |inbuf| + 1)
    ensures AllInRange(Scan(inbuf).value.comments, |inbuf| + 1)
  {
    var lines := Split(inbuf, '\n');
    ScanLinesKeepsConsistent(Initial, lines);
    ScanLinesEnd(Initial, lines);
    SplitWidth(inbuf, '\n');
  }

  /** Each line moves the offset past the line and its newline. */
  lemma {:induction false} ScanLinesEnd(st: ScanState, lines: seq<string>)
    requires ScanLines(st, lines).Success?
    ensures ScanLines(st, lines).value.lineEnd == st.lineEnd + Width(lines)
    decreases |lines|
  {
    if |lines| > 0 {
      ScanLinesEnd(ScanLine(st, lines[0]).value, lines[1..]);
    }
  }

  /** The pieces of `s.split(c)`, each followed by one separator, span `s` and one
      character more: the offsets count a newline after the last line too. */
  lemma {:induction false} SplitWidth(s: string, c: char)
    ensures Width(Split(s, c)) == |s| + 1
    decreases |s|
  {
    match IndexOf(s, c)
    case None =>
    case Some(i) =>
      var rest := Split(s[i + 1..], c);
      SplitWidth(s[i + 1..], c);
      assert ([s[..i]] + rest)[1..] == rest;
  }

  predicate AllComments(lines: seq<string>) {
    forall k :: 0 <= k < |lines| ==> StartsWith(lines[k], "//")
  }

  /** Bytes the lines occupy, each with its newline. */
  function Width(lines: seq<string>): nat {
    if |lines| == 0 then 0 else |lines[0]| + 1 + Width(lines[1..])
  }

  /** Consecutive `//` lines merge into one candidate block: it starts at the first of
      them (or continues the candidate that ends right where they start) and ends after
      the last; nothing is recorded meanwhile. */
  lemma {:induction false} CommentRunMerges(st: ScanState, lines: seq<string>)
    requires |lines| > 0 && AllComments(lines)
    requires ScanLines(st, lines).Success?
    ensures var r := ScanLines(st, lines).value;
      && r.candEnd == st.lineEnd + Width(lines)
      && r.candStart == (if st.candEnd == st.lineEnd then st.candStart else st.lineEnd)
      && r.comments == st.comments && r.outputs == st.outputs
      && r.blockStarts == st.blockStarts && r.usings == st.usings
    decreases |lines|
  {
    var st' := ScanLine(st, lines[0]).value;
    if |lines| > 1 {
      assert AllComments(lines[1..]) by {
        forall k | 0 <= k < |lines| - 1
          ensures StartsWith(lines[1..][k], "//")
        {
          assert lines[1..][k] == lines[k + 1];
        }
      }
      CommentRunMerges(st', lines[1..]);
    }
  }


}

=== FILE: text.dfy ===
/** String helpers shared by the tools: substring search, whitespace stripping,
    decimal rendering and a lexicographic order, each following the behaviour of
    the Python or C++ library call it stands for. */
module Text {
  import opened Wrappers

  /** True iff `sub` occurs in `s` at position `i`. */
  predicate OccursAt(s: string, sub: string, i: nat) {
    i + |sub| <= |s| && s[i..i + |sub|] == sub
  }

  /** `std::string::find(sub) != npos`, Python's `sub in s`. The empty string occurs everywhere. */
  predicate Contains(s: string, sub: string) {
    exists i: nat | i <= |s| :: OccursAt(s, sub, i)
  }

  lemma EmptyIsContained(s: string)
    ensures Contains(s, "")
  {
    assert OccursAt(s, "", 0);
  }

  lemma ContainsItself(s: string)
    ensures Contains(s, s)
  {
    assert OccursAt(s, s, 0);
  }

  /** Python's `s.find(sub, from)`: the first position at or after `from` where `sub` occurs, or -1. */
  function FindFrom(s: string, sub: string, from: nat): (r: int)
    ensures r == -1 || (from <= r && OccursAt(s, sub, r))
    decreases |s| - from
  {
    if from + |sub| > |s| then
      -1
    else if s[from..from + |sub|] == sub then
      from
    else
      FindFrom(s, sub, from + 1)
  }

  /** Python's `s.find(sub)`. */
  function Find(s: string, sub: string): (r: int)
    ensures r == -1 || (0 <= r && OccursAt(s, sub, r))
  {
    FindFrom(s, sub, 0)
  }

  /** `FindFrom` misses nothing: -1 means no occurrence at or after `from`, and any
      other result is the first one there. */
  lemma {:induction false} FindFromIsFirst(s: string, sub: string, from: nat)
    ensures FindFrom(s, sub, from) == -1 <==> forall i: nat :: from <= i ==> !OccursAt(s, sub, i)
    ensures FindFrom(s, sub, from) != -1 ==> forall i: nat :: from <= i < FindFrom(s, sub, from) ==> !OccursAt(s, sub, i)
    decreases |s| - from
  {
    if from + |sub| <= |s| && s[from..from + |sub|] != sub {
      FindFromIsFirst(s, sub, from + 1);
      assert !OccursAt(s, sub, from);
    }
  }

  /** `Find` is -1 exactly when `sub` occurs nowhere, and otherwise the first occurrence. */
  lemma FindIsFirst(s: string, sub: string)
    ensures Find(s, sub) == -1 <==> forall i: nat :: !OccursAt(s, sub, i)
    ensures Find(s, sub) != -1 ==> forall i: nat :: i < Find(s, sub) ==> !OccursAt(s, sub, i)
  {
    FindFromIsFirst(s, sub, 0);
  }

  /** Index of the first occurrence of character `c`. */
  function IndexOf(s: string, c: char): (r: Option<nat>)
    ensures r.None? <==> c !in s
    ensures r.Some? ==> r.value < |s| && s[r.value] == c && c !in s[..r.value]
  {
    if |s| == 0 then None
    else if s[0] == c then Some(0)
    else
      match IndexOf(s[1..], c)
      case None => None
      case Some(i) =>
        assert s[1..][..i] == s[1..i + 1];
        Some(i + 1)
  }

  /** The characters Python's `str.strip()` and the regex class `\s` treat as white space. */
  predicate IsSpace(c: char) {
    c == ' ' || c == '\t' || c == '\n' || c == '\r' || c == 11 as char || c == 12 as char
  }

  function StripLeft(s: string): (r: string)
    ensures |r| <= |s| && r == s[|s| - |r|..]
    ensures forall i :: 0 <= i < |s| - |r| ==> IsSpace(s[i])
    ensures |r| > 0 ==> !IsSpace(r[0])
  {
    if |s| > 0 && IsSpace(s[0]) then StripLeft(s[1..]) else s
  }

  function StripRight(s: string): (r: string)
    ensures |r| <= |s| && r == s[..|r|]
    ensures forall i :: |r| <= i < |s| ==> IsSpace(s[i])
    ensures |r| > 0 ==> !IsSpace(r[|r| - 1])
  {
    if |s| > 0 && IsSpace(s[|s| - 1]) then StripRight(s[..|s| - 1]) else s
  }

  predicate AllSpace(s: string) {
    forall i :: 0 <= i < |s| ==> IsSpace(s[i])
  }

  /** Python's `str.strip()`: drops leading and trailing white space, keeps the middle. */
  function Strip(s: string): (r: string)
    ensures exists i, j :: 0 <= i <= j <= |s| && r == s[i..j] && AllSpace(s[..i]) && AllSpace(s[j..])
    ensures |r| > 0 ==> !IsSpace(r[0]) && !IsSpace(r[|r| - 1])
    ensures (forall i :: 0 <= i < |s| ==> !IsSpace(s[i])) ==> r == s
  {
    StripSlice(s);
    StripRight(StripLeft(s))
  }

  /** Stripping both ends leaves a slice with only white space cut off either side. */
  lemma StripSlice(s: string)
    ensures exists i, j :: 0 <= i <= j <= |s| && StripRight(StripLeft(s)) == s[i..j] && AllSpace(s[..i]) && AllSpace(s[j..])
  {
    var l := StripLeft(s);
    var r := StripRight(l);
    var i := |s| - |l|;
    var j := i + |r|;
    SliceChain(s, l, r);
    SpacePrefix(s, i);
    SpaceSuffix(s, l, r);
  }

  /** A prefix of a suffix is a slice. */
  lemma SliceChain(s: string, l: string, r: string)
    requires |r| <= |l| <= |s| && l == s[|s| - |l|..] && r == l[..|r|]
    ensures r == s[|s| - |l|..|s| - |l| + |r|]
  {
  }

  lemma SpacePrefix(s: string, i: nat)
    requires i <= |s| && forall k :: 0 <= k < i ==> IsSpace(s[k])
    ensures AllSpace(s[..i])
  {
    assert forall k :: 0 <= k < i ==> s[..i][k] == s[k];
  }

  lemma SpaceSuffix(s: string, l: string, r: string)
    requires |r| <= |l| <= |s| && l == s[|s| - |l|..] && r == l[..|r|]
    requires forall k :: |r| <= k < |l| ==> IsSpace(l[k])
    ensures AllSpace(s[|s| - |l| + |r|..])
  {
    assert s[|s| - |l| + |r|..] == l[|r|..];
  }

  lemma {:induction false} StripLeftSpaces(ws: string, x: string)
    requires AllSpace(ws)
    requires |x| > 0 && !IsSpace(x[0])
    ensures StripLeft(ws + x) == x
  {
    if |ws| > 0 {
      assert (ws + x)[1..] == ws[1..] + x;
      StripLeftSpaces(ws[1..], x);
    } else {
      assert ws + x == x;
    }
  }


  lemma {:induction false} StripRightSpaces(x: string, ws: string)
    requires AllSpace(ws)
    requires |x| > 0 && !IsSpace(x[|x| - 1])
    ensures StripRight(x + ws) == x
  {
    if |ws| > 0 {
      assert (x + ws)[..|x + ws| - 1] == x + ws[..|ws| - 1];
      StripRightSpaces(x, ws[..|ws| - 1]);
    } else {
      assert x + ws == x;
    }
  }

  /** `strip()` removes exactly the white space around a text whose ends are not white space. */
  lemma StripOfPadded(ws1: string, x: string, ws2: string)
    requires AllSpace(ws1) && AllSpace(ws2)
    requires |x| > 0 && !IsSpace(x[0]) && !IsSpace(x[|x| - 1])
    ensures Strip(ws1 + x + ws2) == x
  {
    assert ws1 + x + ws2 == ws1 + (x + ws2);
    StripLeftSpaces(ws1, x + ws2);
    StripRightSpaces(x, ws2);
  }

  /** A string without white space at either end is its own `strip()`. */
  lemma StripTrimmed(s: string)
    requires |s| > 0 && !IsSpace(s[0]) && !IsSpace(s[|s| - 1])
    ensures Strip(s) == s
  {
    assert StripLeft(s) == s;
    assert StripRight(s) == s;
  }

  function DigitChar(d: nat): (c: char)
    requires d < 10
    ensures '0' <= c <= '9'
  {
    "0123456789"[d]
  }

  predicate IsDigit(c: char) {
    '0' <= c <= '9'
  }

  /** Python's `str(n)` for a non-negative integer: decimal digits, no padding. */
  function Decimal(n: nat): (r: string)
    ensures |r| > 0
    ensures forall i :: 0 <= i < |r| ==> IsDigit(r[i])
    decreases n
  {
    if n < 10 then [DigitChar(n)] else Decimal(n / 10) + [DigitChar(n % 10)]
  }

  /** The number a string of decimal digits denotes. */
  function DecimalValue(s: string): nat
    requires forall i :: 0 <= i < |s| ==> IsDigit(s[i])
  {
    if |s| == 0 then 0
    else
      assert IsDigit(s[|s| - 1]);
      10 * DecimalValue(s[..|s| - 1]) + (s[|s| - 1] as int - '0' as int)
  }

  /** `Decimal` loses nothing: reading the digits back gives the number. */
  lemma {:induction false} DecimalRoundTrip(n: nat)
    ensures DecimalValue(Decimal(n)) == n
    decreases n
  {
    if n >= 10 {
      var s := Decimal(n);
      assert s[..|s| - 1] == Decimal(n / 10);
      DecimalRoundTrip(n / 10);
    }
  }

  lemma DecimalInjective(m: nat, n: nat)
    requires Decimal(m) == Decimal(n)
    ensures m == n
  {
    DecimalRoundTrip(m);
    DecimalRoundTrip(n);
  }

  /** Python's `sep.join(parts)`. */
  function Join(sep: string, parts: seq<string>): string {
    if |parts| == 0 then ""
    else if |parts| == 1 then parts[0]
    else parts[0] + sep + Join(sep, parts[1..])
  }

  /** Python's lexicographic `<` on strings (by code point). */
  predicate LexLess(a: string, b: string) {
    if |a| == 0 then |b| > 0
    else if |b| == 0 then false
    else if a[0] != b[0] then a[0] < b[0]
    else LexLess(a[1..], b[1..])
  }

  lemma {:induction false} LexLessIrreflexive(a: string)
    ensures !LexLess(a, a)
  {
    if |a| > 0 {
      LexLessIrreflexive(a[1..]);
    }
  }

  lemma {:induction false} LexLessTransitive(a: string, b: string, c: string)
    requires LexLess(a, b) && LexLess(b, c)
    ensures LexLess(a, c)
  {
    if |a| > 0 && |b| > 0 && |c| > 0 && a[0] == b[0] && b[0] == c[0] {
      LexLessTransitive(a[1..], b[1..], c[1..]);
    }
  }

  lemma {:induction false} LexLessTotal(a: string, b: string)
    requires a != b
    ensures LexLess(a, b) || LexLess(b, a)
  {
    if |a| > 0 && |b| > 0 && a[0] == b[0] {
      assert a == [a[0]] + a[1..] && b == [b[0]] + b[1..];
      LexLessTotal(a[1..], b[1..]);
    }
  }

  lemma LexLessAsymmetric(a: string, b: string)
    requires LexLess(a, b)
    ensures !LexLess(b, a)
  {
    if LexLess(b, a) {
      LexLessTransitive(a, b, a);
      LexLessIrreflexive(a);
    }
  }

  /** `s.startswith(p)`, equivalently Python's `s[0:len(p)] == p`. */
  predicate StartsWith(s: string, p: string) {
    |p| <= |s| && s[..|p|] == p
  }

  /** `s.endswith(p)`, equivalently Python's `s[-len(p):] == p` for non-empty `p`. */
  predicate EndsWith(s: string, p: string) {
    |p| <= |s| && s[|s| - |p|..] == p
  }

  /** Python's normalisation of a slice bound: negative counts from the end, then clamp. */
  function SliceBound(n: nat, i: int): (k: nat)
    ensures k <= n
    ensures 0 <= i <= n ==> k == i
    ensures 0 <= n + i && i < 0 ==> k == n + i
    ensures n + i < 0 ==> k == 0
    ensures n < i ==> k == n
  {
    if i < 0 then (if n + i < 0 then 0 else n + i) else if i > n then n else i
  }

  /** Python's `s[i:j]` (step 1): an empty result when the bounds cross. */
  function PySlice<T>(s: seq<T>, i: int, j: int): (r: seq<T>)
    ensures |r| <= |s|
    ensures 0 <= i <= j <= |s| ==> r == s[i..j]
    ensures 0 <= i && |s| <= j ==> r == s[if i <= |s| then i else |s|..]
  {
    var a, b := SliceBound(|s|, i), SliceBound(|s|, j);
    if a <= b then s[a..b] else []
  }

  /** Python's `s.split(c)` for a one-character separator: the pieces between the
      separators, including empty ones at either end. */
  function Split(s: string, c: char): (parts: seq<string>)
    ensures |parts| >= 1
    ensures forall k :: 0 <= k < |parts| ==> c !in parts[k]
    decreases |s|
  {
    match IndexOf(s, c)
    case None => [s]
    case Some(i) => [s[..i]] + Split(s[i + 1..], c)
  }

  /** Splitting loses nothing: joining the pieces with the separator restores the text. */
  lemma {:induction false} SplitJoin(s: string, c: char)
    ensures Join([c], Split(s, c)) == s
    decreases |s|
  {
    match IndexOf(s, c)
    case None =>
    case Some(i) =>
      SplitJoin(s[i + 1..], c);
      var rest := Split(s[i + 1..], c);
      assert Split(s, c) == [s[..i]] + rest;
      assert (Split(s, c))[1..] == rest;
      assert s == s[..i] + [c] + s[i + 1..];
  }

  /** Strings starting with different characters cannot share a prefix. */
  lemma PrefixesDiffer(s: string, p: string, q: string)
    requires StartsWith(s, p) && |p| > 0 && |q| > 0 && p[0] != q[0]
    ensures !StartsWith(s, q)
  {
    assert s[..|p|][0] == s[0];
    if |q| <= |s| {
      assert s[..|q|][0] == s[0];
    }
  }

  /** The first occurrence is found. */
  lemma FindAt(s: string, sub: string, k: nat)
    requires OccursAt(s, sub, k)
    requires forall i: nat :: i < k ==> !OccursAt(s, sub, i)
    ensures Find(s, sub) == k
  {
    FindIsFirst(s, sub);
  }

  /** A substring starting with character `c` is not found where `c` does not occur. */
  lemma NotFoundWithout(s: string, sub: string)
    requires |sub| > 0 && sub[0] !in s
    ensures Find(s, sub) == -1
  {
    forall i: nat | i + |sub| <= |s|
      ensures !OccursAt(s, sub, i)
    {
      assert s[i..i + |sub|][0] == s[i];
      assert s[i] in s;
    }
  }
}

=== FILE: variant.dfy ===
/** eli5::Variant: a tagged union of up to sixteen alternatives.

    A C++ `Variant<T0, ..., T15>` is a union of sixteen slots plus an integer
    `field_num` naming the slot that is live. Unused template parameters default
    to the empty structs `ES0 .. ES15`, so every variant has exactly sixteen
    alternatives. Here the alternatives are a sequence of `Type`s, the storage is
    one optional `Value` per slot, and the invariant is that exactly the slot named
    by `fieldNum` is live and holds a value of that slot's type. */
module Variant {
  import opened Wrappers
  import opened Text

  /** The fixed number of alternatives every variant carries. */
  const Arity: nat := 16

  /** The C++ types a slot can be declared with. `Filler(k)` is the empty struct `ESk`. */
  datatype Type =
    | IntType
    | DoubleType
    | StringType
    | StructType(name: string)
    | Filler(k: nat)

  /** Values of those types. Every `ESk` value equals every other: there is only one. */
  datatype Value =
    | IntValue(i: int)
    | DoubleValue(d: real)
    | StringValue(s: string)
    | StructValue(name: string, fields: seq<Value>)
    | FillerValue(k: nat)

  function TypeOf(x: Value): Type {
    match x
    case IntValue(_) => IntType
    case DoubleValue(_) => DoubleType
    case StringValue(_) => StringType
    case StructValue(n, _) => StructType(n)
    case FillerValue(k) => Filler(k)
  }

  /** How many alternatives are declared with type `t`. */
  function Occurrences(alts: seq<Type>, t: Type): nat {
    if |alts| == 0 then 0 else (if alts[0] == t then 1 else 0) + Occurrences(alts[1..], t)
  }

  lemma {:induction false} AbsentWhenNoOccurrence(alts: seq<Type>, t: Type)
    requires Occurrences(alts, t) == 0
    ensures t !in alts
  {
    if |alts| > 0 {
      AbsentWhenNoOccurrence(alts[1..], t);
    }
  }

  /** The template argument list `Variant<user...>` after defaulting: user types
      first, then `ESk` in every slot `k` the user left unset. */
  function Alternatives(user: seq<Type>): (alts: seq<Type>)
    requires |user| <= Arity
    ensures |alts| == Arity
    ensures forall k :: 0 <= k < |user| ==> alts[k] == user[k]
    ensures forall k :: |user| <= k < Arity ==> alts[k] == Filler(k)
  {
    user + seq(Arity - |user|, (i: int) requires 0 <= i => Filler(|user| + i))
  }

  lemma {:induction false} NoOccurrenceWhenAbsent(alts: seq<Type>, t: Type)
    requires t !in alts
    ensures Occurrences(alts, t) == 0
  {
    if |alts| > 0 {
      NoOccurrenceWhenAbsent(alts[1..], t);
    }
  }

  lemma {:induction false} OccurrencesAppend(a: seq<Type>, b: seq<Type>, t: Type)
    ensures Occurrences(a + b, t) == Occurrences(a, t) + Occurrences(b, t)
  {
    if |a| > 0 {
      assert (a + b)[1..] == a[1..] + b;
      OccurrencesAppend(a[1..], b, t);
    } else {
      assert a + b == b;
    }
  }

  /** Padding adds only fillers: a non-filler type is declared as often as the user wrote it. */
  lemma PaddingKeepsRealTypes(user: seq<Type>, t: Type)
    requires |user| <= Arity
    requires !t.Filler?
    ensures Occurrences(Alternatives(user), t) == Occurrences(user, t)
  {
    var alts := Alternatives(user);
    var pad := alts[|user|..];
    assert alts == user + pad;
    assert t !in pad;
    NoOccurrenceWhenAbsent(pad, t);
    OccurrencesAppend(user, pad, t);
  }

  /** `TypeToIndex<Variant, T>::index`: the slot declared with type `t`. The C++
      specialisations only resolve when `t` is declared exactly once. */
  function TypeToIndex(alts: seq<Type>, t: Type): (k: nat)
    requires Occurrences(alts, t) == 1
    ensures k < |alts| && alts[k] == t
    ensures forall j :: 0 <= j < |alts| && j != k ==> alts[j] != t
  {
    if alts[0] == t then
      AbsentWhenNoOccurrence(alts[1..], t);
      assert forall j :: 1 <= j < |alts| ==> alts[j] == alts[1..][j - 1];
      0
    else
      var k := TypeToIndex(alts[1..], t);
      assert forall j :: 1 <= j < |alts| ==> alts[j] == alts[1..][j - 1];
      k + 1
  }

  /** `TypeHelper<N, Variant>::value_type`: the type declared for slot `n`. */
  function TypeHelper(alts: seq<Type>, n: nat): Type
    requires n < |alts|
  {
    alts[n]
  }

  /** Type-to-index and index-to-type agree, in both directions, whenever the type is declared once. */
  lemma TypeIndexRoundTrip(alts: seq<Type>, n: nat, t: Type)
    requires n < |alts|
    ensures Occurrences(alts, TypeHelper(alts, n)) == 1 ==> TypeToIndex(alts, TypeHelper(alts, n)) == n
    ensures Occurrences(alts, t) == 1 ==> TypeHelper(alts, TypeToIndex(alts, t)) == t
  {
  }

  /** A variant: its alternative list (part of its C++ type), the discriminant and the sixteen slots. */
  datatype Variant = Variant(alts: seq<Type>, fieldNum: int, slots: seq<Option<Value>>)

  predicate WellShaped(v: Variant) {
    |v.alts| == Arity && |v.slots| == Arity
  }

  /** Exactly the slot named by `fieldNum` is live, and it holds a value of its declared type.
      A `fieldNum` outside 0..15 (the initial -1) means no slot is live. */
  predicate Coherent(v: Variant) {
    && WellShaped(v)
    && (forall k :: 0 <= k < Arity ==> (v.slots[k].Some? <==> k == v.fieldNum))
    && (0 <= v.fieldNum < Arity ==> TypeOf(v.slots[v.fieldNum].value) == v.alts[v.fieldNum])
  }

  /** A constructed variant: coherent, and some slot is live. */
  predicate Valid(v: Variant) {
    Coherent(v) && 0 <= v.fieldNum < Arity
  }

  /** The value in the live slot. */
  function Active(v: Variant): Value
    requires Valid(v)
  {
    v.slots[v.fieldNum].value
  }

  function EmptySlots(): (s: seq<Option<Value>>)
    ensures |s| == Arity && forall k :: 0 <= k < Arity ==> s[k].None?
  {
    seq(Arity, _ => None)
  }

  /** The object before a constructor body runs: `field_num` is -1 and no slot is live. */
  function Unconstructed(alts: seq<Type>): (v: Variant)
    requires |alts| == Arity
    ensures Coherent(v) && !Valid(v) && v.alts == alts
  {
    Variant(alts, -1, EmptySlots())
  }

  /** `Variant(const Ti& v)`: the overload whose parameter type is the value's type
      sets `field_num` to that slot and copies the value into it. */
  function Construct(alts: seq<Type>, x: Value): (v: Variant)
    requires |alts| == Arity
    requires Occurrences(alts, TypeOf(x)) == 1
    ensures Valid(v) && v.alts == alts
    ensures v.alts[v.fieldNum] == TypeOf(x)
    ensures forall j :: 0 <= j < Arity && alts[j] == TypeOf(x) ==> j == v.fieldNum
    ensures Active(v) == x
  {
    var k := TypeToIndex(alts, TypeOf(x));
    Variant(alts, k, EmptySlots()[k := Some(x)])
  }

  /** `std::string(const char*)`: the characters up to the first NUL. */
  function CString(chars: string): (s: string)
    ensures s <= chars && '\0' !in s
    ensures '\0' !in chars ==> s == chars
  {
    match IndexOf(chars, '\0')
    case None => chars
    case Some(i) => chars[..i]
  }

  /** `Variant(const char* ca) : Variant(string(ca))`: a string literal becomes the
      `string` alternative. It compiles only when `string` is declared exactly once. */
  function FromCString(alts: seq<Type>, chars: string): (v: Variant)
    requires |alts| == Arity
    requires Occurrences(alts, StringType) == 1
    ensures Valid(v) && v.alts == alts
    ensures v.alts[v.fieldNum] == StringType
    ensures forall j :: 0 <= j < Arity && alts[j] == StringType ==> j == v.fieldNum
    ensures Active(v) == StringValue(CString(chars))
  {
    Construct(alts, StringValue(CString(chars)))
  }

  /** `~Variant()`: the slots whose destructor runs. */
  function Destroy(v: Variant): (destroyed: seq<nat>)
    ensures |destroyed| <= 1
    ensures forall k :: k in destroyed ==> k == v.fieldNum && k < Arity
  {
    if 0 <= v.fieldNum < Arity then [v.fieldNum as nat] else []
  }

  /** Destruction releases exactly the live slots: none leaks, none is destroyed twice. */
  lemma DestroyReleasesExactlyLive(v: Variant)
    requires Coherent(v)
    ensures forall k: nat :: k in Destroy(v) <==> k < Arity && v.slots[k].Some?
    ensures Valid(v) ==> Destroy(v) == [v.fieldNum as nat]
    ensures !Valid(v) ==> Destroy(v) == []
  {
  }

  /** `Variant(const Variant& other)`: copies `field_num` and duplicates only the
      live slot; every other slot of the copy is left uninitialised. */
  function Copy(other: Variant): (v: Variant)
    requires WellShaped(other)
    ensures WellShaped(v) && v.alts == other.alts && v.fieldNum == other.fieldNum
    ensures forall k :: 0 <= k < Arity && k != other.fieldNum ==> v.slots[k].None?
    ensures 0 <= other.fieldNum < Arity ==> v.slots[other.fieldNum] == other.slots[other.fieldNum]
  {
    var slots :=
      if 0 <= other.fieldNum < Arity then EmptySlots()[other.fieldNum := other.slots[other.fieldNum]]
      else EmptySlots();
    Variant(other.alts, other.fieldNum, slots)
  }

  /** A copy of a coherent variant is indistinguishable from the original. */
  lemma CopyIsFaithful(other: Variant)
    requires Coherent(other)
    ensures Copy(other) == other
    ensures Valid(other) ==> Valid(Copy(other)) && Active(Copy(other)) == Active(other)
  {
    var v := Copy(other);
    assert forall k :: 0 <= k < Arity ==> v.slots[k] == other.slots[k];
  }

  /** `Is<T>()`: compares `TypeToIndex<T>` with `field_num`; it never fails. */
  function Is(v: Variant, t: Type): (r: bool)
    requires |v.alts| == Arity
    requires Occurrences(v.alts, t) == 1
    ensures r <==> 0 <= v.fieldNum < Arity && v.alts[v.fieldNum] == t
  {
    TypeToIndex(v.alts, t) == v.fieldNum
  }

  /** On a constructed variant, `Is<T>` holds exactly for the type of the live value. */
  lemma IsMatchesActiveType(v: Variant, t: Type)
    requires Valid(v)
    requires Occurrences(v.alts, t) == 1
    ensures Is(v, t) <==> TypeOf(Active(v)) == t
  {
  }

  /** The failure of a "die" accessor. */
  datatype AccessError = WrongAlternativeAccessed

  /** `explicit operator Ti&()`: asserts `field_num == i`, then yields slot `i`. */
  function ConvertAt(v: Variant, i: nat): (r: Result<Value, AccessError>)
    requires Coherent(v)
    requires i < Arity
    ensures r.Success? <==> v.fieldNum == i
    ensures r.Success? ==> v.slots[i] == Some(r.value) && TypeOf(r.value) == v.alts[i]
    ensures r.Failure? ==> r.error == WrongAlternativeAccessed
  {
    if v.fieldNum != i then Failure(WrongAlternativeAccessed) else Success(v.slots[i].value)
  }

  /** `GetOrDie<T>()`: asserts `TypeToIndex<T> == field_num`, then converts to `T&`. */
  function GetOrDie(v: Variant, t: Type): (r: Result<Value, AccessError>)
    requires Coherent(v)
    requires Occurrences(v.alts, t) == 1
    ensures r.Success? <==> Is(v, t)
    ensures r.Success? ==> Valid(v) && r.value == Active(v) && TypeOf(r.value) == t
    ensures r.Failure? ==> r.error == WrongAlternativeAccessed
  {
    ConvertAt(v, TypeToIndex(v.alts, t))
  }

  /** `eli5::GetOrDie<N>(v)`: converts to `TypeHelper<N>::value_type&`. The conversion is
      chosen by type, so it resolves only when that type is declared once. */
  function IndexedGetOrDie(v: Variant, n: nat): (r: Result<Value, AccessError>)
    requires Coherent(v)
    requires n < Arity
    requires Occurrences(v.alts, TypeHelper(v.alts, n)) == 1
    ensures r.Success? <==> v.fieldNum == n
    ensures r.Success? ==> Valid(v) && r.value == Active(v) && TypeOf(r.value) == v.alts[n]
    ensures r.Failure? ==> r.error == WrongAlternativeAccessed
  {
    GetOrDie(v, TypeHelper(v.alts, n))
  }

  /** Indexed and typed access are the same operation. */
  lemma IndexedAgreesWithTyped(v: Variant, n: nat)
    requires Coherent(v)
    requires n < Arity
    requires Occurrences(v.alts, v.alts[n]) == 1
    ensures IndexedGetOrDie(v, n) == GetOrDie(v, v.alts[n]) == ConvertAt(v, n)
  {
  }

  /** A dispatcher: the parameter types of its `Run` overloads. */
  datatype Dispatcher = Dispatcher(handles: set<Type>)

  /** `DispatchOneValue` must compile for every slot: a non-filler alternative needs a
      matching `Run`; the filler structs are taken by the empty overloads. */
  predicate CanDispatch(d: Dispatcher, alts: seq<Type>) {
    forall k :: 0 <= k < |alts| && !alts[k].Filler? ==> alts[k] in d.handles
  }

  /** `DispatchOneValue`: the `ESk` overloads do nothing, the generic one calls `Run`. */
  function DispatchOneValue(x: Value): (calls: seq<Value>)
    ensures calls == [] <==> x.FillerValue?
    ensures forall y :: y in calls ==> y == x
    ensures |calls| <= 1
  {
    if x.FillerValue? then [] else [x]
  }

  /** `DispatchUsing(dispatcher)`: the values handed to `dispatcher.Run`, in order. */
  function DispatchUsing(v: Variant, d: Dispatcher): (calls: seq<Value>)
    requires Coherent(v)
    requires CanDispatch(d, v.alts)
    ensures |calls| <= 1
    ensures forall x :: x in calls ==> Valid(v) && x == Active(v) && TypeOf(x) in d.handles
    ensures Valid(v) && !v.alts[v.fieldNum].Filler? ==> calls == [Active(v)]
    ensures Valid(v) && v.alts[v.fieldNum].Filler? ==> calls == []
  {
    if 0 <= v.fieldNum < Arity then DispatchOneValue(v.slots[v.fieldNum].value) else []
  }

  /** `operator==`: different discriminants are unequal; otherwise the live slots are
      compared with their own `==`. A discriminant outside 0..15 compares unequal. */
  function Equals(a: Variant, b: Variant): (r: bool)
    requires Coherent(a) && Coherent(b)
    requires a.alts == b.alts
    ensures r <==> Valid(a) && Valid(b) && a.fieldNum == b.fieldNum && Active(a) == Active(b)
  {
    if a.fieldNum != b.fieldNum then false
    else if 0 <= a.fieldNum < Arity then a.slots[a.fieldNum] == b.slots[b.fieldNum]
    else false
  }

  /** `operator!=`: the negation of `==`. */
  function NotEquals(a: Variant, b: Variant): (r: bool)
    requires Coherent(a) && Coherent(b)
    requires a.alts == b.alts
    ensures r <==> !Valid(a) || a.fieldNum != b.fieldNum || Active(a) != Active(b)
  {
    !Equals(a, b)
  }

  /** On constructed variants `==` is reflexive and symmetric, and it coincides with
      equality of the modelled objects. */
  lemma EqualsIsValueEquality(a: Variant, b: Variant)
    requires Valid(a) && Valid(b)
    requires a.alts == b.alts
    ensures Equals(a, a)
    ensures Equals(a, b) == Equals(b, a)
    ensures Equals(a, b) <==> a == b
  {
    if Equals(a, b) {
      assert forall k :: 0 <= k < Arity ==> a.slots[k] == b.slots[k];
    }
  }

  /** A variant built from `x` answers `Is<T>` for `x`'s type only, returns `x` from
      `GetOrDie` of that type and fails for every other declared type. */
  lemma ConstructThenAccess(alts: seq<Type>, x: Value, t: Type)
    requires |alts| == Arity
    requires Occurrences(alts, TypeOf(x)) == 1
    requires Occurrences(alts, t) == 1
    ensures Is(Construct(alts, x), t) <==> t == TypeOf(x)
    ensures t == TypeOf(x) ==> GetOrDie(Construct(alts, x), t) == Success(x)
    ensures t != TypeOf(x) ==> GetOrDie(Construct(alts, x), t) == Failure(WrongAlternativeAccessed)
  {
  }

  /** Before construction (`field_num == -1`) nothing is live: `Is` is false for every
      type, every accessor dies, destruction and dispatch do nothing, and `==` is false. */
  lemma UnconstructedIsInert(alts: seq<Type>, t: Type, d: Dispatcher)
    requires |alts| == Arity
    requires Occurrences(alts, t) == 1
    requires CanDispatch(d, alts)
    ensures !Is(Unconstructed(alts), t)
    ensures GetOrDie(Unconstructed(alts), t) == Failure(WrongAlternativeAccessed)
    ensures Destroy(Unconstructed(alts)) == []
    ensures DispatchUsing(Unconstructed(alts), d) == []
    ensures !Equals(Unconstructed(alts), Unconstructed(alts))
  {
  }
}

=== FILE: variant_tests.dfy ===
/** The Diogenes tests of the variant, stated over the model. */
module VariantTests {
  import opened Wrappers
  import opened Variant

  /** `eli5::Variant<int, string>`. */
  function IntOrString(): (alts: seq<Type>)
    ensures |alts| == Arity
    ensures Occurrences(alts, IntType) == 1 && Occurrences(alts, StringType) == 1
    ensures alts[0] == IntType && alts[1] == StringType
  {
    PaddingKeepsRealTypes([IntType, StringType], IntType);
    PaddingKeepsRealTypes([IntType, StringType], StringType);
    Alternatives([IntType, StringType])
  }

  /** `eli5::Variant<int, double>`. */
  function IntOrDouble(): (alts: seq<Type>)
    ensures |alts| == Arity
    ensures Occurrences(alts, IntType) == 1 && Occurrences(alts, DoubleType) == 1
    ensures alts[0] == IntType && alts[1] == DoubleType
  {
    PaddingKeepsRealTypes([IntType, DoubleType], IntType);
    PaddingKeepsRealTypes([IntType, DoubleType], DoubleType);
    Alternatives([IntType, DoubleType])
  }

  /** The test structs `Si { int v; }` and `Sd { double v; }`. */
  const Si: Type := StructType("Si")
  const Sd: Type := StructType("Sd")

  function SiValue(x: int): Value { StructValue("Si", [IntValue(x)]) }
  function SdValue(x: real): Value { StructValue("Sd", [DoubleValue(x)]) }

  /** `eli5::Variant<Si, Sd>`. */
  function SiOrSd(): (alts: seq<Type>)
    ensures |alts| == Arity
    ensures Occurrences(alts, Si) == 1 && Occurrences(alts, Sd) == 1
    ensures alts[0] == Si && alts[1] == Sd
    ensures forall k :: 2 <= k < Arity ==> alts[k].Filler?
  {
    PaddingKeepsRealTypes([Si, Sd], Si);
    PaddingKeepsRealTypes([Si, Sd], Sd);
    assert "Si"[1] != "Sd"[1];
    assert Si != Sd;
    assert [Si, Sd][1..] == [Sd] && [Sd][1..] == [];
    assert Occurrences([Sd], Si) == 0 && Occurrences([Sd], Sd) == 1;
    assert Occurrences([Si, Sd], Si) == 1 && Occurrences([Si, Sd], Sd) == 1;
    Alternatives([Si, Sd])
  }

  /** `eli5::Variant<Si>`. */
  function OnlySi(): (alts: seq<Type>)
    ensures |alts| == Arity
    ensures Occurrences(alts, Si) == 1
    ensures alts[0] == Si
    ensures forall k :: 1 <= k < Arity ==> alts[k].Filler?
  {
    PaddingKeepsRealTypes([Si], Si);
    Alternatives([Si])
  }

  /** `eli5::Variant<int>`. */
  function OnlyInt(): (alts: seq<Type>)
    ensures |alts| == Arity
    ensures Occurrences(alts, IntType) == 1
    ensures alts[0] == IntType
  {
    PaddingKeepsRealTypes([IntType], IntType);
    Alternatives([IntType])
  }

  /** Test_Example: `Variant<int, double>{1.25}` holds the double; typed, indexed and
      converting access agree, and the int accessor dies. */
  lemma ExampleTest()
    ensures var v := Construct(IntOrDouble(), DoubleValue(1.25));
      && GetOrDie(v, DoubleType) == Success(DoubleValue(1.25))
      && !Is(v, IntType) && Is(v, DoubleType)
      && IndexedGetOrDie(v, 1) == Success(DoubleValue(1.25))
      && IndexedGetOrDie(v, 0) == Failure(WrongAlternativeAccessed)
      && ConvertAt(v, 1) == Success(DoubleValue(1.25))
      && GetOrDie(v, IntType) == Failure(WrongAlternativeAccessed)
  {
  }

  /** Test_Basic: `Variant<int>{100}` converts back to 100. */
  lemma BasicTest()
    ensures ConvertAt(Construct(OnlyInt(), IntValue(100)), 0) == Success(IntValue(100))
  {
  }

  /** `Variant<Si, Sd>{Si{x}}`: the overload for `Si` picks slot 0, the only `Si` slot. */
  function HoldingSi(x: int): (v: Variant)
    ensures Valid(v) && v.alts == SiOrSd() && Active(v) == SiValue(x)
    ensures v.fieldNum == 0 && Occurrences(v.alts, TypeHelper(v.alts, 0)) == 1
  {
    var v := Construct(SiOrSd(), SiValue(x));
    assert v.alts[0] == TypeOf(SiValue(x));
    v
  }

  /** `Variant<Si, Sd>{Sd{x}}`: the overload for `Sd` picks slot 1, the only `Sd` slot. */
  function HoldingSd(x: real): (v: Variant)
    ensures Valid(v) && v.alts == SiOrSd() && Active(v) == SdValue(x)
    ensures v.fieldNum == 1 && TypeOf(Active(v)) == Sd != Si
  {
    var v := Construct(SiOrSd(), SdValue(x));
    assert v.alts[1] == TypeOf(SdValue(x));
    assert "Si"[1] != "Sd"[1];
    v
  }

  /** `Variant<Si>{Si{x}}`: slot 0 is the only real alternative. */
  function SoleSi(x: int): (v: Variant)
    ensures Valid(v) && v.alts == OnlySi() && Active(v) == SiValue(x)
    ensures v.fieldNum == 0 && TypeOf(Active(v)) == Si
  {
    var v := Construct(OnlySi(), SiValue(x));
    assert v.alts[0] == TypeOf(SiValue(x));
    v
  }

  /** Test_TwoTypes and Test_TwoTypes2: the converted record carries the stored field. */
  lemma TwoTypesTest()
    ensures ConvertAt(HoldingSi(100), 0) == Success(SiValue(100))
    ensures ConvertAt(HoldingSd(103.5), 1) == Success(SdValue(103.5))
    ensures ConvertAt(HoldingSd(103.5), 0) == Failure(WrongAlternativeAccessed)
  {
  }

  /** Test_GetOrDie: indexed access to slot 0 of a `Variant<Si, Sd>` holding `Si{107}`. */
  lemma IndexedGetTest()
    ensures IndexedGetOrDie(HoldingSi(107), 0) == Success(SiValue(107))
  {
  }

  /** The `flag` a `DispatcherBoth` ends with after the given `Run` calls. */
  function BothFlag(flag: int, calls: seq<Value>): int
    decreases |calls|
  {
    if |calls| == 0 then flag
    else BothFlag(if TypeOf(calls[0]) == Si then 0 else if TypeOf(calls[0]) == Sd then 1 else flag, calls[1..])
  }

  /** Test_DispatchBoth: dispatching an `Sd` runs the `Sd` handler, so the flag becomes 1. */
  lemma DispatchBothTest()
    ensures var v := HoldingSd(104.5);
      && CanDispatch(Dispatcher({Si, Sd}), v.alts)
      && BothFlag(-1, DispatchUsing(v, Dispatcher({Si, Sd}))) == 1
  {
  }

  /** Test_FallbackDispatch: a `Variant<Si>` needs only the `Si` handler; the fifteen
      filler slots take the empty overloads. The handler runs once, setting the flag to 0. */
  lemma FallbackDispatchTest()
    ensures var v := SoleSi(106);
      && CanDispatch(Dispatcher({Si}), v.alts)
      && DispatchUsing(v, Dispatcher({Si})) == [SiValue(106)]
      && BothFlag(-1, DispatchUsing(v, Dispatcher({Si}))) == 0
  {
  }

  /** Test_Copy: a copy of a variant built from "abcd" yields the same string. */
  lemma CopyTest()
    ensures var v := FromCString(IntOrString(), "abcd");
      GetOrDie(Copy(v), StringType) == GetOrDie(v, StringType) == Success(StringValue("abcd"))
  {
    CopyIsFaithful(FromCString(IntOrString(), "abcd"));
  }

  /** Test_Equality: two variants built from "abcd" are equal; one built from 1 differs. */
  lemma EqualityTest()
    ensures var v := FromCString(IntOrString(), "abcd");
      var w := FromCString(IntOrString(), "abcd");
      var z := Construct(IntOrString(), IntValue(1));
      Equals(v, w) && NotEquals(v, z)
  {
  }

  /** Test_ListInit: a string literal lands in the `string` slot, index 1. */
  lemma ListInitTest()
    ensures IndexedGetOrDie(FromCString(IntOrString(), "abcd"), 1) == Success(StringValue("abcd"))
  {
  }

  /** Test_Vector and Test_ListInitVector: each element keeps its own alternative and value. */
  lemma ListInitVectorTest()
    ensures var vs := [Construct(IntOrString(), IntValue(1)), FromCString(IntOrString(), "abcd"),
                       Construct(IntOrString(), IntValue(2))];
      && |vs| == 3
      && GetOrDie(vs[0], IntType) == Success(IntValue(1))
      && GetOrDie(vs[1], StringType) == Success(StringValue("abcd"))
      && GetOrDie(vs[2], IntType) == Success(IntValue(2))
  {
  }
}

=== FILE: wrappers.dfy ===
/** Option and Result values, used wherever the source returns None/nullptr or fails an assert. */
module Wrappers {

  /** A value that may be absent: Python's None, C++'s nullptr. */
  datatype Option<+T> = None | Some(value: T)

  /** The outcome of an operation that can fail: the source either returns a value
      or stops with an assertion failure or an exception, named by `error`. */
  datatype Result<+R, +E> = Success(value: R) | Failure(error: E)
}
